=== FILE: README.md ===
# AdWeb 3D world: a Dafny model of its client-side logic

This project models the deterministic logic of the AdWeb front end. The front
end is an Angular application that renders a walkable 3D campus with three.js.
The model leaves the rendering library, the DOM and the network aside and keeps
what the TypeScript code decides on its own:

- **Scene nodes.** `Renderable` merges partial parameter records into a state
  object. That object is the module-level default, so every node shares it.
  `update` then places the node and replays its transform.
- **Movement.** `Moveable` turns a move intent into a displacement. A ray hit
  within 50 units clamps it.
- **Action state machines.**
  - `Animatable` switches clips immediately.
  - `AnimateMoveable` cross-fades for 300 ms with one parked request.
  - `Character` chooses walking, running or idle and snaps to the ground. It
    also keeps a speech-bubble timer and the focus outline.
  - `LocalPlayer` hands focus from the previously aimed-at object to the new
    one.
- **Input.**
  - The two keyboard control managers, with their mount/unmount lifecycle and
    listener destroyers.
  - The view event registry.
  - The profile picker's wrap-around selection.
  - The on-screen key guide.
- **Registries and caches.**
  - The scene, camera, asset and object managers: both the `managers/` versions
    and the older `utils/` versions.
  - The disposable store.
  - Material and geometry memoisation.
  - The preloader's completion and progress bookkeeping.
  - The text label's re-layout decision.
  - The login session's token state.
- **Layout arithmetic.** Over exact reals: the six sides of a box, stair steps,
  desks and chairs in a classroom, the floors of the teaching building, and the
  cube grid of the distribution classroom.

The model is built from pure functions over immutable datatypes. Three kinds of
input become explicit parameters:

- ray casting, as an oracle from a query to its intersections;
- rotation results and dot products, as given reals;
- clocks, timer firings, promise completions and HTTP outcomes, as events.

JavaScript semantics are written out where they matter:

- `Object.assign`, as `Option.GetOr`;
- `Set` insertion order, as a duplicate-free sequence;
- truthiness of `x && …` and `a || b`;
- `JSON.stringify` dropping function values;
- `Math.ceil` and `Math.floor`;
- `Array(n)` followed by `push`;
- the array-length limit.

Source paths below are relative to the repository root.

## Model

| member | source | states |
|---|---|---|
| Renderable.Merge | src/app/3d/utils/Renderable.ts:57 | Every key the update supplies overrides the stored value. Every absent key keeps its previous value. |
| Renderable.TransformOps | src/app/3d/utils/Renderable.ts:67-77 | Replaying a transform issues one operation per key, in key order. An array entry becomes a vector `set` with its three numbers. A scalar entry becomes a method call with that argument. |
| Renderable.Apply | src/app/3d/utils/Renderable.ts:58-78 | An update gives the node the merged name and appends to its call log a `position.set` to the merged (x, y, z), followed by the merged transform's replay, which holds no further position set. Earlier calls are kept in order. |
| Renderable.Update | src/app/3d/utils/Renderable.ts:56-80 | `update` writes the merge into the shared state object. This node's call log gains exactly the calls the merged state implies. No other instance's node or state reference changes. |
| Renderable.TransformNode | src/app/3d/utils/Renderable.ts:82-84 | `transform(t)` records `t` in the state and replays exactly `t` on the node. |
| Renderable.Construct | src/app/3d/utils/Renderable.ts:49-54 | A new node gets a fresh group. Its state reference is the module-level default. Its state is that default merged with the constructor's parameters. |
| Renderable.Add | src/app/3d/utils/Renderable.ts:86-93 | `add` parents exactly the child's underlying object under this node's group, whether the child is a `Renderable` or a raw object. Every other parent link is kept. |
| Renderable.SharingPreserved | src/app/3d/utils/Renderable.ts:36-54 | Construction and update keep every instance pointing at the one module-level default object. |
| Renderable.UpdateVisibleToAll | src/app/3d/utils/Renderable.ts:49-59 | An update through one instance is what every other instance's recorded state becomes. |
| Renderable.SecondInstanceRenamesFirst | src/app/3d/utils/Renderable.ts:49-61 | In a concrete run, constructing node "b" after node "a" renames the state "a" records to "b". |
| Renderable.TransformReplayed | src/app/3d/utils/Renderable.ts:66-84 | A transform stays in the merged state, so a later update without a transform key sets the position again and then replays the transform a second time. |
| Renderable.UpdateResetsPosition | src/app/3d/utils/Renderable.ts:60-77 | Each update begins with a position set to the merged (x, y, z), and every later call of that update replays a transform entry. Translations made by earlier updates are therefore overridden, while rotations are applied on top of the earlier ones. |
| Renderable.MergeIdempotent | src/app/3d/utils/Renderable.ts:57 | Merging the same update twice equals merging it once. |
| Moveable.EffectiveLimit | src/app/3d/utils/Moveable.ts:32 | `distance \|\| DISTANCE`: an absent or zero limit means 50, and any other limit is kept. |
| Moveable.StaticCollide | src/app/3d/utils/Moveable.ts:28-37 | A hit is reported if and only if an intersection exists and the first one lies strictly below the effective limit. The hit reported is that first intersection. |
| Moveable.CollideReportsNearest | src/app/3d/utils/Moveable.ts:28-37 | When the caster orders hits nearest first, a reported hit is the nearest one and is within the limit. Without a report, no intersection is within the limit. |
| Moveable.Exclude | src/app/3d/utils/Moveable.ts:44 | Filtering colliders keeps exactly those that are not the mover itself. |
| Moveable.CollideQuery | src/app/3d/utils/Moveable.ts:39-50 | The instance probe excludes the mover. It starts at the world position and takes the given direction, or the node's facing when none is given. |
| Moveable.Collide | src/app/3d/utils/Moveable.ts:28-50 | The instance `collide` reports a hit exactly when the caster's first intersection for the filtered query lies strictly below the limit (50 when absent or 0), and the hit is that intersection. |
| Moveable.CollideNeverSelf | src/app/3d/utils/Moveable.ts:31-50 | With the non-recursive caster, a reported hit lies on an offered collider that is not the mover itself. |
| Moveable.MoveTowards | src/app/3d/utils/Moveable.ts:65-84 | The vertical delta is 0. Without horizontal motion, or without a hit, the delta is the raw one. On a hit, each component becomes −sgn(c)·(50 − distance)·dot. |
| Moveable.MoveNode | src/app/3d/utils/Moveable.ts:82-83 | The node's position is set from its state, then translated along x, y and z by exactly the delta that `moveTowards` returns. |
| Moveable.OnMove | src/app/3d/utils/Moveable.ts:56 | `onMove` stores exactly the state given; what `move` makes of it is stated by Moveable.MoveFollowsLastOnMove. |
| Moveable.Move | src/app/3d/utils/Moveable.ts:60-63 | `move` never climbs. A stored state without forward or right intent gives a zero delta and casts no ray. Any ray cast offers only colliders that are not the mover. |
| Moveable.LastOnMoveWins | src/app/3d/utils/Moveable.ts:56 | After any run of `onMove` calls, the stored state is the last one given. |
| Moveable.MoveFollowsLastOnMove | src/app/3d/utils/Moveable.ts:56-63 | After any run of `onMove` calls, `move` behaves as the last state given asks. After a halt it returns a zero delta and casts no ray. |
| Moveable.RawDeltaShape | src/app/3d/utils/Moveable.ts:67-70 | The raw displacement is x = −right·velocity·dt, z = forward·velocity·dt and y = 0. A missing intent counts as 0. |
| Moveable.MoveIgnoresUp | src/app/3d/utils/Moveable.ts:60-63 | `move` gives the same result whatever the vertical intent is. |
| Moveable.ZeroComponentStaysZero | src/app/3d/utils/Moveable.ts:76-80 | On a hit, a component that the intent left at 0 stays 0. |
| Moveable.FreeMoveIsRaw | src/app/3d/utils/Moveable.ts:73-82 | With no obstacle within 50 units, the realised displacement is the raw one. |
| Moveable.BlockedComponentReverses | src/app/3d/utils/Moveable.ts:76-80 | A blocked component whose axis points into the obstacle turns against the intent. Its magnitude is the overlap 50 − distance times the dot product. |
| Animatable.ResolveClip | src/app/3d/utils/Animatable.ts:38-42 | A name resolves to its own clip. Otherwise it resolves to the idle clip. With neither, it resolves to nothing. |
| Animatable.SetAction | src/app/3d/utils/Animatable.ts:36-54 | The same name, or a missing mixer, changes nothing. An unresolvable name changes nothing. Otherwise the name, the start time and the playing clip are set at once. |
| Animatable.ActionDuration | src/app/3d/utils/Animatable.ts:58 | The duration is the time elapsed since the current action was accepted. |
| Animatable.RepeatIsNoOp | src/app/3d/utils/Animatable.ts:37 | Requesting the running action again, or any action without a mixer, leaves the state unchanged. |
| Animatable.AcceptedRequestRestartsClock | src/app/3d/utils/Animatable.ts:43-58 | Right after an accepted request the action duration is 0. |
| Animatable.UnregisteredFallsBackToIdle | src/app/3d/utils/Animatable.ts:38-44 | An unregistered name plays the idle clip but is still recorded as the action name. |
| Animatable.LastAcceptedWins | src/app/3d/utils/Animatable.ts:36-54 | With two accepted requests in a row, the second one is the one playing. |
| AnimateMoveable.Request | src/app/3d/utils/AnimateMoveable.ts:31-76 | A request is ignored for the same name or without a mixer. While a fade is pending it only parks the name. If the clip is the current one, it renames without a timer. Otherwise it starts exactly one 300 ms fade. |
| AnimateMoveable.TimerFires | src/app/3d/utils/AnimateMoveable.ts:67-73 | As written, the callback stops the previous clip and re-submits the parked name while the timer is still set. The name is therefore parked again. The timer is then cleared and the slot is never emptied. |
| AnimateMoveable.TimerFiresIntended | src/app/3d/utils/AnimateMoveable.ts:67-73 | The corrected callback clears the timer, applies the parked request and empties the slot. |
| AnimateMoveable.ActionDuration | src/app/3d/utils/AnimateMoveable.ts:80 | The duration is the time elapsed since the current action was accepted. |
| AnimateMoveable.DurationRestartsOnlyOnAccept | src/app/3d/utils/AnimateMoveable.ts:34-47 | A request parked behind a pending cross-fade leaves the action duration running; an accepted request restarts it at 0. |
| AnimateMoveable.PendingRequestsOnlyQueue | src/app/3d/utils/AnimateMoveable.ts:31-37 | During a fade, requests for actions other than the current one only overwrite the parked name, and the last of them wins. The action, its start time and the timer are untouched. |
| AnimateMoveable.NoSecondTimer | src/app/3d/utils/AnimateMoveable.ts:31-76 | A request never arms a second timer while one is pending. |
| AnimateMoveable.SameClipArmsNothing | src/app/3d/utils/AnimateMoveable.ts:46-51 | A request that resolves to the clip already playing renames the action and restarts its clock, but arms no timer. |
| AnimateMoveable.RequestIdempotent | src/app/3d/utils/AnimateMoveable.ts:32 | Making the same request twice has the effect of making it once. |
| AnimateMoveable.FireNeverApplies | src/app/3d/utils/AnimateMoveable.ts:67-73 | As written, a firing timer never changes the action and never empties the parked slot. |
| AnimateMoveable.QueuedRequestLost | src/app/3d/utils/AnimateMoveable.ts:31-73 | Concrete run: request A, request B during the fade, let the timer fire. The character stays on A with B parked. |
| AnimateMoveable.IntendedLastRequestWins | src/app/3d/utils/AnimateMoveable.ts:34-73 | With the corrected callback, requesting B and then C during a pending fade, both other than the current action, and letting the timer fire, ends on C with nothing parked. |
| AnimateMoveable.ReturnDuringFadeIgnored | src/app/3d/utils/AnimateMoveable.ts:31-73 | A request for the current action during a fade is dropped by the same-name guard before the parking step. Request A, then B during the fade, then A again: B stays parked, and even the corrected callback ends on B. |
| Character.CollideQuery | src/app/3d/characters/Character.ts:106-119 | The character probe starts 50 units (the step-over height) above the feet. It excludes exactly the colliders with the character's uuid. |
| Character.VelocityFor | src/app/3d/characters/Character.ts:125-129 | The velocity is 500 exactly when the current action is running, and 200 otherwise. |
| Character.NextAction | src/app/3d/characters/Character.ts:131-142 | The next action is idle exactly when x and z are both 0. It is running exactly when the character moved and was running, or was walking for more than 2000 ms. Otherwise it is walking. |
| Character.GroundQuery | src/app/3d/characters/Character.ts:144-153 | The ground probe points straight down from 50 units above the position. Its range is unbounded and it excludes the character by uuid. |
| Character.Move | src/app/3d/characters/Character.ts:123-165 | The returned x and z are the superclass move's. The velocity and the requested action follow the rules above. A ground hit sets y to probe − distance and returns the change. Without a hit, y is unchanged and the returned y is 0. |
| Character.Update | src/app/3d/characters/Character.ts:167-197 | A different profile id is recorded, drops the model and queues one reload of that profile's asset. Otherwise the merged action is requested, the position and name keys are merged, and the world position becomes where the base placed the object. Nothing else changes. |
| Character.UpdateMovesProbe | src/app/3d/characters/Character.ts:106-195 | After an update that keeps the profile, the next collision probe starts 50 units above the position the update placed the character at, and the next `move` starts from there. |
| Character.Say | src/app/3d/characters/Character.ts:212-223 | The bubble is attached only when no removal timer is pending. The timer always restarts at time·1000 ms, 5 s by default. |
| Character.SpeechExpires | src/app/3d/characters/Character.ts:219-222 | A firing removal timer detaches the bubble and forgets the timer. |
| Character.Focus | src/app/3d/characters/Character.ts:199-201 | `focus` leaves the outline attached and changes nothing else. |
| Character.Blur | src/app/3d/characters/Character.ts:203-205 | `blur` leaves the outline detached and changes nothing else. |
| Character.FocusBlurRoundTrip | src/app/3d/characters/Character.ts:199-205 | `blur` undoes `focus` when the outline was hidden, and `focus` undoes `blur` when it was shown. Repeating either call changes nothing. |
| Character.ProfileUrl | src/app/3d/characters/Character.ts:172-178 | A profile in the table asks for `fbx/people/<name>.fbx`. An id outside the table asks for `fbx/people/undefined.fbx`. |
| Character.ProfileUrlsDistinct | src/app/3d/characters/Character.ts:172-178 | Distinct profiles in the table ask for distinct model URLs. An id outside the table asks for a URL that no profile in the table asks for. |
| Character.GroundSnapExample | src/app/3d/characters/Character.ts:154-162 | Worked example: feet at 200, probe from 250, hit at distance 250. The character lands at 0 and reports y = −200. |
| Character.MoveChoosesAction | src/app/3d/characters/Character.ts:131-142 | With every clip registered and no fade pending, the character is idle exactly when it did not move, and walking or running otherwise. |
| Character.RunningStaysRunning | src/app/3d/characters/Character.ts:125-142 | A running character moves at running velocity and keeps running while it moves. |
| Character.UpdateIdempotent | src/app/3d/characters/Character.ts:192-195 | An update that keeps the profile, applied twice with the same placement, has the same effect as once. |
| Character.SpeechConsistencyKept | src/app/3d/characters/Character.ts:212-223 | A pending removal timer always means the bubble is attached. `say` and expiry both keep this. |
| Character.SayRestartsTimer | src/app/3d/characters/Character.ts:214-222 | A second `say` while the bubble is up restarts the timer at its own duration without attaching again. |
| LocalPlayer.New | src/app/3d/characters/LocalPlayer.ts:18-19 | Whatever name colour was asked for, the local player's label is green (0x00ff00). |
| LocalPlayer.Direction | src/app/3d/characters/LocalPlayer.ts:28-30 | Before any direction is set, the getter returns the character's own facing. Afterwards it returns the value last stored. |
| LocalPlayer.SetDirection | src/app/3d/characters/LocalPlayer.ts:31-44 | The node turns only when the angle exceeds 0.001 rad. The direction is stored either way. |
| LocalPlayer.FocusQuery | src/app/3d/characters/LocalPlayer.ts:46-56 | The focus probe starts at eye height above the node and looks along the direction. Its range is 1000 and it excludes the player by uuid. |
| LocalPlayer.UuidFilter | src/app/3d/characters/LocalPlayer.ts:54 | Filtering keeps exactly the colliders whose uuid differs from the player's. |
| LocalPlayer.CheckFocus | src/app/3d/characters/LocalPlayer.ts:46-63 | The focused object is the object of the hit the probe reports, or nothing. |
| LocalPlayer.HandOff | src/app/3d/characters/LocalPlayer.ts:68-74 | The previous focus is blurred if and only if it exists and differs from the new one. The new focus, when there is one, is focused on every call. No other object is touched. |
| LocalPlayer.Move | src/app/3d/characters/LocalPlayer.ts:66-76 | The move result is the character's, unchanged. The focus becomes what the probe hits, with the outline calls of the hand-off. |
| LocalPlayer.SteadyFocusRefocuses | src/app/3d/characters/LocalPlayer.ts:71-74 | Aiming at the same object again focuses it again and never blurs it. |
| LocalPlayer.SwitchBlursThenFocuses | src/app/3d/characters/LocalPlayer.ts:71-74 | Moving the aim from one object to another blurs the old one, then focuses the new one. |
| LocalPlayer.DirectionRoundTrip | src/app/3d/characters/LocalPlayer.ts:28-44 | Reading the direction after setting it returns what was set, whether or not the node turned. |
| ControlManager.MergeOptions | src/app/3d/managers/ControlManager.ts:58-63 | Every option key supplied overrides. Every absent key keeps its value. |
| ControlManager.New | src/app/3d/managers/ControlManager.ts:27-60 | A new manager has fresh defaults (document body, joystick, pointer lock) overridden by the options. It is unmounted, with no keys pressed and no destroyers. |
| ControlManager.Set | src/app/3d/managers/ControlManager.ts:144-186 | Setting one pressed flag changes that flag only. |
| ControlManager.Emit | src/app/3d/managers/ControlManager.ts:188-191 | With a move callback installed, the report is (forward − back, right − left, up). Without one, nothing is reported. |
| ControlManager.KeyDown | src/app/3d/managers/ControlManager.ts:144-163 | w/ArrowUp, s/ArrowDown, a/ArrowLeft, d/ArrowRight and space raise their flag. Any other key changes no flag. Every key down reports. |
| ControlManager.KeyUp | src/app/3d/managers/ControlManager.ts:165-186 | The same keys lower their flag. `q` also asks for a perspective switch. Every key up reports. |
| ControlManager.Route | src/app/3d/managers/ControlManager.ts:122-130 | Names containing "key" go to the window. Names containing "lock" go to the pointer controls when pointer control is on, and there is no target while those controls do not exist. Everything else goes to the container. |
| ControlManager.Attach | src/app/3d/managers/ControlManager.ts:131-133 | The listener is registered on the routed target and its destroyer is appended to the list. |
| ControlManager.On | src/app/3d/managers/ControlManager.ts:122-134 | `on` registers the listener where `Route` says and returns the destroyer for exactly that registration. It fails when a lock event has no pointer controls to go to. |
| ControlManager.BindAll | src/app/3d/managers/ControlManager.ts:136-142 | Binding a list of handlers registers each one and appends one destroyer per handler, in order. |
| ControlManager.BoundTargets | src/app/3d/managers/ControlManager.ts:136-142 | `bindEvents` binds keydown, keyup, mousedown, lock and unlock, in that order, each on its routed target. |
| ControlManager.Mount | src/app/3d/managers/ControlManager.ts:70-104 | Without a camera, or while mounted, nothing changes. Otherwise the manager is mounted, keeps the camera and both callbacks, and binds the five handlers. |
| ControlManager.Unmount | src/app/3d/managers/ControlManager.ts:106-120 | Unmounted, nothing changes. Otherwise every destroyer runs once, the list is emptied and the joystick and pointer controls are dropped. |
| ControlManager.Update | src/app/3d/managers/ControlManager.ts:62-68 | The options are merged. A mounted manager is remounted with its camera and move callback only. |
| ControlManager.EmittedInRange | src/app/3d/managers/ControlManager.ts:144-191 | Key handlers keep every flag at 0 or 1, so each reported component lies in {−1, 0, 1}. |
| ControlManager.PressReleaseRoundTrip | src/app/3d/managers/ControlManager.ts:144-186 | Pressing then releasing a key that was up restores the pressed flags. |
| ControlManager.MountUnmountRestores | src/app/3d/managers/ControlManager.ts:70-120 | Mounting then unmounting leaves the listener registry exactly as it was. |
| ControlManager.BoundAsRouted | src/app/3d/managers/ControlManager.ts:122-142 | Every handler `mount` binds lands where `on` routes its event name. |
| ControlManager.UpdateDropsSwitch | src/app/3d/managers/ControlManager.ts:62-67 | After `update` on a mounted manager, releasing `q` no longer asks for a perspective switch. |
| Events.Delegate | src/app/3d/managers/ControlManager.ts:40-45 | `delegate` adds the (target, event, listener) registration and returns a destroyer naming exactly that registration. |
| Events.Destroy | src/app/3d/managers/ControlManager.ts:42 | A destroyer removes its own registration and nothing else. |
| Events.DestroyAll | src/app/3d/managers/ControlManager.ts:117 | Running a list of destroyers removes each of their registrations. |
| Events.DestroyAllRemoves | src/app/3d/managers/ControlManager.ts:117-118 | Running a list of destroyers leaves exactly the registry minus their registrations. |
| Events.DelegateDestroyRoundTrip | src/app/3d/managers/ControlManager.ts:40-45 | Delegating a new registration and running its destroyer restores the registry. |
| LegacyControlManager.New | src/app/3d/utils/ControlManager.ts:49-57 | The constructor writes the options into the shared module-level defaults. The manager takes its container and move callback from them. |
| LegacyControlManager.KeyDown | src/app/3d/utils/ControlManager.ts:88-98 | Only w, s, a, d and space raise a flag, so arrows do nothing. Every key reports. |
| LegacyControlManager.KeyUp | src/app/3d/utils/ControlManager.ts:100-110 | Only w, s, a, d and space lower a flag. Every key reports. |
| LegacyControlManager.BindEvents | src/app/3d/utils/ControlManager.ts:79-86 | Five registrations are added (keydown, keyup, mousedown, lock, unlock) and five destroyers appended. |
| LegacyControlManager.On | src/app/3d/utils/ControlManager.ts:59-72 | `on(null)` changes nothing. Otherwise the camera is kept, new pointer controls are made and five handlers are bound. |
| LegacyControlManager.Off | src/app/3d/utils/ControlManager.ts:74-77 | `off` runs every destroyer but keeps the list. |
| LegacyControlManager.SharedDefaultsLeak | src/app/3d/utils/ControlManager.ts:21-57 | A second manager built without a move callback inherits the first manager's callback. |
| LegacyControlManager.OnOffAccumulates | src/app/3d/utils/ControlManager.ts:59-86 | Every `on` with a camera grows the destroyer list by five, and `off` never shrinks it. |
| LegacyControlManager.OffIdempotent | src/app/3d/utils/ControlManager.ts:74-77 | Running `off` twice leaves the same registry as running it once. |
| LegacyControlManager.OffRemovesBound | src/app/3d/utils/ControlManager.ts:59-86 | After `on` then `off`, none of the handlers that `on` bound is still registered. |
| LegacyControlManager.OnRegistry | src/app/3d/utils/ControlManager.ts:59-86 | One `on` with a camera removes only the last registration made on the previous pointer controls, if any, and adds exactly its five new registrations. |
| LegacyControlManager.StaleLockHandlerSurvives | src/app/3d/utils/ControlManager.ts:66-69 | A second `on` destroys only the last registration on the old pointer controls, so the old lock handler is still registered. |
| View.SetAdd | src/app/3d/views/View.ts:55 | `Set.add` appends a listener that is absent and leaves a present one where it is. |
| View.SetDelete | src/app/3d/views/View.ts:71 | `Set.delete` removes exactly the given listener and keeps the order of the rest. |
| View.On | src/app/3d/views/View.ts:50-61 | The listener joins the event's set, which is created if absent. The handle returned names this event and listener. Other events are untouched. |
| View.OffAsWritten | src/app/3d/views/View.ts:68-73 | As written, `off` deletes a fresh arrow function, so the registry never changes. |
| View.Off | src/app/3d/views/View.ts:68-73 | The corrected `off` removes exactly that listener from that event. |
| View.Emit | src/app/3d/views/View.ts:80-85 | Every listener of the event is called once, in insertion order, with the whole argument array. An unknown event calls nobody. |
| View.Calls | src/app/3d/views/View.ts:83 | There is one call per registered listener, in order, each with the argument array. |
| View.OnMove | src/app/3d/views/View.ts:91-93 | `onMove` stores the state given and leaves the registry and the calls delivered alone. |
| View.OnMoveCommutes | src/app/3d/views/View.ts:50-93 | `onMove` commutes with `on` and with `emit`. Of two `onMove` calls, the later one decides the stored state. |
| View.DestroyAsWritten | src/app/3d/views/View.ts:57-60 | The handle's `destory` leaves the registry, the move state and the calls delivered as they were. |
| View.OnTwiceStoresOnce | src/app/3d/views/View.ts:50-56 | Registering the same listener twice stores it once. |
| View.DestroyLeavesListener | src/app/3d/views/View.ts:57-73 | Counterexample: after `on` and the handle's `destory`, the listener is still registered. |
| View.OnOffRoundTrip | src/app/3d/views/View.ts:50-73 | With the corrected `off`, adding a new listener to an existing event and removing it restores the registry. |
| View.EmitCallsEachOnce | src/app/3d/views/View.ts:80-85 | In a valid registry, `emit` calls each registered listener exactly once. |
| ProfileView.Mount | src/app/3d/views/ProfileView.ts:18-27 | `mount` appends one profile per table entry k, named after the entry, with profile id k, at x = 50·k. |
| ProfileView.SetProfile | src/app/3d/views/ProfileView.ts:83-92 | v ≥ n wraps to 0 and v < 0 to n − 1; any other v is kept. The camera moves by (new − old)·50. |
| ProfileView.KeyUp | src/app/3d/views/ProfileView.ts:62-77 | a/ArrowLeft select the previous profile and d/ArrowRight the next. Enter/space emit `save` with the current id and Escape emits `exit`. Other keys do nothing. |
| ProfileView.KeyUpKeepsCameraInSync | src/app/3d/views/ProfileView.ts:62-92 | Whatever key is released, the camera stays exactly over the selected profile. |
| ProfileView.MountKeepsCameraInSync | src/app/3d/views/ProfileView.ts:18-27 | Mounting keeps the camera over the selected profile. |
| ProfileView.WrapsAround | src/app/3d/views/ProfileView.ts:83-89 | Stepping right from the last profile selects the first. Stepping left from the first selects the last. |
| ProfileView.LeftUndoesRight | src/app/3d/views/ProfileView.ts:62-92 | Inside the table, stepping left undoes stepping right. |
| ProfileView.SaveReportsSelection | src/app/3d/views/ProfileView.ts:71-73 | Enter calls the `save` listener with exactly the current selection. |
| SceneManager.Merge | src/app/3d/managers/SceneManager.ts:175 | Every present key overrides, null included. Every absent key keeps its value. |
| SceneManager.UpdateScene | src/app/3d/managers/SceneManager.ts:157-194 | The old lights leave the scene. The merged parameters are stored. A non-null ambient adds a new light and a null one clears it. A sun is made only for a present `sun` key. The renderables are kept. |
| SceneManager.Get | src/app/3d/managers/SceneManager.ts:84-93 | A new name is created and configured from fresh defaults and the parameters. An existing name returns the same scene untouched. |
| SceneManager.Switch | src/app/3d/managers/SceneManager.ts:108-115 | The named scene, created if needed, becomes the active one. |
| SceneManager.Update | src/app/3d/managers/SceneManager.ts:95-102 | Without an active scene nothing changes. Otherwise the parameters are merged into the active scene's stored ones. |
| SceneManager.Renderables | src/app/3d/managers/SceneManager.ts:75-78 | The set is empty without an active scene and is the active scene's set otherwise. |
| SceneManager.Add | src/app/3d/managers/SceneManager.ts:123-131 | Without an active scene nothing changes. Otherwise the object joins the active scene's renderables, once, and its graph. As three.js `Object3D.add` reparents, the object leaves every other scene's graph, while the other scenes' renderable sets stay as they were. |
| SceneManager.Render | src/app/3d/managers/SceneManager.ts:137-142 | When an active scene and a camera both exist, the renderer draws that scene's graph through the camera. Otherwise it is not called. |
| SceneManager.RenderAfterSwitch | src/app/3d/managers/SceneManager.ts:84-142 | Once a camera exists, the render after a switch draws the scene switched to. A newly created scene is drawn with its default ambient light. |
| SceneManager.AddedIsDrawn | src/app/3d/managers/SceneManager.ts:123-142 | An object added to the active scene is drawn with it. After a switch to any other scene it is not drawn, even when that scene held it before. |
| SceneManager.AddMovesObject | src/app/3d/managers/SceneManager.ts:123-142 | After an add the object hangs in one scene graph only. Add it in one scene, add it in a second, switch back to the first: the first is drawn without it, though its renderable set still lists it. |
| SceneManager.FreshSceneHasNoSun | src/app/3d/managers/SceneManager.ts:20-25 | A scene created with no `sun` key gets an ambient light but no sun, because the defaults name the key `light`. |
| SceneManager.NullAmbientClears | src/app/3d/managers/SceneManager.ts:178-185 | Updating with `ambient: null` removes the active scene's ambient light. |
| SceneManager.SwitchIdempotent | src/app/3d/managers/SceneManager.ts:108-115 | Switching to the same name a second time changes nothing. |
| SceneManager.AddIsolatedToActive | src/app/3d/managers/SceneManager.ts:123-131 | Adding to the active scene leaves every other scene's renderables as they were. |
| SceneManager.UpdateParamsIdempotent | src/app/3d/managers/SceneManager.ts:95-102 | Updating twice with the same parameters stores the same parameters as updating once. |
| SceneManager.MergeIdempotent | src/app/3d/managers/SceneManager.ts:175 | Merging the same parameters twice equals merging them once. |
| PerspectiveManager.MergeOptions | src/app/3d/managers/PerspectiveManager.ts:29-34 | The options are fresh defaults (fov 45, near 0.1, far 200000) overridden by the supplied keys. |
| PerspectiveManager.Apply | src/app/3d/managers/PerspectiveManager.ts:173 | Every supplied placement key overrides. Every absent key keeps its value. |
| PerspectiveManager.New | src/app/3d/managers/PerspectiveManager.ts:52-58 | A new manager has merged options, the container's aspect ratio, no cameras and no active name. |
| PerspectiveManager.Active | src/app/3d/managers/PerspectiveManager.ts:60-65 | There is a camera if and only if a name is active. It is that name's camera. |
| PerspectiveManager.UpdateCamera | src/app/3d/managers/PerspectiveManager.ts:170-178 | The parameters are merged into the stored placement. The camera is put exactly where it says. No other camera changes. |
| PerspectiveManager.Get | src/app/3d/managers/PerspectiveManager.ts:76-91 | A first `get` stores the defaults (0, 0, 10 looking at the origin) overridden by the parameters. A later `get` merges into the stored placement. Either way the camera ends up placed. |
| PerspectiveManager.Update | src/app/3d/managers/PerspectiveManager.ts:98-104 | Without an active camera nothing changes. Otherwise the active camera's placement is merged and applied. |
| PerspectiveManager.SetAspect | src/app/3d/managers/PerspectiveManager.ts:162-168 | The aspect is stored and pushed to the active camera only. |
| PerspectiveManager.Switch | src/app/3d/managers/PerspectiveManager.ts:150-158 | `switch(null)` deactivates and returns nothing. A name becomes active and its camera is fetched and given the current aspect. |
| PerspectiveManager.Follow | src/app/3d/managers/PerspectiveManager.ts:111-122 | Without an active camera nothing changes. Otherwise the camera is reparented under the object, and looks at it when asked to. |
| PerspectiveManager.Steps | src/app/3d/managers/PerspectiveManager.ts:139-141 | Translations are x, y, z in that order. A missing or zero component is skipped. |
| PerspectiveManager.Move | src/app/3d/managers/PerspectiveManager.ts:128-143 | The camera is translated when it has no parent or hangs from a scene. Otherwise its parent is translated. Nothing is moved without an active camera. |
| PerspectiveManager.ApplyDefaultsOnce | src/app/3d/managers/PerspectiveManager.ts:173 | Merging the same parameters a second time changes nothing. |
| PerspectiveManager.UpdateSnapsBack | src/app/3d/managers/PerspectiveManager.ts:170-178 | A camera that was moved returns to its stored placement on any `update`. |
| PerspectiveManager.MoveLeavesPlacement | src/app/3d/managers/PerspectiveManager.ts:128-143 | A nonzero move of an unparented active camera takes it off its stored placement. |
| PerspectiveManager.SwitchAwayAndBack | src/app/3d/managers/PerspectiveManager.ts:150-158 | Switching to null and back to a name makes that camera active again. |
| PerspectiveManager.GetTwiceKeepsPlacement | src/app/3d/managers/PerspectiveManager.ts:76-91 | A second `get` without parameters leaves the placement the first one stored. |
| PerspectiveManager.FollowRedirectsMove | src/app/3d/managers/PerspectiveManager.ts:111-143 | Once the active camera follows an object, a move translates the object and leaves the camera as it stands: still under the object, looking at it when asked, with no translation of its own. A later `update` does not end the follow. |
| PerspectiveManager.SetAspectReachesNewCameras | src/app/3d/managers/PerspectiveManager.ts:76-168 | A new aspect reaches the active camera at once and every camera created later. The last ratio set wins. Setting it never changes a stored placement, even through a later switch. |
| LegacySceneManager.MergeShared | src/app/3d/utils/SceneManager.ts:76 | The parameters overwrite the shared module-level defaults themselves. Absent keys keep the shared value. |
| LegacySceneManager.Get | src/app/3d/utils/SceneManager.ts:68-81 | A scene is created only for a new name. On every `get` the merged defaults set a truthy background, add one ambient light per truthy ambient, and add one axes helper when axes is set. |
| LegacySceneManager.Switch | src/app/3d/utils/SceneManager.ts:87-93 | The fetched scene becomes active and the single sun moves into it. |
| LegacySceneManager.Add | src/app/3d/utils/SceneManager.ts:100-107 | Without an active scene, or when the object is already in it, nothing changes. Otherwise the object moves into the active scene. |
| LegacySceneManager.Render | src/app/3d/utils/SceneManager.ts:113-118 | When an active scene and a camera both exist, the renderer draws that scene through the camera, with exactly the objects currently parented to it, and lit exactly when the sun is in it. Otherwise it is not called. |
| LegacySceneManager.RenderAfterSwitch | src/app/3d/utils/SceneManager.ts:87-118 | Once a camera exists, the render after a switch draws the scene switched to, with the sun in it. An object added there is drawn, and it is no longer drawn after a switch to another scene. |
| LegacySceneManager.SharedParamsLeak | src/app/3d/utils/SceneManager.ts:68-81 | An ambient colour given for one scene is added again to every later scene fetched without one. |
| LegacySceneManager.GetAccumulatesAmbients | src/app/3d/utils/SceneManager.ts:76-78 | Fetching an existing scene again adds one more ambient light while the shared ambient is nonzero. |
| LegacySceneManager.SunFollowsSwitch | src/app/3d/utils/SceneManager.ts:87-93 | The sun belongs to the last scene switched to and has left the one before. |
| LegacySceneManager.AddMovesObject | src/app/3d/utils/SceneManager.ts:100-107 | Adding twice is adding once. Adding after a switch moves the object to the new scene. |
| LegacyPerspectiveManager.MergeOptions | src/app/3d/utils/PerspectiveManager.ts:58 | The options are written into the shared module-level defaults. Absent keys keep the shared value. |
| LegacyPerspectiveManager.New | src/app/3d/utils/PerspectiveManager.ts:57-66 | As written, a measured aspect goes to the caller's options object, never to the stored defaults. Cameras therefore get the shared aspect, or none. |
| LegacyPerspectiveManager.NewIntended | src/app/3d/utils/PerspectiveManager.ts:57-66 | With the correction, a missing aspect is measured from the container and stored. |
| LegacyPerspectiveManager.Update | src/app/3d/utils/PerspectiveManager.ts:80-91 | Without an active type nothing changes. Otherwise the parameters are merged into the shared placement and the active camera is placed there. |
| LegacyPerspectiveManager.Get | src/app/3d/utils/PerspectiveManager.ts:105-120 | A new type gets a camera whose state is the shared default object. Then `update` places the active camera, not necessarily the requested one. |
| LegacyPerspectiveManager.Switch | src/app/3d/utils/PerspectiveManager.ts:127-130 | The type becomes active before the fetch, so the fetched camera is the one placed. |
| LegacyPerspectiveManager.Move | src/app/3d/utils/PerspectiveManager.ts:93-98 | The active camera is translated by the nonzero components only. |
| LegacyPerspectiveManager.MeasuredAspectLost | src/app/3d/utils/PerspectiveManager.ts:57-66 | Counterexample: a manager built without an aspect gives its cameras aspect 1, whatever the container's ratio. |
| LegacyPerspectiveManager.IntendedAspectMeasured | src/app/3d/utils/PerspectiveManager.ts:57-66 | With the corrected constructor, a camera's aspect is the container's ratio. |
| LegacyPerspectiveManager.PlacementShared | src/app/3d/utils/PerspectiveManager.ts:113-114 | Placing the active camera rewrites the stored state of every other camera, because they share one object. |
| LegacyPerspectiveManager.GetPlacesActiveCamera | src/app/3d/utils/PerspectiveManager.ts:105-120 | Fetching a new camera while another is active re-places the active one. The new camera keeps its initial position. |
| LegacyPerspectiveManager.MoveThenUpdateSnapsBack | src/app/3d/utils/PerspectiveManager.ts:80-98 | A moved camera returns to the shared placement on any `update`. The move itself never touches that placement. |
| LegacyPerspectiveManager.MoveLeavesPlacement | src/app/3d/utils/PerspectiveManager.ts:93-98 | A nonzero move takes a placed active camera off the shared placement. |
| AssetManager.CachedLoader | src/app/3d/managers/AssetManager.ts:35-42 | A loader instance is created only for a class without one. The instance list keeps one entry per class. |
| AssetManager.Match | src/app/3d/managers/AssetManager.ts:49-55 | The chosen class belongs to the first rule whose suffix the URL ends with: images, then obj, fbx and json. Any non-empty URL falls back to the file loader. The empty URL matches nothing. |
| AssetManager.MatchFrom | src/app/3d/managers/AssetManager.ts:92-97 | Scanning from rule k picks the first matching rule at or after k. |
| AssetManager.Get | src/app/3d/managers/AssetManager.ts:72-113 | A URL list always goes to the cube-texture loader, uncached. A cached URL resolves without loading. A miss loads with the given loader, or the matched one. The empty URL rejects with "No loader matches!". |
| AssetManager.Loaded | src/app/3d/managers/AssetManager.ts:80-83 | A finished single-URL load is stored under its URL. A list's result is not stored. |
| AssetManager.LoadThenHit | src/app/3d/managers/AssetManager.ts:77-85 | After a successful load, the next `get` of that URL resolves from the cache, whatever loader it names. |
| AssetManager.ListsNeverCached | src/app/3d/managers/AssetManager.ts:73-76 | The same URL list loads again after a completed load. |
| AssetManager.OneInstancePerClass | src/app/3d/managers/AssetManager.ts:34-42 | However many loads run, there is at most one loader instance per class. |
| AssetManager.MatchImageFirst | src/app/3d/managers/AssetManager.ts:49-55 | An image suffix takes the texture loader even when the name also mentions another format. |
| AssetManager.MatchEmpty | src/app/3d/managers/AssetManager.ts:92-103 | The empty URL matches no rule, so its load rejects. |
| LegacyAssetManager.Chain | src/app/3d/utils/AssetManager.ts:65-76 | A URL goes to the cube-texture loader if and only if it ends in jpg, png or jpeg. Otherwise it goes to the OBJ loader if and only if it ends in obj, then to the FBX loader if and only if it ends in fbx. Everything else goes to the file loader. |
| LegacyAssetManager.Get | src/app/3d/utils/AssetManager.ts:48-63 | A list without a loader rejects, and with one it loads. A single URL is served from the map if present. Otherwise it is loaded as the one-element list [url]. |
| LegacyAssetManager.Loaded | src/app/3d/utils/AssetManager.ts:57-62 | A finished load stores nothing. |
| LegacyAssetManager.EverySingleGetLoads | src/app/3d/utils/AssetManager.ts:57-62 | Starting from an empty map, every single-URL `get` loads again, however many loads finished before. |
| LegacyAssetManager.ImagesDiffer | src/app/3d/utils/AssetManager.ts:68-69 | An image URL goes to the cube-texture loader here, and to the texture loader in the newer manager. |
| ObjectManager.Requests | src/app/3d/managers/ObjectManager.ts:39-47 | A falsy URL requests nothing. One URL requests itself. A list requests each entry, in order. |
| ObjectManager.Get | src/app/3d/managers/ObjectManager.ts:28-65 | A stored name without override returns the stored object. Otherwise a new renderable with the name is stored, replacing any previous one, and one batch of requests starts. Missing parameters fail at `Object.assign`. |
| ObjectManager.Complete | src/app/3d/managers/ObjectManager.ts:48-60 | A completed batch hands the resources to its renderable, then to the caller's `onLoad` if there is one. |
| ObjectManager.Fail | src/app/3d/managers/ObjectManager.ts:48 | A failed batch is dropped and nobody is called. |
| ObjectManager.GetAsync | src/app/3d/managers/ObjectManager.ts:73-82 | `getAsync` is `get` whose `onLoad` resolves the returned promise. |
| ObjectManager.GetStable | src/app/3d/managers/ObjectManager.ts:28-35 | A second `get` without override returns the first one's renderable and changes nothing. |
| ObjectManager.OverrideReplaces | src/app/3d/managers/ObjectManager.ts:37-64 | With override, a stored name gets a new renderable in its place. |
| ObjectManager.GetAsyncResolves | src/app/3d/managers/ObjectManager.ts:73-82 | For a new name with a URL, the promise resolves with the resources once its batch completes. |
| ObjectManager.GetAsyncExistingStarvesPromise | src/app/3d/managers/ObjectManager.ts:28-35 | For a stored name no batch starts, so the `getAsync` promise never resolves. |
| ObjectManager.EmptyListLoadsNothing | src/app/3d/managers/ObjectManager.ts:39-53 | An empty URL list is truthy. Its batch has nothing to wait for and completes with no resources. |
| LegacyObjectManager.Get | src/app/3d/utils/ObjectManager.ts:28-56 | A stored name always returns the stored object. Otherwise a new renderable is stored under the name. There is one pending request when the URL is truthy and the older asset manager does not reject it. |
| LegacyObjectManager.Normalize | src/app/3d/utils/ObjectManager.ts:42-47 | An array resource is spread into the list. A single resource becomes a one-element list. |
| LegacyObjectManager.Complete | src/app/3d/utils/ObjectManager.ts:41-52 | A settled request hands the normalised list to its renderable, then to the caller's `onLoad`. |
| LegacyObjectManager.GetAsyncAsWritten | src/app/3d/utils/ObjectManager.ts:64-72 | As written, the detached `get` runs with `this` undefined. It throws inside the executor and changes nothing. |
| LegacyObjectManager.GetAsync | src/app/3d/utils/ObjectManager.ts:64-72 | With the correction, `getAsync` is `get` on this manager with the promise's resolver as `onLoad`. |
| LegacyObjectManager.GetAsyncNeverResolves | src/app/3d/utils/ObjectManager.ts:64-72 | Counterexample: as written, `getAsync` starts no request and leaves its promise unresolved. |
| LegacyObjectManager.IntendedGetAsyncResolves | src/app/3d/utils/ObjectManager.ts:64-72 | With the correction, a new name with one URL resolves its promise once the request settles. |
| LegacyObjectManager.UrlListNeverLoads | src/app/3d/utils/ObjectManager.ts:37-52 | A URL list is rejected by the older asset manager, so neither the renderable nor `onLoad` is ever called. |
| LegacyObjectManager.StoredNameWins | src/app/3d/utils/ObjectManager.ts:30-33 | A stored name comes back unchanged, even with new parameters or a URL. |
| Disposable.DisposeItem | src/app/3d/utils/Disposable.ts:66 | Disposing an item logs one call. A listener handle also removes exactly its listener. |
| Disposable.DisposeEach | src/app/3d/utils/Disposable.ts:42 | Disposing a list logs one call per item, in order. It removes exactly the listeners the list holds handles for. |
| Disposable.Clear | src/app/3d/utils/Disposable.ts:41-44 | `clear` disposes each held item once and empties the store. |
| Disposable.Dispose | src/app/3d/utils/Disposable.ts:32-39 | The first `dispose` marks the store and clears it. A later one changes nothing. |
| Disposable.Add | src/app/3d/utils/Disposable.ts:47-55 | A live store holds the item once. A disposed store ignores it. The item is returned either way. |
| Disposable.Register | src/app/3d/utils/Disposable.ts:18-23 | Registering the owner on itself fails. Anything else goes into its store and is returned. |
| Disposable.AddDisposableEventListener | src/app/3d/utils/Disposable.ts:63-68 | The listener is registered and the returned handle names exactly that registration. |
| Disposable.DisposeIdempotent | src/app/3d/utils/Disposable.ts:32-39 | A second `dispose` changes neither the store nor the world. |
| Disposable.AddAfterDispose | src/app/3d/utils/Disposable.ts:47-55 | After `dispose`, `add` returns the item, keeps the store and disposes nothing. |
| Disposable.DisposeCallsEachOnce | src/app/3d/utils/Disposable.ts:27-44 | `dispose` calls a held item's `dispose` exactly once, however often it was added. |
| Disposable.DisposeRemovesExactlyItsListeners | src/app/3d/utils/Disposable.ts:63-68 | Disposing a store that holds a listener handle removes that listener and no other registration. |
| Guide.EscOp | src/app/3d/Guide.ts:60-64 | The esc hint reads 取消 on the profile picker and 取消锁定/退出游戏 everywhere else. |
| Guide.Mount | src/app/3d/Guide.ts:58-77 | An unknown scene fails. A known one shows a copy of its hints plus one trailing esc hint, and puts the guide in the container. |
| Guide.Unmount | src/app/3d/Guide.ts:79-84 | The guide leaves the container. Unmounting when it is not there succeeds too. |
| Guide.Dispose | src/app/3d/Guide.ts:53-55 | The first disposal runs the registered disposer, which unmounts. |
| Guide.MountTwiceSameList | src/app/3d/Guide.ts:58-64 | Mounting a scene twice shows the same list, because the table never grows. |
| Guide.WalkingScenesStartWithCommon | src/app/3d/Guide.ts:8-38 | The town, study and distribution lists start with the five common hints, in order. |
| Guide.DisposeUnmounts | src/app/3d/Guide.ts:53-55 | A mounted guide is unmounted by its disposal, and a second disposal changes nothing. |
| Cache.CachedMaterialAsWritten | src/app/3d/utils/cache.ts:4-13 | As written, a hit on the colour alone returns the cached material. A miss builds exactly one material and stores it under the colour. |
| Cache.CachedMaterial | src/app/3d/utils/cache.ts:4-13 | Keyed on class and colour, a hit returns the cached object and a miss builds one. Every material returned has the class and colour asked for and is double-sided. |
| Cache.CachedGeometryAsWritten | src/app/3d/utils/cache.ts:15-24 | As written, a hit on the parameter list alone returns the cached geometry. A miss builds one and stores it under the list. |
| Cache.CachedGeometry | src/app/3d/utils/cache.ts:15-24 | Keyed on class and parameters, every geometry returned has the class and parameters asked for. It is built at most once per key. |
| Cache.MaterialClassIgnored | src/app/3d/utils/cache.ts:6 | Counterexample: asking for a second class in a colour already cached returns the first class's material. |
| Cache.GeometryClassIgnored | src/app/3d/utils/cache.ts:17 | Counterexample: a cylinder asked for with a box's parameters comes back as the box. |
| Cache.MaterialMemoised | src/app/3d/utils/cache.ts:7-12 | The same request twice returns the same object and builds nothing the second time. |
| Cache.MaterialsAlwaysMatch | src/app/3d/utils/cache.ts:5-13 | Keyed on class too, any sequence of requests keeps every cached material matching its key. |
| Cache.GeometryMemoised | src/app/3d/utils/cache.ts:16-23 | A repeated geometry request returns the same object and builds nothing more. |
| Preloader.Keys | src/app/3d/lib/Preloader.ts:19-23 | The registered keys are the listed URLs without repeats. |
| Preloader.New | src/app/3d/lib/Preloader.ts:16-64 | Every listed URL is registered with loaded 0, not complete and no total, and one request is made for each. The bar overlay is added only without a custom progress handler. |
| Preloader.CheckCompleted | src/app/3d/lib/Preloader.ts:66-72 | The result is true if and only if every asset is complete. With no assets it is true. |
| Preloader.Scan | src/app/3d/lib/Preloader.ts:78-86 | With every total known, the ratio is the sums of loaded and total. At the first asset without a total, loaded resets to 0 and the scan stops. |
| Preloader.Progress | src/app/3d/lib/Preloader.ts:74-89 | The progress ratio is the sum of loaded over the sum of total, or 0 over the totals before the first unknown total. |
| Preloader.OnProgress | src/app/3d/lib/Preloader.ts:105-110 | A progress event records that asset's loaded and total and reports the new ratio. |
| Preloader.OnReadyStateChange | src/app/3d/lib/Preloader.ts:96-103 | As written, a 200 completion marks the asset complete. When all are complete the overlay is removed and completion fires, unless the overlay is not in the container; then the removal throws. |
| Preloader.OnReadyStateChangeIntended | src/app/3d/lib/Preloader.ts:96-103 | With the correction, completion fires exactly when the last asset completes, and only an overlay that was added is removed. |
| Preloader.FinishedIsWhole | src/app/3d/lib/Preloader.ts:74-89 | Once every asset reports loaded equal to its known total, the progress ratio is the whole. |
| Preloader.CustomProgressNeverCompletes | src/app/3d/lib/Preloader.ts:96-103 | Counterexample: with a custom progress handler and a body outside the container, the single asset completes, but the removal throws and completion never fires. |
| Preloader.CustomProgressCompletes | src/app/3d/lib/Preloader.ts:96-103 | With the correction, the same run fires completion. |
| Preloader.DuplicateUrlCompletesOnce | src/app/3d/lib/Preloader.ts:19-23 | A URL listed twice is one asset, so its first completion already completes the preloader. |
| Preloader.WaitsForEveryAsset | src/app/3d/lib/Preloader.ts:96-103 | Completion does not fire while some other asset is still incomplete. |
| Text.New | src/app/3d/utils/Text.ts:49-62 | Each text field takes the given value or its default, and the material takes the text's colour. One font request goes out for the resulting font, style, content, size and height. The renderable state holds every supplied key and the renderable default height. |
| Text.Update | src/app/3d/utils/Text.ts:64-86 | Each key is compared with the `state` getter, where the renderable state wins. A colour that differs from the state's recolours the material, so in a consistent text the material shows any colour supplied. The content, size, font and style end up as supplied. The height is taken over only when it differs from the renderable height. The font is requested once, with the new settings, if and only if some geometry setting differed. |
| Text.DefaultsApplied | src/app/3d/utils/Text.ts:26-33 | A text with no parameters has content '', size 20, height 1, colour 0 and helvetiker regular. Its state reports the renderable height 0. |
| Text.ColorOnlyNoReload | src/app/3d/utils/Text.ts:72-84 | A colour-only update shows the colour given and requests no font. |
| Text.UpdateTwiceLoadsOnce | src/app/3d/utils/Text.ts:64-85 | Repeating an update requests no font the second time, because the renderable state already holds every supplied setting. |
| Text.ColorRevertRecolours | src/app/3d/utils/Text.ts:64-85 | Changing the colour and then changing it back shows the original colour again, because the state held the changed colour. |
| Text.HeightComparedWithState | src/app/3d/utils/Text.ts:64-85 | A default text asked for height 0 keeps its own height 1 and requests nothing, since the renderable height is already 0. Asked for height 1, it requests the font again. |
| Text.MaterialFollowsLastColor | src/app/3d/utils/Text.ts:64-85 | After any sequence of updates, the material shows the last colour given, and it keeps its colour through updates that give none. |
| Box.LayoutOf | src/app/3d/utils/Box.ts:51-80 | Front and back are width × height, left and right are depth × height, top and bottom are width × depth. Front sits at z = depth, right at x = width and top at y = height. |
| Box.ColorOf | src/app/3d/utils/Box.ts:96-101 | The side's own colour wins over the box colour, which wins over white. |
| Box.BuildSide | src/app/3d/utils/Box.ts:91-104 | A side is built with its configured class or `Side`, its name, the colour rule, and the table's size and position. Side parameters override them. |
| Box.Build | src/app/3d/utils/Box.ts:89-107 | Exactly six sides are built, in the order front, back, left, right, top, bottom. |
| Box.NewSide | src/app/3d/utils/Box.ts:129-138 | A side's plane is centred at half its size, so it spans (0, 0) to (width, height). Its colour defaults to white. |
| Box.SideSpansFace | src/app/3d/utils/Box.ts:51-80 | Without overrides, the arguments passed for each side place it exactly over its face of the box. |
| Box.SidesCloseTheBox | src/app/3d/utils/Box.ts:51-80 | Without overrides, the arguments passed for the six sides cover exactly the six faces of the box. |
| Box.FlagIgnored | src/app/3d/utils/Box.ts:90-107 | The `if` flag of a side configuration changes nothing that is built. |
| Box.OtherSidesUnchanged | src/app/3d/utils/Box.ts:90-107 | Overriding one side's configuration changes that side only. |
| Stairs.Ceil | src/app/3d/utils/Stairs.ts:18 | `Math.ceil`: the least integer at or above x. |
| Stairs.LayoutOf | src/app/3d/utils/Stairs.ts:16-21 | A zero step height, or a count outside the array range, throws. Otherwise count = ceil(height / stepHeight), count·actual = height, and the step depth is depth / count, or 50 when no depth is given. |
| Stairs.NotTaller | src/app/3d/utils/Stairs.ts:18-19 | Rounding the count up makes each step at most as tall as asked. |
| Stairs.StepAt | src/app/3d/utils/Stairs.ts:22-30 | Step i is raised by i step heights and set back by i step depths. It is two step depths deep. |
| Stairs.BuildAsWritten | src/app/3d/utils/Stairs.ts:16-33 | As written, `steps` ends 2n long with its first n slots empty. The n steps added to the group are right. |
| Stairs.Build | src/app/3d/utils/Stairs.ts:16-33 | With the correction, `steps` holds exactly the n steps of the flight, in order. |
| Stairs.TwoStepsAsWritten | src/app/3d/utils/Stairs.ts:21-32 | Counterexample: a flight of two steps leaves `steps` four long, with an empty first slot. |
| Stairs.FlightIsContinuous | src/app/3d/utils/Stairs.ts:22-30 | In the arguments passed for the steps, each step sits on top of the one below, and the last one ends at the full height. |
| Stairs.StepsOverlap | src/app/3d/utils/Stairs.ts:22-30 | In the arguments passed for the steps, consecutive steps overlap by one step depth, so the flight has no gaps underneath. |
| Classroom.AddChair | src/app/3d/utils/Classroom.ts:251-267 | There are floor(deskWidth / width) chairs, at x = (i + 1)·margin + i·width. Depth is the width when absent or 0. |
| Classroom.DeskAt | src/app/3d/utils/Classroom.ts:156-165 | Desk (i, j) is constructed with x = DELTA/2 + platform depth + 2 m + j·(depth + gap), y = DELTA/2, z = DELTA/2 + i·(width + gap), and chairs 0.8 m wide. |
| Classroom.New | src/app/3d/utils/Classroom.ts:41-173 | The classroom constructs six room sides and a 3 × 5 grid of desks, with the arguments above. |
| Classroom.ChairsEvenlySpaced | src/app/3d/utils/Classroom.ts:252-261 | Chairs leave the same non-negative margin before the first, between each two and after the last. |
| Classroom.FiveChairsPerDesk | src/app/3d/utils/Classroom.ts:149-170 | In exact arithmetic a desk takes five chairs, with no margin. |
| Classroom.ColumnsFillDepth | src/app/3d/utils/Classroom.ts:149-163 | In the desk arguments, the three desk columns and two gaps of 1.5 m fill the room's depth exactly. |
| Classroom.RowsFitInRoom | src/app/3d/utils/Classroom.ts:158-162 | In the desk arguments, the last desk row ends inside the room. |
| Classroom.PlatformCanBeSteppedOnto | src/app/3d/utils/Classroom.ts:108 | The platform is lower than the step-over height, so characters can walk onto it. |
| Classroom.RoomSides | src/app/3d/utils/Classroom.ts:43-100 | The room's floor is grey, its front and back are walls, and the other sides are plain white. |
| Classroom.DrawerKeepsSixSides | src/app/3d/utils/Classroom.ts:203-214 | The drawer box keeps all six silver sides. Its `if: false` flags are never read. |
| TeachingBuilding.NewFloor | src/app/3d/utils/TeachingBuilding.ts:50-71 | A floor constructs five classrooms with x = i·CLASSROOM_WIDTH, y = 5 and no z, inside a floor-sized box with a grey floor. |
| TeachingBuilding.New | src/app/3d/utils/TeachingBuilding.ts:22-42 | A building constructs one floor per i < floors, floor i with y = i·FLOOR_HEIGHT + 5, and a box (FLOOR_HEIGHT + 10)·floors high. |
| TeachingBuilding.BuildingBox | src/app/3d/utils/TeachingBuilding.ts:24-34 | The building's box is as wide and deep as a floor and (FLOOR_HEIGHT + 10)·floors high. It has no colour of its own, and only its four walls are configured, each with the unread `if: false` flag alone. |
| TeachingBuilding.FloorDimensions | src/app/3d/utils/TeachingBuilding.ts:7-13 | A floor is a classroom's height plus 10, five classrooms wide and two deep. |
| TeachingBuilding.FloorsStack | src/app/3d/utils/TeachingBuilding.ts:35-37 | In the arguments passed, each floor starts where the one below ends. |
| TeachingBuilding.FloorsFitInBuilding | src/app/3d/utils/TeachingBuilding.ts:27-37 | In the arguments passed, the top floor ends below the top of the building's box. |
| TeachingBuilding.ClassroomsTileFloor | src/app/3d/utils/TeachingBuilding.ts:64-66 | In the arguments passed, the five classrooms sit edge to edge and fill the floor's width exactly. |
| TeachingBuilding.FloorWallsStillBuilt | src/app/3d/utils/TeachingBuilding.ts:56-63 | The walls flagged `if: false` are built all the same, so each floor box has six sides and a grey floor. |
| DistributionClassroom.Cell | src/app/3d/utils/DistributionClassroom.ts:161 | A cell is defined exactly when the row has that column, and then it is heights[i][j]. |
| DistributionClassroom.CleanCubes | src/app/3d/utils/DistributionClassroom.ts:176-180 | Cleaning takes the cubes out of the scene and leaves an empty group. |
| DistributionClassroom.GenerateCubes | src/app/3d/utils/DistributionClassroom.ts:157-170 | Success requires at least 40 rows. It shows exactly 1600 cubes, cube i·40 + j being cell (i, j). A missing row throws and nothing is shown. |
| DistributionClassroom.SampleDistribution | src/app/3d/utils/DistributionClassroom.ts:183-193 | The sample is a 40 × 40 matrix. |
| DistributionClassroom.GenerateSampleCubes | src/app/3d/utils/DistributionClassroom.ts:172-174 | The sample grid shows 1600 cubes, cube (i, j) at level (i + j)/2. |
| DistributionClassroom.SampleSymmetricAndBounded | src/app/3d/utils/DistributionClassroom.ts:183-193 | The sample is symmetric and its levels lie in [0, 39]. |
| DistributionClassroom.GridFillsBorder | src/app/3d/utils/DistributionClassroom.ts:23-29 | Forty cubes span the border's inner length exactly. |
| DistributionClassroom.CubeRestsOnBase | src/app/3d/utils/DistributionClassroom.ts:161-165 | A cube's base rests at the base height, whatever its level. |
| DistributionClassroom.CubeInsideBorder | src/app/3d/utils/DistributionClassroom.ts:163-164 | Every grid cube lies inside the border, which is centred in the room. |
| DistributionClassroom.RegenerateReplaces | src/app/3d/utils/DistributionClassroom.ts:157-180 | Generating twice shows exactly the second grid. |
| UserSession.New | src/app/user-session.service.ts:26-32 | A new service is not ready and holds no token, even when one is stored. |
| UserSession.SaveToken | src/app/user-session.service.ts:34-39 | Saving a token holds it, stores it under JWT and makes the service ready. No other stored key changes. |
| UserSession.Logout | src/app/user-session.service.ts:41-46 | Logging out drops the token from memory and storage and makes the service not ready. |
| UserSession.Login | src/app/user-session.service.ts:48-79 | A response's token is always saved, since every token passes the check. An error changes nothing. The caller gets the outcome either way. |
| UserSession.IsReady | src/app/user-session.service.ts:85-87 | In a consistent session, the service is ready exactly while a token is held. |
| UserSession.AuthHeadersAsWritten | src/app/user-session.service.ts:90-96 | As written, a not-ready session throws. Otherwise there is one header named `Authorization:`, colon included, carrying the token. |
| UserSession.AuthHeaders | src/app/user-session.service.ts:90-96 | With the correction, the header name is a valid field name and the value is the token. |
| UserSession.AuthHeaderNameInvalid | src/app/user-session.service.ts:93-95 | Counterexample: the name handed out is not a valid field name (sections 5.1 and 5.6.2 of RFC 9110). |
| UserSession.LoginThenLogout | src/app/user-session.service.ts:34-46 | After a successful login the service is ready and the header carries the new token. Logging out undoes both and the stored token. |
| UserSession.FailedLoginStaysOut | src/app/user-session.service.ts:70-72 | A failed login leaves a logged-out service logged out. |
| UserSession.StoredTokenIgnored | src/app/user-session.service.ts:26-32 | A token stored by an earlier run does not make a new service ready. |

## Left out

- three.js internals are left out: ray casting, quaternions, vector normalisation, `angleTo`/`cross`, the animation mixer's blending, the WebGL renderer, lights, materials and meshes. Hits are an oracle; rotated directions and dot products are given reals.
- The DOM is left out: the preloader's overlay styling and XHR objects, the guide's HTML, the joystick (`src/app/3d/lib/JoyStick.ts` is not part of this model), window resize listeners, and `console.warn`.
- `setTimeout`, `Date.now()` and promise resolution are not executed. Timer firings and completions are explicit events, and the clock is a parameter.
- Floating point is not modelled; lengths are exact reals. `Classroom.FiveChairsPerDesk` holds in exact arithmetic. In IEEE doubles, 4·METER / (0.8·METER) evaluates to 4.999…, so a desk gets four chairs. NaN and infinities are not modelled either: `Preloader.Progress` returns the (loaded, total) pair rather than dividing, and a cube level read from a short row is `None`.
- `for … in` over object keys is modelled as insertion order. JavaScript puts integer-like keys first, which the preloader's URL keys never are.
- An explicit `undefined` value in a parameter record is treated like an absent key.
- `Renderable.onLoad` (shadow flags and texture assignment on loaded meshes) and `Character.onLoad` are left out: they only touch mesh materials.
- Character: the model reload chain is left out beyond the asset URL it requests (`Character.Update`), and so is the `state` getter. `ProfileMap` indices outside the table read `undefined` in the URL.
- `sgn` comes from a utility module that is not part of this model; it is modelled as the usual −1/0/1 sign. The action names IDLE, WALKING and RUNNING come from a module that is not part of this model; they are modelled as distinct string constants.
- Classroom: the border, light, platform, board and desk/chair meshes are left out, and so are the wall's window parameters. Only the box sides, desk placement, chair spacing and constants are modelled.
- Classroom.AddChair: requires a positive chair width. With width 0 the source computes an infinite count and never leaves its loop.
- TeachingBuilding.New: takes a whole number of floors. A fractional count builds ⌈floors⌉ floors in the source; that case is not modelled.
- DistributionClassroom: cube colours are random (`lodash.random`) and are not modelled.
- Text: the geometry built by `loadFont` is not modelled. Each font load is recorded as a request with its URL and layout.
- Text.New: the renderable constructor is read as merging the parameters into this text's own renderable state, without dispatching to `Text.update`. Under `src/app/3d/utils/Renderable.ts`, its `this.update(params)` would reach `Text.update` before `assetManager` and `material` are assigned, and would throw for any colour or content that differs from the state.
- The renderable base of the subclasses: the subclasses are written against a `Renderable` that `src/app/3d/utils/Renderable.ts` does not match, and that base is not part of this model. They import `defaultRenderableParams` (Character.ts:7, 40) and override a `state` getter that reads `super.state` (Character.ts:100-104, Text.ts:64-67). They also read `uuid` (Character.ts:107) and call `remove` (DistributionClassroom.ts:178). The subclass models read that base as keeping one state per instance, with the defaults of Renderable.ts:36-45. For `Text` its `update` merges every supplied key. For `Character` it is read as never holding `profileID` or `action`; the two lines below say what that leaves out. `remove` is modelled as detaching the child (DistributionClassroom.CleanCubes, Character.Blur). The shared-state behaviour is modelled only in the `Renderable` module itself.
- Character.Update: compares the supplied profile with the character's own `_profileID`, and takes the action from the parameters or the current action, as if the base state held neither key. A base that kept every key `super.update` passes would keep the `profileID` and `action` of Character.ts:194. It would also keep the `state` getter's output stored by the load callback (Character.ts:186), in which `super.state` wins (Character.ts:100-104). An update without a profile would then compare against that stale profile and action, and could reload a profile the character has left. The model does not promise that behaviour. The world position after the base places the object is a parameter, `placed`, read from the scene graph as `Move` reads `worldAfter`. The model does not tie it to the merged x, y, z, because the base's placement and any parent transform are not part of this model.
- Character.Move: models the ground snap `this.update({ y })` (Character.ts:161) as setting `y` alone. Under the reading above it neither reloads a profile nor requests any action but the current one; a base that kept `profileID` and `action` could do both.
- Box.SideSpansFace: states the arguments each side is constructed with, not where the built side ends up. The final placement goes through the renderable base above. Under `src/app/3d/utils/Renderable.ts`, a side would take the shared x, y, z and replay the last merged turn (see Renderable.UpdateVisibleToAll and Renderable.TransformReplayed).
- Box.SidesCloseTheBox: states the arguments of the six sides, not the built sides, for the same reason as Box.SideSpansFace.
- Stairs.FlightIsContinuous: states the y and z arguments of the step boxes, not the built boxes, whose placement goes through the renderable base above.
- Stairs.StepsOverlap: states the z and depth arguments of the step boxes, not the built boxes, for the same reason.
- Classroom.DeskAt: states the arguments a desk is constructed with. The built desk is then turned by `rotateY(π/2)` and shifted by `translateX(-DESK_WIDTH)` (Classroom.ts:166-167), which the model does not record. Under `src/app/3d/utils/Renderable.ts`, the desk body's `update({ y: legHeight })` (Classroom.ts:215) would also re-place the shared state.
- Classroom.New: states the room sides and the desk arguments, not where the built desks end up (see Classroom.DeskAt).
- Classroom.ColumnsFillDepth: arithmetic on the desk arguments, not on the turned and shifted desks.
- Classroom.RowsFitInRoom: arithmetic on the desk arguments, not on the turned and shifted desks.
- TeachingBuilding.NewFloor: states the parameters the classrooms are constructed with, `{ x, y }` and no `z`. Where a classroom ends up, and which `z` it takes, is decided by the renderable base above.
- TeachingBuilding.New: states the floor and box arguments, not the built floors, for the same reason as TeachingBuilding.NewFloor.
- TeachingBuilding.FloorsStack: compares the y arguments of the floors, not the built floors.
- TeachingBuilding.FloorsFitInBuilding: compares argument heights, not the built nodes.
- TeachingBuilding.ClassroomsTileFloor: compares the x arguments of the classrooms, not the built classrooms.
- Cache: a colour is an integer and geometry parameters are a list of reals. `cachedMaterial` also accepts a colour given as an object (`{ [key: string]: any }`), and `cachedGeometry` any values. Serialising those into the key is not modelled: two such values are taken to share a key exactly when they are equal. The dropped `ctor` does not depend on the value's type.
- Preloader: only the bookkeeping is modelled. The XHR round trip is two events, a progress event and a ready-state change with its status.
- UserSession: the HTTP request and rxjs subjects are reduced to the outcome the caller receives. `localStorage` is a map.
- The socket layer, the HTTP API wrappers, the Angular components, `Game.ts` and the per-scene views, `Wall`, `Light`, `Cylinder`, `Town`, `SpeechBubble`, `Chat` and `Gen` are not part of this model.

## Findings

| source | as written | input that shows it | evidently intended | confidence | as-written member | corrected member |
|---|---|---|---|---|---|---|
| src/app/3d/utils/AnimateMoveable.ts:67-73 | The timer callback re-submits the parked name while `actionTimer` is still set, so the request is parked again and never applied. The slot is never emptied. | Request A, request B within 300 ms, let the timer fire: the action stays A. | Clear the timer, then apply the parked request and empty the slot. | high (not executed) | AnimateMoveable.TimerFires, AnimateMoveable.QueuedRequestLost | AnimateMoveable.TimerFiresIntended, AnimateMoveable.IntendedLastRequestWins |
| src/app/3d/views/View.ts:68-73 | `off` calls `subs.delete(v => v === listener)`, deleting a fresh arrow function, so nothing is removed. | `on("save", f)`, then the handle's `destory()`: `f` is still registered. | `subs.delete(listener)`. | high (not executed) | View.OffAsWritten, View.DestroyLeavesListener | View.Off, View.OnOffRoundTrip |
| src/app/3d/utils/PerspectiveManager.ts:57-66 | The measured aspect is written into the caller's `options` argument, not into the stored defaults the cameras read. | A manager built with no aspect and a 16:9 container: its cameras get aspect 1. | Store the measured aspect where `get` reads it. | medium (not executed) | LegacyPerspectiveManager.New, LegacyPerspectiveManager.MeasuredAspectLost | LegacyPerspectiveManager.NewIntended, LegacyPerspectiveManager.IntendedAspectMeasured |
| src/app/3d/utils/ObjectManager.ts:64-72 | `getAsync` destructures `get` and calls it unbound, so `this` is undefined inside it and the promise never resolves. | Any `getAsync(name, { url })`. | Call `this.get(name, newParams)`. | high (not executed) | LegacyObjectManager.GetAsyncAsWritten, LegacyObjectManager.GetAsyncNeverResolves | LegacyObjectManager.GetAsync, LegacyObjectManager.IntendedGetAsyncResolves |
| src/app/3d/utils/cache.ts:6 | `JSON.stringify({ ctor, color })` drops the function-valued `ctor`, so the cache key is the colour alone. | `cachedMaterial(MeshBasicMaterial, 0)` then `cachedMaterial(MeshLambertMaterial, 0)`: the second returns the basic material. | Key on the class as well as the colour, and the same for `cachedGeometry`. | high (not executed) | Cache.CachedMaterialAsWritten, Cache.MaterialClassIgnored | Cache.CachedMaterial, Cache.MaterialsAlwaysMatch |
| src/app/3d/utils/Stairs.ts:21 | `Array<Box>(stepCount)` pre-sizes `steps`, and each step is then pushed after the empty slots. | height 40, stepHeight 20: `steps` has length 4, with slots 0 and 1 empty. | `steps` holds exactly the flight. | high (not executed) | Stairs.BuildAsWritten, Stairs.TwoStepsAsWritten | Stairs.Build, Stairs.FlightIsContinuous |
| src/app/3d/lib/Preloader.ts:99-101 | With a custom `onProgress`, `domElement` stays `document.body`. Completion then removes the body from the container, which throws before `onComplete` runs. | assets ["scene.json"], a custom `onProgress`, and a container that does not hold the body: the 200 completion throws. | Remove the overlay only when one was added, then call `onComplete`. | medium (not executed) | Preloader.OnReadyStateChange, Preloader.CustomProgressNeverCompletes | Preloader.OnReadyStateChangeIntended, Preloader.CustomProgressCompletes |
| src/app/user-session.service.ts:93-95 | The header key is `'Authorization:'`, with the colon inside the field name, which is not a valid token. | Any ready session: the header name ends in ':'. | The field name `Authorization`. | high (not executed) | UserSession.AuthHeadersAsWritten, UserSession.AuthHeaderNameInvalid | UserSession.AuthHeaders, UserSession.LoginThenLogout |

=== FILE: animatable.dfy ===
/**
 * The immediate-switch action setter (src/app/3d/utils/Animatable.ts).
 *
 * Clips and the animation mixer are opaque: the model records which clip the
 * mixer is playing.  `Date.now()` is the parameter `now`.
 */
module Animatable {
  import opened Wrappers

  /** An animation clip registered for an action name. */
  datatype Clip = Clip(id: nat)

  /**
   * The clip an action name resolves to: its own clip, otherwise the idle
   * clip, otherwise nothing.
   */
  function ResolveClip(actionMap: map<string, Clip>, idle: Option<Clip>, name: string): (r: Option<Clip>)
    ensures name in actionMap ==> r == Some(actionMap[name])
    ensures name !in actionMap ==> r == idle
  {
    if name in actionMap then Some(actionMap[name]) else idle
  }

  datatype AnimState = AnimState(
    action: string,          // `_action`
    actionTime: int,         // `_actionTime`, milliseconds
    hasMixer: bool,          // `mixer !== null`
    actionMap: map<string, Clip>,
    idle: Option<Clip>,
    playing: Option<Clip>)   // the clip the mixer plays after `stopAllAction(); play()`

  /** A freshly constructed animatable: no action, no mixer yet. */
  function Initial(actionMap: map<string, Clip>): AnimState {
    AnimState("", 0, false, actionMap, None, None)
  }

  /** The `action` setter. */
  function SetAction(s: AnimState, name: string, now: int): (r: AnimState)
    ensures s.action == name || !s.hasMixer ==> r == s
    ensures s.action != name && s.hasMixer && ResolveClip(s.actionMap, s.idle, name).None? ==> r == s
    ensures s.action != name && s.hasMixer && ResolveClip(s.actionMap, s.idle, name).Some? ==>
      r == s.(action := name, actionTime := now, playing := ResolveClip(s.actionMap, s.idle, name))
  {
    if s.action == name || !s.hasMixer then s
    else
      match ResolveClip(s.actionMap, s.idle, name)
      case None => s
      case Some(clip) => s.(action := name, actionTime := now, playing := Some(clip))
  }

  /** The `actionDuration` getter. */
  function ActionDuration(s: AnimState, now: int): (d: int)
    ensures d + s.actionTime == now
  {
    now - s.actionTime
  }

  // ---------------------------------------------------------------- properties

  /** Requesting the running action again, or any action without a mixer, changes nothing. */
  lemma RepeatIsNoOp(s: AnimState, now: int)
    ensures SetAction(s, s.action, now) == s
    ensures !s.hasMixer ==> forall name :: SetAction(s, name, now) == s
  {
  }

  /** An accepted request restarts the duration clock: right after it the duration is 0. */
  lemma AcceptedRequestRestartsClock(s: AnimState, name: string, now: int)
    requires s.hasMixer && s.action != name && ResolveClip(s.actionMap, s.idle, name).Some?
    ensures SetAction(s, name, now).action == name
    ensures ActionDuration(SetAction(s, name, now), now) == 0
  {
  }

  /** An unregistered name plays the idle clip, yet the action name is the requested one. */
  lemma UnregisteredFallsBackToIdle(s: AnimState, name: string, now: int)
    requires s.hasMixer && s.action != name && name !in s.actionMap && s.idle.Some?
    ensures SetAction(s, name, now).playing == s.idle
    ensures SetAction(s, name, now).action == name
  {
  }

  /** Switching is immediate: two accepted requests in a row leave the second one playing. */
  lemma LastAcceptedWins(s: AnimState, a: string, b: string, t1: int, t2: int)
    requires s.hasMixer && a != b && s.action != a
    requires a in s.actionMap && b in s.actionMap
    ensures SetAction(SetAction(s, a, t1), b, t2).action == b
    ensures SetAction(SetAction(s, a, t1), b, t2).playing == Some(s.actionMap[b])
  {
  }
}

=== FILE: animate_moveable.dfy ===
/**
 * The cross-fading action setter (src/app/3d/utils/AnimateMoveable.ts).
 *
 * A 300 ms timer guards each cross-fade; requests arriving while it is
 * pending are parked in a single slot.  The timer firing is the event
 * `TimerFires`.  As written, its callback re-submits the parked name while
 * the timer is still marked pending, so the name is parked again rather than
 * applied; `TimerFiresIntended` is the evidently intended callback.
 */
module AnimateMoveable {
  import opened Wrappers
  import opened Animatable

  const CROSS_FADE_MS: int := 300

  datatype FadeState = FadeState(
    action: string,            // `_action`
    actionTime: int,           // `_actionTime`
    hasMixer: bool,            // `mixer !== null`
    actionMap: map<string, Clip>,
    idle: Option<Clip>,
    current: Option<Clip>,     // the clip of `currentAction`
    queued: Option<string>,    // `queueActionName`
    timerPending: bool,        // `actionTimer !== null`
    fadeFrom: Option<Clip>,    // `previousAction` captured by the pending timer
    timersArmed: nat)          // how many cross-fade timers were ever armed

  function Initial(actionMap: map<string, Clip>): FadeState {
    FadeState("", 0, false, actionMap, None, None, None, false, None, 0)
  }

  /** The `action` setter. */
  function Request(s: FadeState, name: string, now: int): (r: FadeState)
    ensures s.action == name || !s.hasMixer ==> r == s
    ensures s.action != name && s.hasMixer && s.timerPending ==> r == s.(queued := Some(name))
    ensures (s.action != name && s.hasMixer && !s.timerPending &&
             ResolveClip(s.actionMap, s.idle, name).None?) ==> r == s
    ensures (s.action != name && s.hasMixer && !s.timerPending &&
             ResolveClip(s.actionMap, s.idle, name).Some?) ==>
              r.action == name && r.actionTime == now && r.queued == s.queued &&
              r.current == ResolveClip(s.actionMap, s.idle, name) &&
              (if s.current == ResolveClip(s.actionMap, s.idle, name)
               then !r.timerPending && r.timersArmed == s.timersArmed && r.fadeFrom == s.fadeFrom
               else r.timerPending && r.timersArmed == s.timersArmed + 1 && r.fadeFrom == s.current)
  {
    if s.action == name || !s.hasMixer then s
    else if s.timerPending then s.(queued := Some(name))
    else
      match ResolveClip(s.actionMap, s.idle, name)
      case None => s
      case Some(clip) =>
        var s1 := s.(action := name, actionTime := now);
        if s.current == Some(clip) then s1
        else s1.(current := Some(clip), timerPending := true, fadeFrom := s.current,
                 timersArmed := s.timersArmed + 1)
  }

  /**
   * The timer callback as written: stop the previous clip, re-submit the
   * parked name (the timer is still pending, so it is parked again), then
   * clear the timer.  Returns the clip stopped, if any.
   */
  function TimerFires(s: FadeState, now: int): (r: (FadeState, Option<Clip>))
    ensures !s.timerPending ==> r == (s, None)
    ensures s.timerPending ==> r.1 == s.fadeFrom && !r.0.timerPending
    ensures s.timerPending ==> r.0 == s.(timerPending := false)
  {
    if !s.timerPending then (s, None)
    else
      var s1 := if s.queued.Some? then Request(s, s.queued.value, now) else s;
      (s1.(timerPending := false), s.fadeFrom)
  }

  /**
   * The callback as evidently intended: clear the timer first, then apply
   * the parked request and empty the slot.
   */
  function TimerFiresIntended(s: FadeState, now: int): (r: (FadeState, Option<Clip>))
    ensures !s.timerPending ==> r == (s, None)
    ensures s.timerPending ==> r.1 == s.fadeFrom && r.0.queued.None?
    ensures s.timerPending && s.queued.None? ==> r.0 == s.(timerPending := false)
    ensures (s.timerPending && s.queued.Some? && s.hasMixer && s.queued.value != s.action &&
             ResolveClip(s.actionMap, s.idle, s.queued.value).Some?) ==>
              r.0.action == s.queued.value && r.0.actionTime == now
  {
    if !s.timerPending then (s, None)
    else
      var s1 := s.(timerPending := false, queued := None);
      match s.queued
      case None => (s1, s.fadeFrom)
      case Some(q) =>
        var s2 := Request(s1, q, now);
        (s2.(queued := None), s.fadeFrom)
  }

  /** The `actionDuration` getter. */
  function ActionDuration(s: FadeState, now: int): (d: int)
    ensures d + s.actionTime == now
  {
    now - s.actionTime
  }

  // ---------------------------------------------------------------- properties

  /**
   * While a cross-fade is pending, requests for actions other than the
   * current one only overwrite the parked name, the last of them winning.
   * A request for the current action is dropped before it reaches the slot
   * (see `ReturnDuringFadeIgnored`).
   */
  lemma PendingRequestsOnlyQueue(s: FadeState, a: string, b: string, t1: int, t2: int)
    requires s.timerPending && s.hasMixer && a != s.action && b != s.action
    ensures var r := Request(Request(s, a, t1), b, t2);
            r == s.(queued := Some(b))
  {
  }

  /** At most one cross-fade is ever pending: a request never arms a second timer. */
  lemma NoSecondTimer(s: FadeState, name: string, now: int)
    requires s.timerPending
    ensures Request(s, name, now).timersArmed == s.timersArmed
    ensures Request(s, name, now).timerPending
  {
  }

  /** Re-requesting the running clip under another name renames the action but arms no timer. */
  lemma SameClipArmsNothing(s: FadeState, name: string, now: int)
    requires s.hasMixer && !s.timerPending && name != s.action
    requires ResolveClip(s.actionMap, s.idle, name) == s.current && s.current.Some?
    ensures Request(s, name, now).action == name
    ensures Request(s, name, now).timersArmed == s.timersArmed
    ensures !Request(s, name, now).timerPending
  {
  }

  /**
   * The duration clock restarts only when a request is accepted: a request
   * parked behind a pending cross-fade leaves it running.
   */
  lemma DurationRestartsOnlyOnAccept(s: FadeState, name: string, t: int, now: int)
    requires s.hasMixer && s.action != name
    ensures s.timerPending ==> ActionDuration(Request(s, name, t), now) == ActionDuration(s, now)
    ensures !s.timerPending && ResolveClip(s.actionMap, s.idle, name).Some? ==>
              ActionDuration(Request(s, name, t), t) == 0
  {
  }

  /** Repeating a request changes nothing more than making it once. */
  lemma RequestIdempotent(s: FadeState, name: string, now: int)
    ensures Request(Request(s, name, now), name, now) == Request(s, name, now)
  {
  }

  /** As written, firing never applies the parked request and never empties the slot. */
  lemma FireNeverApplies(s: FadeState, now: int)
    requires s.timerPending
    ensures var (r, _) := TimerFires(s, now);
            r.action == s.action && r.actionTime == s.actionTime && r.current == s.current &&
            r.queued == s.queued && !r.timerPending
  {
  }

  const DemoMap := map["A" := Clip(1), "B" := Clip(2), "C" := Clip(3)]
  const Demo := Initial(DemoMap).(hasMixer := true)

  /**
   * The discrepancy on a concrete run: request A (a cross-fade starts),
   * request B during the fade, let the timer fire.  The character stays on A
   * with B parked forever, where the cross-fade design applies B.
   */
  lemma QueuedRequestLost()
    ensures var s1 := Request(Demo, "A", 0);
            var s2 := Request(s1, "B", 100);
            var (s3, _) := TimerFires(s2, 300);
            s3.action == "A" && s3.queued == Some("B") && !s3.timerPending
    ensures var s1 := Request(Demo, "A", 0);
            var s2 := Request(s1, "B", 100);
            var (s3, _) := TimerFiresIntended(s2, 300);
            s3.action == "B" && s3.queued.None? && s3.timerPending
  {
  }

  /**
   * With the intended callback a burst of requests during one fade, each
   * for an action other than the current one, ends in the last of them
   * (A, then B, then C within the window ends in C), and nothing stays
   * parked.
   */
  lemma IntendedLastRequestWins(s: FadeState, b: string, c: string, t1: int, t2: int, t3: int)
    requires s.timerPending && s.hasMixer && b != s.action && c != s.action
    requires c in s.actionMap
    ensures var (r, _) := TimerFiresIntended(Request(Request(s, b, t1), c, t2), t3);
            r.action == c && r.queued.None?
  {
  }

  /**
   * A request for the current action during a fade is dropped by the
   * same-name guard before the parking step: A, then B during the fade,
   * then A again leaves B parked, and even the intended callback ends on B.
   */
  lemma ReturnDuringFadeIgnored()
    ensures var s3 := Request(Request(Request(Demo, "A", 0), "B", 100), "A", 200);
            s3.action == "A" && s3.queued == Some("B") && s3.timerPending
    ensures var s3 := Request(Request(Request(Demo, "A", 0), "B", 100), "A", 200);
            var (r, _) := TimerFiresIntended(s3, 300);
            r.action == "B" && r.queued.None?
  {
  }
}

=== FILE: asset_manager.dfy ===
/**
 * The asset loader front (src/app/3d/managers/AssetManager.ts): one loader
 * instance per loader class, the first suffix rule that matches a URL picks
 * the class, single URLs are cached after a successful load, and URL lists
 * go to the cube-texture loader uncached.  Promises are split into the
 * request `Get` issues and the completion event that follows it.
 */
module AssetManager {
  import opened Wrappers
  import opened Basics

  datatype LoaderClass = TextureLoader | OBJLoader | FBXLoader | ObjectLoader | FileLoader | CubeTextureLoader

  /** A loader: an instance of a class from the module-level cache, or one the caller passed in. */
  datatype LoaderRef = Cached(cls: LoaderClass) | Given(id: nat)

  type Asset = nat

  datatype Url = Single(url: string) | Many(urls: seq<string>)

  /**
   * What `get` hands back: an already-resolved value, a load started with
   * `loader` (its path set to `path`) whose result is stored under
   * `cacheKey` when one is given, or a rejection.
   */
  datatype Outcome =
    | Resolved(asset: Asset)
    | Load(loader: LoaderRef, urls: seq<string>, path: string, cacheKey: Option<string>)
    | Rejected(reason: string)

  /**
   * `instances` is the module-level `loaderCacheMap`, by class, in creation
   * order; it outlives any one manager.
   */
  datatype Manager = Manager(assetMap: map<string, Asset>, assetsPath: string, instances: seq<LoaderClass>)

  predicate NoDup(s: seq<LoaderClass>) {
    forall i, j :: 0 <= i < j < |s| ==> s[i] != s[j]
  }

  /** `cached(loaderClass)`: create an instance only for a class not seen before. */
  function CachedLoader(instances: seq<LoaderClass>, cls: LoaderClass): (r: seq<LoaderClass>)
    ensures cls in r && forall c :: c in r <==> c in instances || c == cls
    ensures cls in instances ==> r == instances
    ensures NoDup(instances) ==> NoDup(r)
  {
    if cls in instances then instances else instances + [cls]
  }

  /**
   * The `LoaderMatcher` rules, in order, one suffix per entry: the
   * alternatives of `/(jpg|png|jpeg)$/` are consecutive entries for the same
   * class, so the first entry matched is the first rule matched.
   */
  const Rules: seq<(string, LoaderClass)> := [
    ("jpg", TextureLoader), ("png", TextureLoader), ("jpeg", TextureLoader),
    ("obj", OBJLoader), ("fbx", FBXLoader), ("json", ObjectLoader)]

  /** Entry j is the first one whose suffix the URL ends with. */
  predicate FirstMatch(url: string, j: int)
    requires 0 <= j < |Rules|
  {
    EndsWith(url, Rules[j].0) && forall i :: 0 <= i < j ==> !EndsWith(url, Rules[i].0)
  }

  /**
   * The loop over `LoaderMatcher`: the class of the first rule the URL
   * passes; the final `/./` catches any URL with a character that is not a
   * line terminator, and nothing catches the rest.
   */
  function Match(url: string): (r: Option<LoaderClass>)
    ensures forall j :: 0 <= j < |Rules| && FirstMatch(url, j) ==> r == Some(Rules[j].1)
    ensures r.Some? && r.value != FileLoader ==> exists j :: 0 <= j < |Rules| && FirstMatch(url, j) && Rules[j].1 == r.value
    ensures r == Some(FileLoader) <==> MatchesAnyChar(url) && forall j :: 0 <= j < |Rules| ==> !EndsWith(url, Rules[j].0)
    ensures r.None? <==> !MatchesAnyChar(url)
    ensures r != Some(CubeTextureLoader)
  {
    MatchFrom(url, 0)
  }

  function MatchFrom(url: string, k: nat): (r: Option<LoaderClass>)
    requires k <= |Rules|
    requires forall i :: 0 <= i < k ==> !EndsWith(url, Rules[i].0)
    ensures forall j :: k <= j < |Rules| && FirstMatch(url, j) ==> r == Some(Rules[j].1)
    ensures r.Some? && r.value != FileLoader ==> exists j :: k <= j < |Rules| && FirstMatch(url, j) && Rules[j].1 == r.value
    ensures r == Some(FileLoader) <==> MatchesAnyChar(url) && forall j :: k <= j < |Rules| ==> !EndsWith(url, Rules[j].0)
    ensures r.None? <==> !MatchesAnyChar(url)
    ensures r != Some(CubeTextureLoader)
    decreases |Rules| - k
  {
    if k == |Rules| then (if MatchesAnyChar(url) then Some(FileLoader) else None)
    else if EndsWith(url, Rules[k].0) then
      SuffixMatchesAnyChar(url, Rules[k].0);
      Some(Rules[k].1)
    else MatchFrom(url, k + 1)
  }

  /** A URL ending in a suffix whose last character is not a line terminator passes `/./`. */
  lemma SuffixMatchesAnyChar(url: string, suffix: string)
    requires |suffix| > 0 && !IsLineTerminator(suffix[|suffix| - 1]) && EndsWith(url, suffix)
    ensures MatchesAnyChar(url)
  {
    assert url[|url| - 1] == suffix[|suffix| - 1];
  }

  /**
   * `get(url, loader)`: a list goes to the cube-texture loader, uncached; a
   * cached single URL resolves at once; otherwise `loadAsset` uses the given
   * loader or the first matching class, rejecting when none matches.
   */
  function Get(m: Manager, url: Url, loader: Option<nat>): (r: (Manager, Outcome))
    ensures r.0.assetMap == m.assetMap && r.0.assetsPath == m.assetsPath
    ensures NoDup(m.instances) ==> NoDup(r.0.instances)
    ensures url.Many? ==>
      r.1 == Load(Cached(CubeTextureLoader), url.urls, m.assetsPath, None) && CubeTextureLoader in r.0.instances
    ensures url.Single? && url.url in m.assetMap ==> r == (m, Resolved(m.assetMap[url.url]))
    ensures url.Single? && url.url !in m.assetMap && loader.Some? ==>
      r == (m, Load(Given(loader.value), [url.url], m.assetsPath, Some(url.url)))
    ensures url.Single? && url.url !in m.assetMap && loader.None? && Match(url.url).None? ==>
      r == (m, Rejected("No loader matches!"))
    ensures url.Single? && url.url !in m.assetMap && loader.None? && Match(url.url).Some? ==>
      r.1 == Load(Cached(Match(url.url).value), [url.url], m.assetsPath, Some(url.url)) &&
      r.0.instances == CachedLoader(m.instances, Match(url.url).value)
  {
    match url
    case Many(urls) =>
      (m.(instances := CachedLoader(m.instances, CubeTextureLoader)),
       Load(Cached(CubeTextureLoader), urls, m.assetsPath, None))
    case Single(u) =>
      if u in m.assetMap then (m, Resolved(m.assetMap[u]))
      else if loader.Some? then (m, Load(Given(loader.value), [u], m.assetsPath, Some(u)))
      else
        match Match(u)
        case None => (m, Rejected("No loader matches!"))
        case Some(cls) => (m.(instances := CachedLoader(m.instances, cls)), Load(Cached(cls), [u], m.assetsPath, Some(u)))
  }

  /** A load started by `Get` succeeded with `asset`: a single URL's result is stored under it. */
  function Loaded(m: Manager, o: Outcome, asset: Asset): (r: Manager)
    requires o.Load?
    ensures o.cacheKey.Some? ==> r.assetMap == m.assetMap[o.cacheKey.value := asset]
    ensures o.cacheKey.None? ==> r == m
    ensures r.instances == m.instances && r.assetsPath == m.assetsPath
  {
    match o.cacheKey
    case None => m
    case Some(k) => m.(assetMap := m.assetMap[k := asset])
  }

  // ---------------------------------------------------------------- properties

  /** A successful single-URL load is served from the cache by the next `get`, whatever loader it names. */
  lemma {:induction false} LoadThenHit(m: Manager, u: string, loader: Option<nat>, asset: Asset, loader2: Option<nat>)
    requires u !in m.assetMap
    requires Get(m, Single(u), loader).1.Load?
    ensures var (m1, o) := Get(m, Single(u), loader);
            Get(Loaded(m1, o, asset), Single(u), loader2).1 == Resolved(asset)
  {
    var (m1, o) := Get(m, Single(u), loader);
    assert o.cacheKey == Some(u);
  }

  /** URL lists are never cached: the same list loads again. */
  lemma ListsNeverCached(m: Manager, urls: seq<string>, asset: Asset)
    ensures var (m1, o) := Get(m, Many(urls), None);
            Get(Loaded(m1, o, asset), Many(urls), None).1.Load?
  {
  }

  /** However many loads run, there is at most one loader instance per class. */
  lemma {:induction false} OneInstancePerClass(m: Manager, gets: seq<Url>)
    requires NoDup(m.instances)
    ensures NoDup(Instances(m, gets))
    decreases |gets|
  {
    if |gets| > 0 {
      OneInstancePerClass(Get(m, gets[0], None).0, gets[1..]);
    }
  }

  function Instances(m: Manager, gets: seq<Url>): seq<LoaderClass>
    decreases |gets|
  {
    if |gets| == 0 then m.instances else Instances(Get(m, gets[0], None).0, gets[1..])
  }

  /** Image suffixes take the texture loader even when the name also mentions another format. */
  lemma MatchImageFirst()
    ensures Match("a.fbx.png") == Some(TextureLoader)
  {
    assert !EndsWith("a.fbx.png", Rules[0].0) && EndsWith("a.fbx.png", Rules[1].0);
    assert FirstMatch("a.fbx.png", 1);
  }

  /** The empty URL matches no rule. */
  lemma MatchEmpty()
    ensures Match("") == None
  {
  }
}

=== FILE: basics.dfy ===
/** Vectors, move intents and the string tests the sources use. */
module Basics {

  /** A point or direction in scene coordinates. */
  datatype Vec3 = Vec3(x: real, y: real, z: real) {
    function Plus(o: Vec3): Vec3 { Vec3(x + o.x, y + o.y, z + o.z) }
  }

  const Zero := Vec3(0.0, 0.0, 0.0)

  /** The normalised input intent that input handlers emit and movers consume. */
  datatype MoveState = MoveState(forward: real, right: real, up: real)

  const Still := MoveState(0.0, 0.0, 0.0)

  /** Identity of a three.js object (a group, mesh, light or camera). */
  type ObjId = nat

  /** `sub` occurs somewhere in `s`, the meaning of an unanchored regular-expression test. */
  predicate Contains(s: string, sub: string) {
    exists i | 0 <= i <= |s| - |sub| :: OccursAt(s, sub, i)
  }

  predicate OccursAt(s: string, sub: string, i: int) {
    0 <= i <= |s| - |sub| && s[i..i + |sub|] == sub
  }

  /** A string lacking one of `sub`'s characters does not contain `sub`. */
  lemma Lacks(s: string, sub: string, j: nat)
    requires j < |sub| && forall i :: 0 <= i < |s| ==> s[i] != sub[j]
    ensures !Contains(s, sub)
  {
    forall i | 0 <= i <= |s| - |sub| ensures !OccursAt(s, sub, i) {
      assert s[i..i + |sub|][j] == s[i + j];
    }
  }

  /** `s` ends with `suffix`, the meaning of a `/(...)$/` test. */
  predicate EndsWith(s: string, suffix: string) {
    |suffix| <= |s| && s[|s| - |suffix|..] == suffix
  }

  /** The characters JavaScript's `.` does not match. */
  predicate IsLineTerminator(c: char) {
    c == '\n' || c == '\r' || c == '\U{2028}' || c == '\U{2029}'
  }

  /** The test `/./.test(s)`: some character is not a line terminator. */
  predicate MatchesAnyChar(s: string) {
    exists i :: 0 <= i < |s| && !IsLineTerminator(s[i])
  }
}

=== FILE: box.dfy ===
/**
 * Boxes built from six planes (src/app/3d/utils/Box.ts): a fixed table
 * places each side by the box's width, height and depth; each side takes the
 * side's own colour, else the box colour, else white; a side's own
 * parameters override everything the table gives it.  A `Side` is a plane
 * shifted so that its corner sits at its origin.
 */
module Box {
  import opened Wrappers
  import opened Basics

  datatype SideName = Front | Back | Left | Right | Top | Bottom

  /** `for (const key in CONSTANT_PARAMS)`: the table's key order. */
  const Order: seq<SideName> := [Front, Back, Left, Right, Top, Bottom]

  function KeyOf(n: SideName): string {
    match n
    case Front => "front"
    case Back => "back"
    case Left => "left"
    case Right => "right"
    case Top => "top"
    case Bottom => "bottom"
  }

  /** The rotations the table applies: none, `rotateY(-PI / 2)`, or `rotateX(PI / 2)`. */
  datatype Turn = Level | YawBack | PitchUp

  /** The constructor a side is built with: `Side` unless the configuration names another (a `Wall`, say). */
  datatype Ctor = SideCtor | Custom(id: nat)

  /** `IBoxSideParams`: a colour and the keys a side may override; other keys reach the constructor untouched. */
  datatype SideParams = SideParams(
    color: Option<int>, name: Option<string>,
    width: Option<real>, height: Option<real>,
    x: Option<real>, y: Option<real>, z: Option<real>)

  /** `IBoxSideConfig`, plus the `if` flag callers pass and nothing reads. */
  datatype SideConfig = SideConfig(ctor: Option<Ctor>, params: Option<SideParams>, flag: Option<bool>)

  const NoConfig := SideConfig(None, None, None)

  datatype BoxParams = BoxParams(width: real, height: real, depth: real, color: Option<int>, sides: map<SideName, SideConfig>)

  /** One row of the table: the side's size, its position in the box, and its rotation. */
  datatype Layout = Layout(width: real, height: real, position: Vec3, turn: Turn)

  /** What the box hands a side's constructor, and the rotation it then applies. */
  datatype SideSpec = SideSpec(ctor: Ctor, name: string, color: int, width: real, height: real, position: Vec3, turn: Turn)

  /** `BOX_SIDES_CONSTANT_PARAMS(width, height, depth)`. */
  function LayoutOf(n: SideName, w: real, h: real, d: real): (l: Layout)
    ensures n in {Left, Right} ==> l.width == d && l.height == h && l.turn == YawBack
    ensures n in {Top, Bottom} ==> l.width == w && l.height == d && l.turn == PitchUp
    ensures n in {Front, Back} ==> l.width == w && l.height == h && l.turn == Level
  {
    match n
    case Front => Layout(w, h, Vec3(0.0, 0.0, d), Level)
    case Back => Layout(w, h, Vec3(0.0, 0.0, 0.0), Level)
    case Left => Layout(d, h, Vec3(0.0, 0.0, 0.0), YawBack)
    case Right => Layout(d, h, Vec3(w, 0.0, 0.0), YawBack)
    case Top => Layout(w, d, Vec3(0.0, h, 0.0), PitchUp)
    case Bottom => Layout(w, d, Vec3(0.0, 0.0, 0.0), PitchUp)
  }

  /** The side's colour: its own, else the box's, else white. */
  function ColorOf(sp: Option<SideParams>, boxColor: Option<int>): (c: int)
    ensures sp.Some? && sp.value.color.Some? ==> c == sp.value.color.value
    ensures !(sp.Some? && sp.value.color.Some?) && boxColor.Some? ==> c == boxColor.value
    ensures !(sp.Some? && sp.value.color.Some?) && boxColor.None? ==> c == 0xffffff
  {
    if sp.Some? && sp.value.color.Some? then sp.value.color.value
    else if boxColor.Some? then boxColor.value
    else 0xffffff
  }

  /**
   * One side: `{ name, color, ...size, ...position, ...sideParams }`, so the
   * side's parameters, spread last, win over the table.
   */
  function BuildSide(p: BoxParams, n: SideName): (s: SideSpec)
    ensures var cfg := if n in p.sides then p.sides[n] else NoConfig;
            var l := LayoutOf(n, p.width, p.height, p.depth);
            var sp := cfg.params.GetOr(SideParams(None, None, None, None, None, None, None));
            s.ctor == cfg.ctor.GetOr(SideCtor) &&
            s.color == ColorOf(cfg.params, p.color) && s.turn == l.turn &&
            s.name == sp.name.GetOr(KeyOf(n)) &&
            s.width == sp.width.GetOr(l.width) && s.height == sp.height.GetOr(l.height) &&
            s.position == Vec3(sp.x.GetOr(l.position.x), sp.y.GetOr(l.position.y), sp.z.GetOr(l.position.z))
  {
    var cfg := if n in p.sides then p.sides[n] else NoConfig;
    var l := LayoutOf(n, p.width, p.height, p.depth);
    var sp := cfg.params.GetOr(SideParams(None, None, None, None, None, None, None));
    SideSpec(
      cfg.ctor.GetOr(SideCtor), sp.name.GetOr(KeyOf(n)), ColorOf(cfg.params, p.color),
      sp.width.GetOr(l.width), sp.height.GetOr(l.height),
      Vec3(sp.x.GetOr(l.position.x), sp.y.GetOr(l.position.y), sp.z.GetOr(l.position.z)),
      l.turn)
  }

  /** The box constructor: the six sides, in table order. */
  function Build(p: BoxParams): (sides: seq<SideSpec>)
    ensures |sides| == 6
    ensures forall i :: 0 <= i < 6 ==> sides[i] == BuildSide(p, Order[i])
  {
    seq(6, i requires 0 <= i < 6 => BuildSide(p, Order[i]))
  }

  /** Where the side puts the point `(u, v)` of its own plane: rotated by its turn, then moved to its position. */
  function Place(s: SideSpec, u: real, v: real): Vec3 {
    var local := match s.turn
      case Level => Vec3(u, v, 0.0)
      case YawBack => Vec3(0.0, v, u)
      case PitchUp => Vec3(u, 0.0, v);
    s.position.Plus(local)
  }

  /** A `Side`'s mesh: a plane of the given size, centred at half its size, in its colour (white by default). */
  datatype SideMesh = SideMesh(width: real, height: real, center: Vec3, color: int)

  function NewSide(width: real, height: real, color: Option<int>): (m: SideMesh)
    ensures m.center.x - width / 2.0 == 0.0 && m.center.y - height / 2.0 == 0.0 && m.center.z == 0.0
    ensures m.center.x + width / 2.0 == width && m.center.y + height / 2.0 == height
    ensures m.color == color.GetOr(0xffffff)
  {
    SideMesh(width, height, Vec3(width / 2.0, height / 2.0, 0.0), color.GetOr(0xffffff))
  }

  // ---------------------------------------------------------------- properties

  /** The spanned corners of a side: its origin and its far corner, in box coordinates. */
  predicate Spans(s: SideSpec, lo: Vec3, hi: Vec3) {
    Place(s, 0.0, 0.0) == lo && Place(s, s.width, s.height) == hi
  }

  /** The face of the box `[0, w] × [0, h] × [0, d]` each side should cover, as its lowest and highest corner. */
  function Face(n: SideName, w: real, h: real, d: real): (Vec3, Vec3) {
    match n
    case Front => (Vec3(0.0, 0.0, d), Vec3(w, h, d))
    case Back => (Vec3(0.0, 0.0, 0.0), Vec3(w, h, 0.0))
    case Left => (Vec3(0.0, 0.0, 0.0), Vec3(0.0, h, d))
    case Right => (Vec3(w, 0.0, 0.0), Vec3(w, h, d))
    case Top => (Vec3(0.0, h, 0.0), Vec3(w, h, d))
    case Bottom => (Vec3(0.0, 0.0, 0.0), Vec3(w, 0.0, d))
  }

  /** Without an override, a side spans its face of the box. */
  lemma SideSpansFace(w: real, h: real, d: real, color: Option<int>, n: SideName)
    ensures Spans(BuildSide(BoxParams(w, h, d, color, map[]), n), Face(n, w, h, d).0, Face(n, w, h, d).1)
  {
    var s := BuildSide(BoxParams(w, h, d, color, map[]), n);
    match n
    case Front => assert Place(s, s.width, s.height) == Vec3(w, h, d);
    case Back => assert Place(s, s.width, s.height) == Vec3(w, h, 0.0);
    case Left => assert Place(s, s.width, s.height) == Vec3(0.0, h, d);
    case Right => assert Place(s, s.width, s.height) == Vec3(w, h, d);
    case Top => assert Place(s, s.width, s.height) == Vec3(w, h, d);
    case Bottom => assert Place(s, s.width, s.height) == Vec3(w, 0.0, d);
  }

  /** Without side overrides the six sides, in order, are exactly the six faces of the box. */
  lemma SidesCloseTheBox(w: real, h: real, d: real, color: Option<int>)
    ensures var s := Build(BoxParams(w, h, d, color, map[]));
            forall i :: 0 <= i < 6 ==> Spans(s[i], Face(Order[i], w, h, d).0, Face(Order[i], w, h, d).1)
  {
    forall i | 0 <= i < 6
      ensures Spans(Build(BoxParams(w, h, d, color, map[]))[i], Face(Order[i], w, h, d).0, Face(Order[i], w, h, d).1)
    {
      SideSpansFace(w, h, d, color, Order[i]);
    }
  }

  /** The `if` flag of a side configuration changes nothing that is built. */
  lemma FlagIgnored(p: BoxParams, n: SideName, f: Option<bool>)
    requires n in p.sides
    ensures Build(p.(sides := p.sides[n := p.sides[n].(flag := f)])) == Build(p)
  {
    var q := p.(sides := p.sides[n := p.sides[n].(flag := f)]);
    assert forall m :: BuildSide(q, m) == BuildSide(p, m);
  }

  /** Overriding one side's configuration changes that side only. */
  lemma OtherSidesUnchanged(p: BoxParams, n: SideName, cfg: SideConfig, i: nat)
    requires i < 6 && Order[i] != n
    ensures Build(p.(sides := p.sides[n := cfg]))[i] == Build(p)[i]
  {
  }
}

=== FILE: cache.dfy ===
/**
 * Shared material and geometry memoisation (src/app/3d/utils/cache.ts).
 * The cache key is `JSON.stringify({ ctor, ... })`; JSON drops function
 * values, so the constructor never reaches the key.  The functions marked
 * "as written" key on the remaining fields only; the others key on the
 * constructor as well, which is what passing it into the key intends.
 */
module Cache {
  /** A material or geometry class, by identity. */
  type Ctor = nat

  /** A material built as `new ctor({ color, side: DoubleSide })`, told apart from equal ones by a serial. */
  datatype Material = Material(serial: nat, ctor: Ctor, color: int, doubleSide: bool)

  /** A geometry built as `new ctor(...params)`. */
  datatype Geometry = Geometry(serial: nat, ctor: Ctor, params: seq<real>)

  /** A module-level cache: entries by key, and how many objects were constructed. */
  datatype Memo<K, V> = Memo(entries: map<K, V>, built: nat)

  /** Every cached material answers its key: the right class and colour, built as double-sided. */
  predicate MaterialsKeyed(c: Memo<(Ctor, int), Material>) {
    forall k :: k in c.entries ==> c.entries[k].ctor == k.0 && c.entries[k].color == k.1 && c.entries[k].doubleSide
  }

  predicate GeometriesKeyed(c: Memo<(Ctor, seq<real>), Geometry>) {
    forall k :: k in c.entries ==> c.entries[k].ctor == k.0 && c.entries[k].params == k.1
  }

  /** `cachedMaterial(ctor, color)` as written: keyed on the colour alone. */
  function CachedMaterialAsWritten(c: Memo<int, Material>, ctor: Ctor, color: int): (r: (Memo<int, Material>, Material))
    ensures color in c.entries ==> r == (c, c.entries[color])
    ensures color !in c.entries ==>
      r.1 == Material(c.built, ctor, color, true) && r.0 == Memo(c.entries[color := r.1], c.built + 1)
  {
    if color in c.entries then (c, c.entries[color])
    else
      var mat := Material(c.built, ctor, color, true);
      (Memo(c.entries[color := mat], c.built + 1), mat)
  }

  /** `cachedMaterial(ctor, color)` keyed on the class and the colour. */
  function CachedMaterial(c: Memo<(Ctor, int), Material>, ctor: Ctor, color: int): (r: (Memo<(Ctor, int), Material>, Material))
    ensures MaterialsKeyed(c) ==> MaterialsKeyed(r.0) && r.1.ctor == ctor && r.1.color == color && r.1.doubleSide
    ensures (ctor, color) in c.entries ==> r == (c, c.entries[(ctor, color)])
    ensures (ctor, color) !in c.entries ==> r.0.built == c.built + 1 && r.0.entries.Keys == c.entries.Keys + {(ctor, color)}
  {
    if (ctor, color) in c.entries then (c, c.entries[(ctor, color)])
    else
      var mat := Material(c.built, ctor, color, true);
      (Memo(c.entries[(ctor, color) := mat], c.built + 1), mat)
  }

  /** `cachedGeometry(ctor, ...params)` as written: keyed on the parameter list alone. */
  function CachedGeometryAsWritten(c: Memo<seq<real>, Geometry>, ctor: Ctor, params: seq<real>): (r: (Memo<seq<real>, Geometry>, Geometry))
    ensures params in c.entries ==> r == (c, c.entries[params])
    ensures params !in c.entries ==>
      r.1 == Geometry(c.built, ctor, params) && r.0 == Memo(c.entries[params := r.1], c.built + 1)
  {
    if params in c.entries then (c, c.entries[params])
    else
      var geo := Geometry(c.built, ctor, params);
      (Memo(c.entries[params := geo], c.built + 1), geo)
  }

  /** `cachedGeometry(ctor, ...params)` keyed on the class and the parameters. */
  function CachedGeometry(c: Memo<(Ctor, seq<real>), Geometry>, ctor: Ctor, params: seq<real>): (r: (Memo<(Ctor, seq<real>), Geometry>, Geometry))
    ensures GeometriesKeyed(c) ==> GeometriesKeyed(r.0) && r.1.ctor == ctor && r.1.params == params
    ensures (ctor, params) in c.entries ==> r == (c, c.entries[(ctor, params)])
    ensures (ctor, params) !in c.entries ==> r.0.built == c.built + 1 && r.0.entries.Keys == c.entries.Keys + {(ctor, params)}
  {
    if (ctor, params) in c.entries then (c, c.entries[(ctor, params)])
    else
      var geo := Geometry(c.built, ctor, params);
      (Memo(c.entries[(ctor, params) := geo], c.built + 1), geo)
  }

  // ---------------------------------------------------------------- properties

  /** Counterexample: asking for a second class in a colour already cached returns the first class's material. */
  lemma MaterialClassIgnored(c: Memo<int, Material>, basic: Ctor, lambert: Ctor, color: int)
    requires basic != lambert && color !in c.entries
    ensures var (c1, _) := CachedMaterialAsWritten(c, basic, color);
            CachedMaterialAsWritten(c1, lambert, color).1.ctor == basic
  {
  }

  /** Counterexample: a cylinder asked for with a box's parameters comes back as the box. */
  lemma GeometryClassIgnored(c: Memo<seq<real>, Geometry>, box: Ctor, cylinder: Ctor, params: seq<real>)
    requires box != cylinder && params !in c.entries
    ensures var (c1, _) := CachedGeometryAsWritten(c, box, params);
            CachedGeometryAsWritten(c1, cylinder, params).1.ctor == box
  {
  }

  /** Keyed on the class too, the same request returns the same object and builds nothing the second time. */
  lemma MaterialMemoised(c: Memo<(Ctor, int), Material>, ctor: Ctor, color: int)
    ensures var (c1, m1) := CachedMaterial(c, ctor, color);
            CachedMaterial(c1, ctor, color) == (c1, m1)
  {
  }

  /** Keyed on the class too, a sequence of requests always returns what was asked for. */
  lemma {:induction false} MaterialsAlwaysMatch(c: Memo<(Ctor, int), Material>, reqs: seq<(Ctor, int)>)
    requires MaterialsKeyed(c)
    ensures MaterialsKeyed(Requests(c, reqs))
    decreases |reqs|
  {
    if |reqs| > 0 {
      MaterialsAlwaysMatch(CachedMaterial(c, reqs[0].0, reqs[0].1).0, reqs[1..]);
    }
  }

  function Requests(c: Memo<(Ctor, int), Material>, reqs: seq<(Ctor, int)>): Memo<(Ctor, int), Material>
    decreases |reqs|
  {
    if |reqs| == 0 then c else Requests(CachedMaterial(c, reqs[0].0, reqs[0].1).0, reqs[1..])
  }

  /** Keyed on the class too, a geometry request returns the class and parameters asked for. */
  lemma GeometryMemoised(c: Memo<(Ctor, seq<real>), Geometry>, ctor: Ctor, params: seq<real>)
    requires GeometriesKeyed(c)
    ensures var (c1, g1) := CachedGeometry(c, ctor, params);
            CachedGeometry(c1, ctor, params) == (c1, g1) && g1.ctor == ctor
  {
  }
}

=== FILE: character.dfy ===
/**
 * Characters (src/app/3d/characters/Character.ts): velocity from the current
 * action, movement through the uuid-excluding raised probe, the
 * idle/walking/running decision, ground snapping, the profile switch branch
 * of `update`, the speech-bubble timer and the focus outline.
 */
module Character {
  import opened Wrappers
  import opened Basics
  import M = Moveable
  import AM = AnimateMoveable

  /** Action names shared with the animation registry. */
  const IDLE := "idle"
  const WALKING := "walking"
  const RUNNING := "running"

  const CHARACTER_HEIGHT: real := 270.0
  const EYE_HEIGHT: real := 0.8 * CHARACTER_HEIGHT
  const METER: real := CHARACTER_HEIGHT / 1.7
  const STEP_OVER_HEIGHT: real := 50.0
  /** Walking longer than this many milliseconds turns into running. */
  const RUN_AFTER_MS: int := 2000
  const DEFAULT_SPEECH_SECONDS: real := 5.0

  const ProfileMap: seq<string> := [
    "BeachBabe", "BusinessMan", "Doctor", "FireFighter", "Policeman", "Prostitute",
    "Punk", "RiotCop", "Robber", "Sheriff", "Waitress"]

  /** The speech bubble: attached or not, and the delay of the pending removal timer. */
  datatype Speech = Speech(shown: bool, timer: Option<real>, message: string)

  datatype Character = Character(
    name: string,
    uuid: string,
    worldPos: Vec3,          // world position, as the scene graph reports it
    worldDir: Vec3,          // world facing, as the scene graph reports it
    moveState: MoveState,
    velocity: real,
    x: real, y: real, z: real, // the recorded state position
    anim: AM.FadeState,
    profileId: int,          // `_profileID`, -1 before the first profile
    hasModel: bool,          // `characterObject !== null`
    reloads: seq<string>,    // model URLs requested, oldest first
    outlineShown: bool,
    speech: Speech)

  /** `ICharacterParams`, with the field list of the network update message. */
  datatype Params = Params(
    name: Option<string>, profileId: Option<int>,
    x: Option<real>, y: Option<real>, z: Option<real>,
    h: Option<real>, pb: Option<real>, action: Option<string>)

  /** The mover view `moveTowards` sees: `Character.collide` overrides the probe. */
  function MoverOf(c: Character): M.Mover {
    M.Mover(c.name, c.uuid, c.worldPos, c.worldDir, M.ByUuidRaised)
  }

  /** `collide`: probe STEP_OVER_HEIGHT above the feet, excluding colliders with this uuid. */
  function CollideQuery(c: Character, colliders: seq<M.Collider>, dir: Option<Vec3>, distance: M.Limit): (q: M.RayQuery)
    ensures q.origin == Vec3(c.worldPos.x, c.worldPos.y + STEP_OVER_HEIGHT, c.worldPos.z)
    ensures forall k :: k in q.colliders <==> k in colliders && k.uuid != c.uuid
    ensures q.dir == dir.GetOr(c.worldDir) && q.limit == distance
  {
    M.CollideQuery(MoverOf(c), colliders, dir, distance)
  }

  /** The velocity chosen before moving. */
  function VelocityFor(action: string): (v: real)
    ensures action == RUNNING <==> v == M.RUNNING_VELOCITY
    ensures action != RUNNING <==> v == M.WALKING_VELOCITY
  {
    if action == RUNNING then M.RUNNING_VELOCITY else M.WALKING_VELOCITY
  }

  /** The action chosen after moving, from the realised x and z and how long the current action ran. */
  function NextAction(current: string, duration: int, x: real, z: real): (a: string)
    ensures a == IDLE <==> x == 0.0 && z == 0.0
    ensures a == RUNNING <==> (x != 0.0 || z != 0.0) &&
                              (current == RUNNING || (current == WALKING && duration > RUN_AFTER_MS))
    ensures a == WALKING <==> (x != 0.0 || z != 0.0) &&
                              !(current == RUNNING || (current == WALKING && duration > RUN_AFTER_MS))
  {
    if x != 0.0 || z != 0.0 then
      if current == RUNNING || (current == WALKING && duration > RUN_AFTER_MS) then RUNNING else WALKING
    else IDLE
  }

  /** The straight-down probe: from `pos` raised by STEP_OVER_HEIGHT, unbounded, excluding self. */
  function GroundQuery(c: Character, pos: Vec3, colliders: seq<M.Collider>): (q: M.RayQuery)
    ensures q.origin == Vec3(pos.x, pos.y + STEP_OVER_HEIGHT, pos.z)
    ensures q.dir == Vec3(0.0, -1.0, 0.0) && q.limit == M.Unbounded
    ensures forall k :: k in q.colliders <==> k in colliders && k.uuid != c.uuid
  {
    M.CollideQuery(M.Mover(c.name, c.uuid, pos, c.worldDir, M.ByUuidRaised),
                   colliders, Some(Vec3(0.0, -1.0, 0.0)), M.Unbounded)
  }

  /**
   * `move(dt, colliders)`.  `worldAfter` is the world position the scene graph
   * reports after the horizontal translation; `now` is `Date.now()`.
   * Returns the character and the realised (x, y, z).
   */
  function Move(c: Character, dt: real, colliders: seq<M.Collider>, o: M.Orientation,
                cast: M.RayOracle, worldAfter: Vec3, now: int): (r: (Character, Vec3))
    ensures var res := M.Move(MoverOf(c), c.moveState, VelocityFor(c.anim.action), dt, colliders, o, cast);
            r.1.x == res.delta.x && r.1.z == res.delta.z
    ensures r.0.velocity == VelocityFor(c.anim.action)
    ensures var res := M.Move(MoverOf(c), c.moveState, VelocityFor(c.anim.action), dt, colliders, o, cast);
            r.0.anim == AM.Request(c.anim,
              NextAction(c.anim.action, AM.ActionDuration(c.anim, now), res.delta.x, res.delta.z), now)
    ensures var q := GroundQuery(c, worldAfter, colliders);
            match M.StaticCollide(cast(q), q.limit)
            case None => r.1.y == 0.0 && r.0.y == c.y
            case Some(h) => r.0.y == worldAfter.y + STEP_OVER_HEIGHT - h.distance && r.1.y == r.0.y - c.y
  {
    var v := VelocityFor(c.anim.action);
    var res := M.Move(MoverOf(c), c.moveState, v, dt, colliders, o, cast);
    var action := NextAction(c.anim.action, AM.ActionDuration(c.anim, now), res.delta.x, res.delta.z);
    var c1 := c.(velocity := v, anim := AM.Request(c.anim, action, now), worldPos := worldAfter);
    var q := GroundQuery(c, worldAfter, colliders);
    match M.StaticCollide(cast(q), q.limit)
    case None => (c1, Vec3(res.delta.x, 0.0, res.delta.z))
    case Some(h) =>
      var newY := q.origin.y - h.distance;
      (c1.(y := newY), Vec3(res.delta.x, newY - c.y, res.delta.z))
  }

  const PROFILE_PREFIX := "fbx/people/"
  const PROFILE_SUFFIX := ".fbx"

  /** The asset `update` requests for a profile; an index outside the table reads `undefined`. */
  function ProfileUrl(p: int): (r: string)
    ensures 0 <= p < |ProfileMap| ==> r == PROFILE_PREFIX + ProfileMap[p] + PROFILE_SUFFIX
    ensures !(0 <= p < |ProfileMap|) ==> r == PROFILE_PREFIX + "undefined" + PROFILE_SUFFIX
  {
    "fbx/people/" + (if 0 <= p < |ProfileMap| then ProfileMap[p] else "undefined") + ".fbx"
  }

  /**
   * `update(params)`: a profile id different from the stored one records it,
   * discards the model and starts a reload; otherwise the merged action is
   * requested and the position keys are merged, and the renderable base puts
   * the object at the merged position.  `placed` is the world position the
   * scene graph reports after that placement.
   */
  function Update(c: Character, p: Params, now: int, placed: Vec3): (r: Character)
    ensures p.profileId.Some? && p.profileId.value != c.profileId ==>
      r == c.(profileId := p.profileId.value, hasModel := false,
              reloads := c.reloads + [ProfileUrl(p.profileId.value)])
    ensures !(p.profileId.Some? && p.profileId.value != c.profileId) ==>
      r.profileId == c.profileId && r.reloads == c.reloads && r.hasModel == c.hasModel &&
      r.anim == AM.Request(c.anim, p.action.GetOr(c.anim.action), now) &&
      r.x == p.x.GetOr(c.x) && r.y == p.y.GetOr(c.y) && r.z == p.z.GetOr(c.z) &&
      r.name == p.name.GetOr(c.name) && r.worldPos == placed &&
      r.(anim := c.anim, x := c.x, y := c.y, z := c.z, name := c.name, worldPos := c.worldPos) == c
  {
    if p.profileId.Some? && p.profileId.value != c.profileId then
      c.(profileId := p.profileId.value, hasModel := false,
         reloads := c.reloads + [ProfileUrl(p.profileId.value)])
    else
      c.(anim := AM.Request(c.anim, p.action.GetOr(c.anim.action), now),
         x := p.x.GetOr(c.x), y := p.y.GetOr(c.y), z := p.z.GetOr(c.z),
         name := p.name.GetOr(c.name), worldPos := placed)
  }

  /**
   * `say(message, time)`: attach the bubble unless a removal timer is
   * pending, and (re)start the timer at `time` seconds (default 5).
   * Returns the speech state and whether the bubble was attached now.
   */
  function Say(s: Speech, message: string, time: Option<real>): (r: (Speech, bool))
    ensures r.0.message == message
    ensures r.0.shown <==> s.timer.None? || s.shown
    ensures r.0.timer == Some(time.GetOr(DEFAULT_SPEECH_SECONDS) * 1000.0)
    ensures r.1 <==> s.timer.None?
  {
    (Speech(if s.timer.None? then true else s.shown, Some(time.GetOr(DEFAULT_SPEECH_SECONDS) * 1000.0), message),
     s.timer.None?)
  }

  /** The removal timer fires: detach the bubble and forget the timer. */
  function SpeechExpires(s: Speech): (r: Speech)
    ensures s.timer.Some? ==> !r.shown && r.timer.None?
    ensures s.timer.None? ==> r == s
  {
    if s.timer.None? then s else s.(shown := false, timer := None)
  }

  /** `focus()`: attach the outline; three.js re-parents an object already attached, so it stays attached once. */
  function Focus(c: Character): (r: Character)
    ensures r.outlineShown
    ensures r.(outlineShown := c.outlineShown) == c
  {
    c.(outlineShown := true)
  }

  /** `blur()`: detach the outline; detaching an object that is not attached does nothing. */
  function Blur(c: Character): (r: Character)
    ensures !r.outlineShown
    ensures r.(outlineShown := c.outlineShown) == c
  {
    c.(outlineShown := false)
  }

  // ---------------------------------------------------------------- properties

  /**
   * Focus and blur undo each other: blurring a freshly focused character
   * restores it when its outline was hidden, focusing a freshly blurred one
   * restores it when the outline was shown, and either call repeated changes
   * nothing.
   */
  lemma FocusBlurRoundTrip(c: Character)
    ensures !c.outlineShown ==> Blur(Focus(c)) == c
    ensures c.outlineShown ==> Focus(Blur(c)) == c
    ensures Focus(Focus(c)) == Focus(c) && Blur(Blur(c)) == Blur(c)
    ensures Blur(Focus(c)) == Blur(c) && Focus(Blur(c)) == Focus(c)
  {
  }

  /**
   * Profiles and model URLs correspond one to one: distinct profiles in the
   * table request distinct URLs, and an id outside the table requests a URL
   * no profile in the table asks for.
   */
  lemma ProfileUrlsDistinct(p: int, q: int)
    requires 0 <= p < |ProfileMap|
    ensures 0 <= q < |ProfileMap| && p != q ==> ProfileUrl(p) != ProfileUrl(q)
    ensures !(0 <= q < |ProfileMap|) ==> ProfileUrl(p) != ProfileUrl(q)
  {
    if ProfileUrl(p) == ProfileUrl(q) {
      var n := if 0 <= q < |ProfileMap| then ProfileMap[q] else "undefined";
      UrlNameInjective(ProfileMap[p], n);
      assert ProfileMap[p] == n;
      assert forall i, j :: 0 <= i < j < |ProfileMap| ==> ProfileMap[i] != ProfileMap[j];
      assert forall i :: 0 <= i < |ProfileMap| ==> ProfileMap[i] != "undefined";
    }
  }

  /** The profile name can be read back out of its URL. */
  lemma UrlNameInjective(a: string, b: string)
    requires PROFILE_PREFIX + a + PROFILE_SUFFIX == PROFILE_PREFIX + b + PROFILE_SUFFIX
    ensures a == b
  {
    var u := PROFILE_PREFIX + a + PROFILE_SUFFIX;
    var n := |PROFILE_PREFIX|;
    assert |a| == |b|;
    assert u[n..n + |a|] == a;
    assert (PROFILE_PREFIX + b + PROFILE_SUFFIX)[n..n + |b|] == b;
  }

  /** Ground snap on the worked example: feet at 200, probe from 250, hit at 250 lands at 0. */
  lemma GroundSnapExample(c: Character, dt: real, colliders: seq<M.Collider>, o: M.Orientation,
                          cast: M.RayOracle, now: int)
    requires c.y == 200.0
    requires var q := GroundQuery(c, Vec3(0.0, 200.0, 0.0), colliders);
             cast(q) == [M.Hit(7, 250.0)]
    ensures var (c', d) := Move(c, dt, colliders, o, cast, Vec3(0.0, 200.0, 0.0), now);
            c'.y == 0.0 && d.y == -200.0
  {
  }

  /** Without input the character turns idle, and is otherwise walking or running. */
  lemma MoveChoosesAction(c: Character, dt: real, colliders: seq<M.Collider>, o: M.Orientation,
                          cast: M.RayOracle, worldAfter: Vec3, now: int)
    requires c.anim.hasMixer && !c.anim.timerPending
    requires IDLE in c.anim.actionMap && WALKING in c.anim.actionMap && RUNNING in c.anim.actionMap
    ensures var (c', d) := Move(c, dt, colliders, o, cast, worldAfter, now);
            (d.x == 0.0 && d.z == 0.0 <==> c'.anim.action == IDLE) &&
            (d.x != 0.0 || d.z != 0.0 <==> c'.anim.action in {WALKING, RUNNING})
  {
  }

  /** Running is sticky: a running character that moves keeps running at running velocity next time. */
  lemma RunningStaysRunning(c: Character, dt: real, colliders: seq<M.Collider>, o: M.Orientation,
                            cast: M.RayOracle, worldAfter: Vec3, now: int)
    requires c.anim.action == RUNNING && !c.anim.timerPending
    ensures var (c', d) := Move(c, dt, colliders, o, cast, worldAfter, now);
            c'.velocity == M.RUNNING_VELOCITY &&
            (d.x != 0.0 || d.z != 0.0 ==> c'.anim.action == RUNNING)
  {
  }

  /** Applying the same non-switching update twice is the same as applying it once. */
  lemma UpdateIdempotent(c: Character, p: Params, now: int, placed: Vec3)
    requires p.profileId.None? || p.profileId.value == c.profileId
    ensures Update(Update(c, p, now, placed), p, now, placed) == Update(c, p, now, placed)
  {
    var a := p.action.GetOr(c.anim.action);
    AM.RequestIdempotent(c.anim, a, now);
  }

  /**
   * After an update that keeps the profile, the next probes start from where
   * the update placed the character: the collision probe 50 units above
   * `placed`, and the next `move` from `placed` itself.
   */
  lemma UpdateMovesProbe(c: Character, p: Params, now: int, placed: Vec3,
                         colliders: seq<M.Collider>, dir: Option<Vec3>, distance: M.Limit)
    requires p.profileId.None? || p.profileId.value == c.profileId
    ensures CollideQuery(Update(c, p, now, placed), colliders, dir, distance).origin ==
            Vec3(placed.x, placed.y + STEP_OVER_HEIGHT, placed.z)
    ensures MoverOf(Update(c, p, now, placed)).worldPos == placed
    ensures MoverOf(Update(c, p, now, placed)).uuid == c.uuid
  {
  }

  /** A pending removal timer implies the bubble is attached; `say` and expiry keep it so. */
  predicate SpeechConsistent(s: Speech) {
    s.timer.Some? ==> s.shown
  }

  lemma SpeechConsistencyKept(s: Speech, m: string, t: Option<real>)
    requires SpeechConsistent(s)
    ensures SpeechConsistent(Say(s, m, t).0) && Say(s, m, t).0.shown
    ensures SpeechConsistent(SpeechExpires(s))
  {
  }

  /** A second `say` while the bubble is up restarts the timer without attaching again. */
  lemma SayRestartsTimer(s: Speech, m1: string, m2: string)
    requires SpeechConsistent(s)
    ensures var (s1, added1) := Say(s, m1, None);
            var (s2, added2) := Say(s1, m2, Some(2.0));
            !added2 && s2.timer == Some(2000.0) && s2.shown
  {
  }
}

=== FILE: classroom.dfy ===
/**
 * The classroom (src/app/3d/utils/Classroom.ts): a room box with walls at
 * front and back and a grey floor, a teacher's platform low enough to step
 * onto, and a 3 × 5 grid of desks, each with as many chairs as fit along it,
 * spaced evenly.  Lengths are exact reals.
 */
module Classroom {
  import opened Wrappers
  import opened Basics
  import C = Character
  import B = Box

  const METER := C.METER
  const DELTA := 5.0

  const CLASSROOM_HEIGHT := 3.5 * METER
  const CLASSROOM_WIDTH := 20.0 * METER
  const CLASSROOM_DEPTH := 15.0 * METER

  /** The constructor id the room box uses for its front and back walls. */
  const WALL: nat := 1

  /** The room's box: a little larger than the room, walls at front and back, a grey floor. */
  const RoomParams := B.BoxParams(
    CLASSROOM_WIDTH + DELTA, CLASSROOM_HEIGHT + DELTA, CLASSROOM_DEPTH + DELTA, None,
    map[B.Front := B.SideConfig(Some(B.Custom(WALL)), None, None),
        B.Back := B.SideConfig(Some(B.Custom(WALL)), None, None),
        B.Bottom := B.SideConfig(None, Some(B.SideParams(Some(0x808080), None, None, None, None, None, None)), None)])

  const PLATFORM_WIDTH := CLASSROOM_DEPTH - 4.0 * METER
  const PLATFORM_HEIGHT := 0.6 * C.STEP_OVER_HEIGHT
  const PLATFORM_DEPTH := 2.0 * METER

  const COLS := 3
  const ROWS := 5
  const DESK_WIDTH := 4.0 * METER
  const DESK_DEPTH := 0.8 * METER
  /** The gap between desk columns: what the columns leave of the room's depth, shared by the two gaps. */
  const LR_DELTA := (CLASSROOM_DEPTH - DESK_WIDTH * COLS as real) / (COLS - 1) as real
  const FB_DELTA := 1.2 * METER
  const CHAIR_WIDTH := 0.8 * METER

  /** A chair as `addChair` constructs it: its size and its place on the desk (the turn and shift applied after construction are not recorded). */
  datatype Chair = Chair(width: real, depth: real, height: Option<real>, x: real, z: real)

  /**
   * `addChair(width, depth?, height?)` on a desk of the given width and
   * depth: `floor(deskWidth / width)` chairs, with equal margins between
   * them and at both ends; a missing or zero depth means the chair's width.
   */
  function AddChair(deskWidth: real, deskDepth: real, width: real, depth: Option<real>, height: Option<real>): (r: seq<Chair>)
    requires width > 0.0
    ensures |r| == if (deskWidth / width).Floor < 0 then 0 else (deskWidth / width).Floor
    ensures forall i :: 0 <= i < |r| ==>
      r[i].width == width && r[i].z == deskDepth && r[i].height == height &&
      r[i].depth == (if depth.None? || depth.value == 0.0 then width else depth.value)
    ensures forall i :: 0 <= i < |r| ==>
      r[i].x == (i + 1) as real * Margin(deskWidth, width) + i as real * width
  {
    var count := (deskWidth / width).Floor;
    var n := if count < 0 then 0 else count;
    var d := if depth.None? || depth.value == 0.0 then width else depth.value;
    seq(n, i requires 0 <= i < n => Chair(width, d, height, (i + 1) as real * Margin(deskWidth, width) + i as real * width, deskDepth))
  }

  /** `(this.width - count * width) / (count + 1)`; with a negative count no chair reads it, and it is 0 here. */
  function Margin(deskWidth: real, width: real): real
    requires width > 0.0
  {
    var count := (deskWidth / width).Floor;
    if count < 0 then 0.0 else (deskWidth - count as real * width) / (count + 1) as real
  }

  /** A desk of the grid: its place in the room, and its chairs. */
  datatype Desk = Desk(x: real, y: real, z: real, chairs: seq<Chair>)

  /** Desk `(i, j)`: column `i` across the room's depth, row `j` back from the platform. */
  function DeskAt(i: nat, j: nat): (d: Desk)
    ensures d.y == DELTA / 2.0
    ensures d.x == DELTA / 2.0 + PLATFORM_DEPTH + 2.0 * METER + j as real * (DESK_DEPTH + FB_DELTA)
    ensures d.z == DELTA / 2.0 + i as real * (DESK_WIDTH + LR_DELTA)
    ensures d.chairs == AddChair(DESK_WIDTH, DESK_DEPTH, CHAIR_WIDTH, None, None)
  {
    Desk(DELTA / 2.0 + PLATFORM_DEPTH + 2.0 * METER + j as real * (DESK_DEPTH + FB_DELTA),
         DELTA / 2.0,
         DELTA / 2.0 + i as real * (DESK_WIDTH + LR_DELTA),
         AddChair(DESK_WIDTH, DESK_DEPTH, CHAIR_WIDTH, None, None))
  }

  /** The classroom: the room's six sides and the desk grid, `desks[i][j]`. */
  datatype Room = Room(sides: seq<B.SideSpec>, desks: seq<seq<Desk>>)

  function New(): (r: Room)
    ensures |r.sides| == 6 && |r.desks| == COLS
    ensures forall i :: 0 <= i < COLS ==> |r.desks[i]| == ROWS
    ensures forall i, j :: 0 <= i < COLS && 0 <= j < ROWS ==> r.desks[i][j] == DeskAt(i, j)
  {
    Room(B.Build(RoomParams), seq(COLS, i requires 0 <= i < COLS => seq(ROWS, j requires 0 <= j < ROWS => DeskAt(i, j))))
  }

  // ---------------------------------------------------------------- properties

  /** The chairs along a desk leave the same margin at both ends and between each two of them. */
  lemma {:induction false} ChairsEvenlySpaced(deskWidth: real, width: real, i: nat)
    requires width > 0.0
    requires var r := AddChair(deskWidth, 0.0, width, None, None); i < |r|
    ensures var r := AddChair(deskWidth, 0.0, width, None, None);
            var m := Margin(deskWidth, width);
            m >= 0.0 &&
            (i == 0 ==> r[i].x == m) &&
            (i + 1 < |r| ==> r[i + 1].x - (r[i].x + width) == m) &&
            (i + 1 == |r| ==> deskWidth - (r[i].x + width) == m)
  {
    var r := AddChair(deskWidth, 0.0, width, None, None);
    var n := |r|;
    var m := Margin(deskWidth, width);
    assert n == (deskWidth / width).Floor;
    assert n as real * width <= deskWidth by {
      assert n as real <= deskWidth / width;
      assert (deskWidth / width) * width == deskWidth;
    }
    assert m * (n + 1) as real == deskWidth - n as real * width;
    if i + 1 == n {
      assert r[i].x + width == n as real * m + n as real * width + m - m;
      assert deskWidth - (r[i].x + width) == (n + 1) as real * m - n as real * m;
    }
  }

  /** In exact arithmetic a desk takes five chairs, flush with each other and with its ends. */
  lemma FiveChairsPerDesk()
    ensures |DeskAt(0, 0).chairs| == 5 && Margin(DESK_WIDTH, CHAIR_WIDTH) == 0.0
  {
    assert DESK_WIDTH / CHAIR_WIDTH == 5.0;
  }

  /** The three desk columns and the two gaps between them fill the room's depth exactly. */
  lemma ColumnsFillDepth()
    ensures DESK_WIDTH * COLS as real + LR_DELTA * (COLS - 1) as real == CLASSROOM_DEPTH
    ensures DeskAt(COLS - 1, 0).z + DESK_WIDTH == DELTA / 2.0 + CLASSROOM_DEPTH
    ensures LR_DELTA == 1.5 * METER
  {
  }

  /** The last row of desks ends inside the room, clear of its far wall. */
  lemma RowsFitInRoom()
    ensures DeskAt(0, ROWS - 1).x + DESK_DEPTH < DELTA / 2.0 + CLASSROOM_WIDTH
  {
  }

  /** The platform is lower than a character can step over, so it can be walked onto. */
  lemma PlatformCanBeSteppedOnto()
    ensures 0.0 < PLATFORM_HEIGHT < C.STEP_OVER_HEIGHT
  {
  }

  /** The room's floor is grey, its front and back are walls, and its other sides are plain white sides. */
  lemma RoomSides()
    ensures var s := New().sides;
            s[5].color == 0x808080 && s[0].ctor == B.Custom(WALL) && s[1].ctor == B.Custom(WALL) &&
            s[2].ctor == B.SideCtor && s[2].color == 0xffffff && s[4].color == 0xffffff
  {
  }

  /** A desk's drawer box keeps all six sides: the `if: false` flags on its front, back and top are never read. */
  lemma DrawerKeepsSixSides(w: real, h: real, d: real)
    ensures var flagged := B.BoxParams(w, h, d, Some(0xc0c0c0), map[
              B.Front := B.SideConfig(None, None, Some(false)),
              B.Back := B.SideConfig(None, None, Some(false)),
              B.Top := B.SideConfig(None, None, Some(false))]);
            B.Build(flagged) == B.Build(flagged.(sides := map[])) &&
            forall i :: 0 <= i < 6 ==> B.Build(flagged)[i].color == 0xc0c0c0
  {
    var flagged := B.BoxParams(w, h, d, Some(0xc0c0c0), map[
      B.Front := B.SideConfig(None, None, Some(false)),
      B.Back := B.SideConfig(None, None, Some(false)),
      B.Top := B.SideConfig(None, None, Some(false))]);
    assert forall n :: B.BuildSide(flagged, n) == B.BuildSide(flagged.(sides := map[]), n);
  }
}

=== FILE: control_manager.dfy ===
/**
 * The input controller (src/app/3d/managers/ControlManager.ts): keyboard
 * folding into a move state, the mount/unmount lifecycle with its
 * listener destroyers, and the routing of `on` to window, pointer-lock
 * controls or container.
 */
module ControlManager {
  import opened Wrappers
  import opened Basics
  import opened Events

  /** `IControlManagerOption`, fully populated. */
  datatype Options = Options(container: Target, showJoyStick: bool, controlPointer: bool)

  /** A partial option object: `None` is an absent key. */
  datatype OptionsPatch = OptionsPatch(container: Option<Target>, showJoyStick: Option<bool>,
                                       controlPointer: Option<bool>)

  /** `document.body`. */
  const Body: Target := Element(0)
  const DefaultOptions := Options(Body, true, true)

  /** The five pressed flags of `IMoveInnerState`. */
  datatype Keys = Keys(forward: int, back: int, left: int, right: int, up: int)

  const Released := Keys(0, 0, 0, 0, 0)

  datatype Dir = Forward | Back | Left | Right | Up

  /** Identity of a caller-supplied callback. */
  type Callback = nat

  /**
   * The listener side: every live DOM registration, the destroyers the
   * manager keeps, and a source of fresh identities for bound handlers and
   * pointer-lock controls.
   */
  datatype Bindings = Bindings(reg: Registry, destroyers: seq<Destroyer>, nextId: nat)

  datatype Manager = Manager(
    options: Options,
    camera: Option<ObjId>,
    mounted: bool,
    onMove: Option<Callback>,
    onSwitch: Option<Callback>,
    keys: Keys,
    joyStick: bool,             // `joyStick !== null`
    pointer: Option<nat>,       // the pointer-lock controls instance, by identity
    b: Bindings,
    emitted: seq<MoveState>,    // the states passed to `onMove`, oldest first
    switches: nat)              // calls of the perspective-switch callback

  /** `Object.assign(options, patch)`. */
  function MergeOptions(o: Options, p: OptionsPatch): (r: Options)
    ensures r.container == p.container.GetOr(o.container)
    ensures r.showJoyStick == p.showJoyStick.GetOr(o.showJoyStick)
    ensures r.controlPointer == p.controlPointer.GetOr(o.controlPointer)
  {
    Options(p.container.GetOr(o.container), p.showJoyStick.GetOr(o.showJoyStick),
            p.controlPointer.GetOr(o.controlPointer))
  }

  /** The constructor: fresh defaults overridden by the given options; nothing mounted. */
  function New(p: OptionsPatch, reg: Registry, nextId: nat): (m: Manager)
    ensures m.options == MergeOptions(DefaultOptions, p)
    ensures !m.mounted && m.camera.None? && m.b == Bindings(reg, [], nextId) && m.keys == Released
  {
    Manager(MergeOptions(DefaultOptions, p), None, false, None, None, Released, false, None,
            Bindings(reg, [], nextId), [], 0)
  }

  // ---------------------------------------------------------------- keyboard

  /** Which flag a key drives, for both key-down and key-up. */
  function FieldOf(key: string): Option<Dir> {
    if key == "w" || key == "ArrowUp" then Some(Forward)
    else if key == "s" || key == "ArrowDown" then Some(Back)
    else if key == "a" || key == "ArrowLeft" then Some(Left)
    else if key == "d" || key == "ArrowRight" then Some(Right)
    else if key == " " then Some(Up)
    else None
  }

  function Get(k: Keys, d: Dir): int {
    match d
    case Forward => k.forward
    case Back => k.back
    case Left => k.left
    case Right => k.right
    case Up => k.up
  }

  function Set(k: Keys, d: Dir, v: int): (r: Keys)
    ensures Get(r, d) == v
    ensures forall e :: e != d ==> Get(r, e) == Get(k, e)
  {
    match d
    case Forward => k.(forward := v)
    case Back => k.(back := v)
    case Left => k.(left := v)
    case Right => k.(right := v)
    case Up => k.(up := v)
  }

  /** `_onMove`'s folding: opposite keys cancel. */
  function Folded(k: Keys): MoveState {
    MoveState((k.forward - k.back) as real, (k.right - k.left) as real, k.up as real)
  }

  /** `_onMove`: report the folded state if a move callback is installed. */
  function Emit(m: Manager): (r: Manager)
    ensures r == m.(emitted := m.emitted + (if m.onMove.Some? then [Folded(m.keys)] else []))
  {
    if m.onMove.Some? then m.(emitted := m.emitted + [Folded(m.keys)]) else m
  }

  function Press(k: Keys, key: string, v: int): Keys {
    match FieldOf(key)
    case None => k
    case Some(d) => Set(k, d, v)
  }

  /** `onKeyDown`: raise the key's flag, then report, mapped key or not. */
  function KeyDown(m: Manager, key: string): (r: Manager)
    ensures FieldOf(key).Some? ==> (Get(r.keys, FieldOf(key).value) == 1 &&
              forall e :: e != FieldOf(key).value ==> Get(r.keys, e) == Get(m.keys, e))
    ensures FieldOf(key).None? ==> r.keys == m.keys
    ensures r.emitted == m.emitted + (if m.onMove.Some? then [Folded(r.keys)] else [])
    ensures r.switches == m.switches && r.b == m.b && r.mounted == m.mounted
  {
    Emit(m.(keys := Press(m.keys, key, 1)))
  }

  /** `onKeyUp`: lower the key's flag; `q` also asks for a perspective switch; then report. */
  function KeyUp(m: Manager, key: string): (r: Manager)
    ensures FieldOf(key).Some? ==> (Get(r.keys, FieldOf(key).value) == 0 &&
              forall e :: e != FieldOf(key).value ==> Get(r.keys, e) == Get(m.keys, e))
    ensures FieldOf(key).None? ==> r.keys == m.keys
    ensures r.emitted == m.emitted + (if m.onMove.Some? then [Folded(r.keys)] else [])
    ensures r.switches == m.switches + (if key == "q" && m.onSwitch.Some? then 1 else 0)
    ensures r.b == m.b && r.mounted == m.mounted
  {
    var m1 := m.(keys := Press(m.keys, key, 0));
    Emit(if key == "q" && m.onSwitch.Some? then m1.(switches := m1.switches + 1) else m1)
  }

  // ---------------------------------------------------------------- routing

  /** Where `on(name, …)` attaches: `None` when it picks the pointer controls and there are none. */
  function Route(o: Options, pointer: Option<nat>, name: string): (t: Option<Target>)
    ensures Contains(name, "key") ==> t == Some(Window)
    ensures !Contains(name, "key") && Contains(name, "lock") && o.controlPointer ==>
              (t.Some? <==> pointer.Some?) && (pointer.Some? ==> t == Some(PointerControls(pointer.value)))
    ensures !Contains(name, "key") && !(Contains(name, "lock") && o.controlPointer) ==> t == Some(o.container)
  {
    if Contains(name, "key") then Some(Window)
    else if Contains(name, "lock") && o.controlPointer then
      (if pointer.Some? then Some(PointerControls(pointer.value)) else None)
    else Some(o.container)
  }

  /** `delegate` on `t`, keeping the destroyer. */
  function Attach(b: Bindings, t: Target, name: string, listener: ListenerId): (r: Bindings)
    ensures r.reg == b.reg + {Registration(t, name, listener)}
    ensures r.destroyers == b.destroyers + [Destroyer(Registration(t, name, listener))]
    ensures r.nextId == b.nextId
  {
    var (reg, d) := Delegate(b.reg, t, name, listener);
    b.(reg := reg, destroyers := b.destroyers + [d])
  }

  /** `on(name, listener)`: delegate on the routed target and keep the destroyer. */
  function On(m: Manager, name: string, listener: ListenerId): (r: Result<(Manager, Destroyer)>)
    ensures Route(m.options, m.pointer, name).None? <==> r.Err?
    ensures r.Ok? ==>
      var t := Route(m.options, m.pointer, name).value;
      r.value.1 == Destroyer(Registration(t, name, listener)) &&
      r.value.0 == m.(b := m.b.(reg := m.b.reg + {Registration(t, name, listener)},
                                destroyers := m.b.destroyers + [r.value.1]))
  {
    match Route(m.options, m.pointer, name)
    case None => Err("TypeError: cannot read properties of null (reading 'addEventListener')")
    case Some(t) =>
      var b := Attach(m.b, t, name, listener);
      Ok((m.(b := b), b.destroyers[|b.destroyers| - 1]))
  }

  /**
   * Bind one freshly bound internal handler per (target, name) pair, in
   * order: the `bindEvents` step of `mount`.
   */
  function BindAll(b: Bindings, pairs: seq<(Target, string)>): (r: Bindings)
    ensures r.nextId == b.nextId + |pairs|
    ensures |r.destroyers| == |b.destroyers| + |pairs| && r.destroyers[..|b.destroyers|] == b.destroyers
    ensures forall i :: |b.destroyers| <= i < |r.destroyers| ==>
              r.destroyers[i].registration ==
                Registration(pairs[i - |b.destroyers|].0, pairs[i - |b.destroyers|].1, b.nextId + (i - |b.destroyers|))
    ensures r.reg == b.reg + Regs(r.destroyers[|b.destroyers|..])
    decreases |pairs|
  {
    if |pairs| == 0 then
      assert b.destroyers[|b.destroyers|..] == [];
      b
    else
      var next := Attach(b, pairs[0].0, pairs[0].1, b.nextId).(nextId := b.nextId + 1);
      var r := BindAll(next, pairs[1..]);
      BindAllDestroyers(b, next, r, pairs);
      BindAllRegs(b, next, r);
      r
  }

  /** The destroyers of `BindAll` after its first attachment: the old list, then one per pair, in order. */
  lemma BindAllDestroyers(b: Bindings, next: Bindings, r: Bindings, pairs: seq<(Target, string)>)
    requires |pairs| > 0
    requires next.destroyers == b.destroyers + [Destroyer(Registration(pairs[0].0, pairs[0].1, b.nextId))]
    requires next.nextId == b.nextId + 1
    requires |r.destroyers| == |next.destroyers| + |pairs[1..]| && r.destroyers[..|next.destroyers|] == next.destroyers
    requires forall i :: |next.destroyers| <= i < |r.destroyers| ==>
               r.destroyers[i].registration ==
                 Registration(pairs[1..][i - |next.destroyers|].0, pairs[1..][i - |next.destroyers|].1,
                              next.nextId + (i - |next.destroyers|))
    ensures |r.destroyers| == |b.destroyers| + |pairs| && r.destroyers[..|b.destroyers|] == b.destroyers
    ensures forall i :: |b.destroyers| <= i < |r.destroyers| ==>
              r.destroyers[i].registration ==
                Registration(pairs[i - |b.destroyers|].0, pairs[i - |b.destroyers|].1, b.nextId + (i - |b.destroyers|))
  {
    var n := |b.destroyers|;
    assert r.destroyers[..n] == next.destroyers[..n];
    assert r.destroyers[n] == next.destroyers[n];
    forall i | n < i < |r.destroyers|
      ensures r.destroyers[i].registration ==
                Registration(pairs[i - n].0, pairs[i - n].1, b.nextId + (i - n))
    {
      assert pairs[1..][i - (n + 1)] == pairs[i - n];
    }
  }

  /** The registry of `BindAll` after its first attachment: the old one plus every added destroyer's registration. */
  lemma BindAllRegs(b: Bindings, next: Bindings, r: Bindings)
    requires |next.destroyers| == |b.destroyers| + 1 && next.destroyers[..|b.destroyers|] == b.destroyers
    requires next.reg == b.reg + {next.destroyers[|b.destroyers|].registration}
    requires |r.destroyers| >= |next.destroyers| && r.destroyers[..|next.destroyers|] == next.destroyers
    requires r.reg == next.reg + Regs(r.destroyers[|next.destroyers|..])
    ensures r.reg == b.reg + Regs(r.destroyers[|b.destroyers|..])
  {
    var added := r.destroyers[|b.destroyers|..];
    var tail := r.destroyers[|next.destroyers|..];
    assert added[0] == next.destroyers[|b.destroyers|];
    assert added[1..] == tail;
    RegsCons(added);
  }

  /** The handler names `bindEvents` attaches, in order. */
  const Bound: seq<string> := ["keydown", "keyup", "mousedown", "lock", "unlock"]

  /**
   * Where `bindEvents` attaches each of them: key events on the window,
   * mouse-down on the container, and the lock events on the pointer-lock
   * controls when pointer control is on (on the container otherwise).
   */
  function BoundTargets(o: Options, pointer: Option<nat>): (r: seq<(Target, string)>)
    ensures |r| == |Bound| && forall i :: 0 <= i < |r| ==> r[i].1 == Bound[i]
  {
    var lockTarget := if o.controlPointer && pointer.Some? then PointerControls(pointer.value) else o.container;
    [(Window, Bound[0]), (Window, Bound[1]), (o.container, Bound[2]), (lockTarget, Bound[3]), (lockTarget, Bound[4])]
  }

  // ---------------------------------------------------------------- lifecycle

  /**
   * `mount(camera, onMove, onSwitchPerpective)`: refused for a null camera or
   * when already mounted; otherwise record the callbacks, create the joystick
   * and pointer-lock controls as configured, and bind the five handlers.
   */
  function Mount(m: Manager, camera: Option<ObjId>, onMove: Option<Callback>, onSwitch: Option<Callback>): (r: Manager)
    ensures camera.None? || m.mounted ==> r == m
    ensures camera.Some? && !m.mounted ==>
      r.mounted && r.camera == camera && r.onMove == onMove && r.onSwitch == onSwitch &&
      r.options == m.options && r.keys == m.keys &&
      r.joyStick == (m.options.showJoyStick || m.joyStick) &&
      (m.options.controlPointer ==> r.pointer == Some(m.b.nextId)) &&
      (!m.options.controlPointer ==> r.pointer == m.pointer) &&
      r.b == BindAll(m.b.(nextId := if m.options.controlPointer then m.b.nextId + 1 else m.b.nextId),
                     BoundTargets(m.options, r.pointer))
  {
    if camera.None? || m.mounted then m
    else
      var pointer := if m.options.controlPointer then Some(m.b.nextId) else m.pointer;
      var b := m.b.(nextId := if m.options.controlPointer then m.b.nextId + 1 else m.b.nextId);
      m.(mounted := true, camera := camera, onMove := onMove, onSwitch := onSwitch,
         joyStick := m.options.showJoyStick || m.joyStick, pointer := pointer,
         b := BindAll(b, BoundTargets(m.options, pointer)))
  }

  /** `unmount()`: run every destroyer once and forget them; drop joystick and pointer controls. */
  function Unmount(m: Manager): (r: Manager)
    ensures !m.mounted ==> r == m
    ensures m.mounted ==>
      !r.mounted && !r.joyStick && r.pointer.None? &&
      r.b == Bindings(DestroyAll(m.b.reg, m.b.destroyers), [], m.b.nextId) &&
      r.camera == m.camera && r.onMove == m.onMove && r.onSwitch == m.onSwitch && r.options == m.options
  {
    if !m.mounted then m
    else m.(mounted := false, joyStick := false, pointer := None,
            b := Bindings(DestroyAll(m.b.reg, m.b.destroyers), [], m.b.nextId))
  }

  /** `update(options)`: merge, and when mounted remount with the stored camera and move callback only. */
  function Update(m: Manager, p: OptionsPatch): (r: Manager)
    ensures r.options == MergeOptions(m.options, p)
    ensures !m.mounted ==> r == m.(options := MergeOptions(m.options, p))
    ensures m.mounted && m.camera.Some? ==>
      r.mounted && r.onSwitch.None? && r.onMove == m.onMove && r.camera == m.camera
  {
    var m1 := m.(options := MergeOptions(m.options, p));
    if m.mounted then Mount(Unmount(m1), m.camera, m.onMove, None) else m1
  }

  // ---------------------------------------------------------------- properties

  /** Every pressed flag is 0 or 1. */
  predicate KeysValid(k: Keys) {
    forall d :: Get(k, d) == 0 || Get(k, d) == 1
  }

  /** Key handlers keep the flags binary, so every reported component lies in {-1, 0, 1}. */
  lemma EmittedInRange(m: Manager, key: string, down: bool)
    requires KeysValid(m.keys)
    ensures var r := if down then KeyDown(m, key) else KeyUp(m, key);
            KeysValid(r.keys) &&
            -1.0 <= Folded(r.keys).forward <= 1.0 && -1.0 <= Folded(r.keys).right <= 1.0 &&
            (Folded(r.keys).up == 0.0 || Folded(r.keys).up == 1.0)
  {
    var r := if down then KeyDown(m, key) else KeyUp(m, key);
    assert forall d :: Get(r.keys, d) == 0 || Get(r.keys, d) == 1;
    assert Get(r.keys, Forward) == r.keys.forward && Get(r.keys, Back) == r.keys.back;
    assert Get(r.keys, Left) == r.keys.left && Get(r.keys, Right) == r.keys.right;
    assert Get(r.keys, Up) == r.keys.up;
  }

  /** Releasing a key undoes pressing it, when it was up before. */
  lemma PressReleaseRoundTrip(m: Manager, key: string)
    requires FieldOf(key).Some? ==> Get(m.keys, FieldOf(key).value) == 0
    ensures KeyUp(KeyDown(m, key), key).keys == m.keys
  {
    var r := KeyUp(KeyDown(m, key), key).keys;
    assert forall d :: Get(r, d) == Get(m.keys, d);
    assert r.forward == Get(r, Forward) && r.back == Get(r, Back) && r.left == Get(r, Left);
    assert r.right == Get(r, Right) && r.up == Get(r, Up);
  }

  /** Every registration's handler was issued before `nextId`. */
  predicate Fresh(b: Bindings) {
    forall g :: g in b.reg ==> g.listener < b.nextId
  }

  /**
   * Mounting and unmounting a fresh manager leaves exactly the listeners
   * that were there before: the destroyers remove what `mount` added.
   */
  lemma {:induction false} MountUnmountRestores(m: Manager, camera: Option<ObjId>, onMove: Option<Callback>,
                                                onSwitch: Option<Callback>)
    requires camera.Some? && !m.mounted && m.b.destroyers == [] && Fresh(m.b)
    ensures Unmount(Mount(m, camera, onMove, onSwitch)).b.reg == m.b.reg
  {
    var r := Mount(m, camera, onMove, onSwitch);
    var ds := r.b.destroyers;
    assert ds[0..] == ds;
    DestroyAllRemoves(r.b.reg, ds);
    assert r.b.reg == m.b.reg + Regs(ds);
    forall g | g in Regs(ds) ensures g !in m.b.reg {
      var i :| 0 <= i < |ds| && ds[i].registration == g;
      assert g.listener >= m.b.nextId;
    }
  }

  /** The handlers `mount` binds land exactly where `on` would route them. */
  lemma {:induction false} BoundAsRouted(o: Options, pointer: Option<nat>, k: nat)
    requires o.controlPointer ==> pointer.Some?
    requires k < |Bound|
    ensures Route(o, pointer, Bound[k]) == Some(BoundTargets(o, pointer)[k].0)
  {
    assert OccursAt("keydown", "key", 0) && OccursAt("keyup", "key", 0);
    assert OccursAt("lock", "lock", 0) && OccursAt("unlock", "lock", 2);
    Lacks("mousedown", "key", 0);
    Lacks("mousedown", "lock", 0);
    Lacks("lock", "key", 1);
    Lacks("unlock", "key", 1);
  }

  /** `update` on a mounted manager no longer switches perspective on `q`. */
  lemma UpdateDropsSwitch(m: Manager, p: OptionsPatch)
    requires m.mounted && m.camera.Some?
    ensures var r := Update(m, p); KeyUp(r, "q").switches == r.switches
  {
  }
}

=== FILE: disposable.dfy ===
/**
 * Disposal bookkeeping (src/app/3d/utils/Disposable.ts): a store that
 * disposes what it holds exactly once, refuses (silently) what arrives after
 * it was disposed, an owner that cannot register itself, and the listener
 * helper whose disposal removes exactly the listener it added.
 */
module Disposable {
  import opened Wrappers
  import opened Events

  /**
   * Something with a `dispose` method: a listener handle made by
   * `addDisposableEventListener`, another owner, or any other object.
   */
  datatype Item = ListenerItem(registration: Registration) | OwnerItem(owner: nat) | Plain(id: nat)

  /** The outside world disposal acts on: the live listeners, and every `dispose()` call made so far. */
  datatype World = World(reg: Registry, log: seq<Item>)

  /** `DisposableStore`: `_toDispose` is a JavaScript `Set`, kept in insertion order. */
  datatype Store = Store(toDispose: seq<Item>, isDisposed: bool)

  const EmptyStore := Store([], false)

  predicate NoDup(s: seq<Item>) {
    forall i, j :: 0 <= i < j < |s| ==> s[i] != s[j]
  }

  predicate Valid(s: Store) {
    NoDup(s.toDispose) && (s.isDisposed ==> s.toDispose == [])
  }

  /** `item.dispose()`: logged; a listener handle also removes its listener. */
  function DisposeItem(w: World, it: Item): (r: World)
    ensures r.log == w.log + [it]
    ensures it.ListenerItem? ==> r.reg == w.reg - {it.registration}
    ensures !it.ListenerItem? ==> r.reg == w.reg
  {
    match it
    case ListenerItem(g) => World(w.reg - {g}, w.log + [it])
    case _ => w.(log := w.log + [it])
  }

  /** The listener registrations among some items. */
  function ListenersOf(items: seq<Item>): set<Registration> {
    set i | 0 <= i < |items| && items[i].ListenerItem? :: items[i].registration
  }

  /** `forEach(item => item.dispose())`, first to last. */
  function DisposeEach(w: World, items: seq<Item>): (r: World)
    ensures r.log == w.log + items
    ensures r.reg == w.reg - ListenersOf(items)
    decreases |items|
  {
    if |items| == 0 then w
    else
      var r := DisposeEach(DisposeItem(w, items[0]), items[1..]);
      assert items == [items[0]] + items[1..];
      ListenersCons(items);
      r
  }

  lemma ListenersCons(items: seq<Item>)
    requires |items| > 0
    ensures ListenersOf(items) ==
            (if items[0].ListenerItem? then {items[0].registration} else {}) + ListenersOf(items[1..])
  {
    forall g | g in ListenersOf(items)
      ensures g in (if items[0].ListenerItem? then {items[0].registration} else {}) + ListenersOf(items[1..])
    {
      var i :| 0 <= i < |items| && items[i].ListenerItem? && items[i].registration == g;
      if i > 0 {
        assert items[1..][i - 1] == items[i];
      }
    }
    forall g | g in ListenersOf(items[1..]) ensures g in ListenersOf(items) {
      var i :| 0 <= i < |items[1..]| && items[1..][i].ListenerItem? && items[1..][i].registration == g;
      assert items[i + 1] == items[1..][i];
    }
  }

  /** `clear()`: dispose every held item, then empty the set. */
  function Clear(s: Store, w: World): (r: (Store, World))
    ensures r.0 == s.(toDispose := [])
    ensures r.1.log == w.log + s.toDispose && r.1.reg == w.reg - ListenersOf(s.toDispose)
  {
    (s.(toDispose := []), DisposeEach(w, s.toDispose))
  }

  /** `dispose()`: the first call marks the store and clears it; later calls do nothing. */
  function Dispose(s: Store, w: World): (r: (Store, World))
    ensures s.isDisposed ==> r == (s, w)
    ensures !s.isDisposed ==> r.0 == Store([], true) && r.1 == Clear(s, w).1
    ensures (Valid(s) ==> Valid(r.0)) && r.0.isDisposed
  {
    if s.isDisposed then (s, w)
    else
      var (s1, w1) := Clear(s.(isDisposed := true), w);
      (s1, w1)
  }

  /** `add(t)`: held once (set semantics) while the store is live, ignored after; `t` is returned either way. */
  function Add(s: Store, t: Item): (r: (Store, Item))
    ensures r.1 == t
    ensures s.isDisposed ==> r.0 == s
    ensures !s.isDisposed ==> t in r.0.toDispose && (t in s.toDispose ==> r.0 == s) &&
                               (t !in s.toDispose ==> r.0.toDispose == s.toDispose + [t])
    ensures Valid(s) ==> Valid(r.0)
  {
    if s.isDisposed then (s, t)
    else if t in s.toDispose then (s, t)
    else (s.(toDispose := s.toDispose + [t]), t)
  }

  /** An abstract `Disposable` owner, by identity, with its private store. */
  datatype Owner = Owner(id: nat, store: Store)

  /** `_register(t)`: an owner cannot hold itself; anything else goes into its store. */
  function Register(o: Owner, t: Item): (r: Result<(Owner, Item)>)
    ensures t == OwnerItem(o.id) ==> r == Err("Cannot register a disposable on itself!")
    ensures t != OwnerItem(o.id) ==> r.Ok? && r.value.1 == t && r.value.0 == o.(store := Add(o.store, t).0)
  {
    if t == OwnerItem(o.id) then Err("Cannot register a disposable on itself!")
    else Ok((o.(store := Add(o.store, t).0), t))
  }

  /** `addDisposableEventListener(el, eventName, listener)`: register, and hand back a handle that removes it. */
  function AddDisposableEventListener(w: World, target: Target, event: string, listener: ListenerId): (r: (World, Item))
    ensures r.0.reg == w.reg + {Registration(target, event, listener)} && r.0.log == w.log
    ensures r.1 == ListenerItem(Registration(target, event, listener))
  {
    var (reg, d) := Delegate(w.reg, target, event, listener);
    (w.(reg := reg), ListenerItem(d.registration))
  }

  // ---------------------------------------------------------------- properties

  /** A second `dispose` changes nothing. */
  lemma DisposeIdempotent(s: Store, w: World)
    ensures var (s1, w1) := Dispose(s, w); Dispose(s1, w1) == (s1, w1)
  {
  }

  /** After `dispose`, `add` returns the item, keeps the store as it was, and disposes nothing. */
  lemma AddAfterDispose(s: Store, w: World, t: Item)
    ensures var (s1, w1) := Dispose(s, w);
            Add(s1, t) == (s1, t) && Dispose(Add(s1, t).0, w1) == (s1, w1)
  {
  }

  /** `dispose` calls each held item's `dispose` exactly once, however often it was added. */
  lemma {:induction false} DisposeCallsEachOnce(s: Store, w: World, t: Item)
    requires Valid(s) && !s.isDisposed && t in s.toDispose
    ensures var (_, w1) := Dispose(s, w);
            multiset(w1.log[|w.log|..])[t] == 1
  {
    var (_, w1) := Dispose(s, w);
    assert w1.log[|w.log|..] == s.toDispose;
    CountOnce(s.toDispose, t);
  }

  lemma {:induction false} CountOnce(items: seq<Item>, t: Item)
    requires NoDup(items) && t in items
    ensures multiset(items)[t] == 1
    decreases |items|
  {
    assert items == [items[0]] + items[1..];
    if items[0] == t {
      assert t !in items[1..];
    } else {
      CountOnce(items[1..], t);
    }
  }

  /** Disposing the store removes exactly the listeners it held handles for. */
  lemma {:induction false} DisposeRemovesExactlyItsListeners(w: World, target: Target, event: string, l: ListenerId)
    requires Registration(target, event, l) !in w.reg
    ensures var (w1, h) := AddDisposableEventListener(w, target, event, l);
            var (s1, _) := Add(EmptyStore, h);
            Dispose(s1, w1).1.reg == w.reg
  {
    var (w1, h) := AddDisposableEventListener(w, target, event, l);
    var (s1, _) := Add(EmptyStore, h);
    assert s1.toDispose == [h];
    assert ListenersOf([h]) == {h.registration};
  }
}

=== FILE: distribution_classroom.dfy ===
/**
 * The distribution classroom (src/app/3d/utils/DistributionClassroom.ts):
 * a 40 × 40 grid of cubes standing on a square inside a border in the middle
 * of the room, cube `(i, j)` as tall as `heights[i][j]` levels.  Generating
 * the grid replaces the previous one; a sample distribution rises linearly
 * along both axes.
 */
module DistributionClassroom {
  import opened Wrappers
  import opened Basics
  import C = Character
  import CR = Classroom

  const METER := C.METER

  const BORDER_INNER_LENGTH := 10.0 * METER
  const CUBE_NUM := 40
  const CUBE_WIDTH := BORDER_INNER_LENGTH / CUBE_NUM as real
  const CUBE_HEIGHT := 0.1 * METER

  /** The centre of cube `(0, 0)` at ground level: the grid is centred in the room. */
  const CUBE_BASE_POS := Vec3(
    (CR.CLASSROOM_WIDTH - BORDER_INNER_LENGTH) / 2.0 + CUBE_WIDTH / 2.0, 0.0,
    (CR.CLASSROOM_DEPTH - BORDER_INNER_LENGTH) / 2.0 + CUBE_WIDTH / 2.0)

  /**
   * One cube: its grid cell and its level, `heights[i][j]`; a row too short
   * to have the cell reads `undefined`, which makes the cube's height NaN
   * (`None` here).
   */
  datatype Cube = Cube(i: nat, j: nat, level: Option<real>)

  /** The cube's height. */
  function CubeHeight(c: Cube): real
    requires c.level.Some?
  {
    c.level.value * CUBE_HEIGHT
  }

  /** The cube's centre: the base position, moved along the grid and raised by half the height. */
  function CubeCenter(c: Cube): Vec3
    requires c.level.Some?
  {
    CUBE_BASE_POS.Plus(Vec3(CUBE_WIDTH * c.i as real, c.level.value * CUBE_HEIGHT / 2.0, CUBE_WIDTH * c.j as real))
  }

  /**
   * The room's cube state: the group in the scene, if any, and the current
   * `Cubes` group's contents (they differ after a failed generation, whose
   * new group never reaches the scene).
   */
  datatype Room = Room(shown: Option<seq<Cube>>, current: seq<Cube>)

  /** `heights[i][j]` for a row that exists. */
  function Cell(heights: seq<seq<real>>, i: nat, j: nat): (v: Option<real>)
    requires i < |heights|
    ensures v.Some? <==> j < |heights[i]|
    ensures v.Some? ==> v.value == heights[i][j]
  {
    if j < |heights[i]| then Some(heights[i][j]) else None
  }

  /** `cleanCubes()`: the group leaves the scene and a new, empty one replaces it. */
  function CleanCubes(r: Room): (r': Room)
    ensures r'.shown.None? && r'.current == []
  {
    Room(None, [])
  }

  /**
   * `generateCubes(heights)`: clean, then one cube per cell, row by row,
   * and the new group joins the scene.  A missing row throws in the middle,
   * leaving the cubes made so far in a group the scene never gets.
   */
  method GenerateCubes(r: Room, heights: seq<seq<real>>) returns (res: (Room, Result<()>))
    ensures res.1.Ok? <==> |heights| >= CUBE_NUM
    ensures res.1.Ok? ==>
      res.0.shown == Some(res.0.current) && |res.0.current| == CUBE_NUM * CUBE_NUM &&
      forall i, j :: 0 <= i < CUBE_NUM && 0 <= j < CUBE_NUM ==>
        res.0.current[i * CUBE_NUM + j] == Cube(i, j, Cell(heights, i, j))
    ensures res.1.Err? ==> res.0.shown.None? && |res.0.current| == |heights| * CUBE_NUM
  {
    var room := CleanCubes(r);
    var cubes: seq<Cube> := room.current;
    var i := 0;
    while i < CUBE_NUM
      invariant 0 <= i <= CUBE_NUM && i <= |heights|
      invariant |cubes| == i * CUBE_NUM
      invariant forall a, b :: 0 <= a < i && 0 <= b < CUBE_NUM ==> cubes[a * CUBE_NUM + b] == Cube(a, b, Cell(heights, a, b))
    {
      if i >= |heights| {
        return (Room(None, cubes), Err("TypeError: Cannot read properties of undefined"));
      }
      var j := 0;
      while j < CUBE_NUM
        invariant 0 <= j <= CUBE_NUM
        invariant |cubes| == i * CUBE_NUM + j
        invariant forall a, b :: 0 <= a < i && 0 <= b < CUBE_NUM ==> cubes[a * CUBE_NUM + b] == Cube(a, b, Cell(heights, a, b))
        invariant forall b :: 0 <= b < j ==> cubes[i * CUBE_NUM + b] == Cube(i, b, Cell(heights, i, b))
      {
        cubes := cubes + [Cube(i, j, Cell(heights, i, j))];
        j := j + 1;
      }
      i := i + 1;
    }
    return (Room(Some(cubes), cubes), Ok(()));
  }

  /** `generateSampleDistribution()`: `heights[i][j] = (i + j) / 2` over the 40 × 40 grid. */
  function SampleDistribution(): (h: seq<seq<real>>)
    ensures |h| == CUBE_NUM && forall i :: 0 <= i < CUBE_NUM ==> |h[i]| == CUBE_NUM
  {
    seq(CUBE_NUM, i requires 0 <= i < CUBE_NUM => seq(CUBE_NUM, j requires 0 <= j < CUBE_NUM => (i + j) as real / 2.0))
  }

  /**
   * `generateSampleCubes()`: the grid of the sample distribution, shown in
   * the room; cube `k` is cell `(k / 40, k % 40)`, at level `(i + j) / 2`.
   */
  method GenerateSampleCubes(r: Room) returns (res: Room)
    ensures res.shown == Some(res.current) && |res.current| == CUBE_NUM * CUBE_NUM
    ensures forall k :: 0 <= k < |res.current| ==>
      var (i, j) := (k / CUBE_NUM, k % CUBE_NUM);
      res.current[k] == Cube(i, j, Some((i + j) as real / 2.0))
  {
    var h := SampleDistribution();
    var g := GenerateCubes(r, h);
    res := g.0;
    assert g.1.Ok?;
    forall k | 0 <= k < |res.current|
      ensures res.current[k] == Cube(k / CUBE_NUM, k % CUBE_NUM, Some((k / CUBE_NUM + k % CUBE_NUM) as real / 2.0))
    {
      var i, j := k / CUBE_NUM, k % CUBE_NUM;
      assert k == i * CUBE_NUM + j;
      assert |h[i]| == CUBE_NUM && h[i][j] == (i + j) as real / 2.0;
      assert res.current[i * CUBE_NUM + j] == Cube(i, j, Cell(h, i, j));
    }
  }

  // ---------------------------------------------------------------- properties

  /** The sample is symmetric and its levels lie between 0 and 39. */
  lemma SampleSymmetricAndBounded(i: nat, j: nat)
    requires i < CUBE_NUM && j < CUBE_NUM
    ensures var h := SampleDistribution();
            h[i][j] == h[j][i] && 0.0 <= h[i][j] <= (CUBE_NUM - 1) as real
  {
  }

  /** Forty cubes span the border's inner length exactly. */
  lemma GridFillsBorder()
    ensures CUBE_WIDTH * CUBE_NUM as real == BORDER_INNER_LENGTH
  {
  }

  /** A cube's base rests on the floor of the grid, whatever its level. */
  lemma CubeRestsOnBase(c: Cube)
    requires c.level.Some?
    ensures CubeCenter(c).y - CubeHeight(c) / 2.0 == CUBE_BASE_POS.y
  {
  }

  /** Every cube of the grid lies inside the border, which is centred in the room. */
  lemma CubeInsideBorder(c: Cube)
    requires c.level.Some? && c.i < CUBE_NUM && c.j < CUBE_NUM
    ensures (CR.CLASSROOM_WIDTH - BORDER_INNER_LENGTH) / 2.0 <= CubeCenter(c).x - CUBE_WIDTH / 2.0
    ensures CubeCenter(c).x + CUBE_WIDTH / 2.0 <= (CR.CLASSROOM_WIDTH + BORDER_INNER_LENGTH) / 2.0
    ensures (CR.CLASSROOM_DEPTH - BORDER_INNER_LENGTH) / 2.0 <= CubeCenter(c).z - CUBE_WIDTH / 2.0
    ensures CubeCenter(c).z + CUBE_WIDTH / 2.0 <= (CR.CLASSROOM_DEPTH + BORDER_INNER_LENGTH) / 2.0
  {
    assert CUBE_WIDTH * c.i as real <= CUBE_WIDTH * (CUBE_NUM - 1) as real;
    assert CUBE_WIDTH * c.j as real <= CUBE_WIDTH * (CUBE_NUM - 1) as real;
  }

  /** Generating twice leaves exactly the second grid: the first one's cubes are gone. */
  method RegenerateReplaces(r: Room, h1: seq<seq<real>>, h2: seq<seq<real>>) returns (res: Room)
    requires |h1| >= CUBE_NUM && |h2| >= CUBE_NUM
    ensures res.shown.Some? && |res.shown.value| == CUBE_NUM * CUBE_NUM
    ensures forall i, j :: 0 <= i < CUBE_NUM && 0 <= j < CUBE_NUM ==>
      res.shown.value[i * CUBE_NUM + j].level == Cell(h2, i, j)
  {
    var first := GenerateCubes(r, h1);
    var second := GenerateCubes(first.0, h2);
    return second.0;
  }
}

=== FILE: events.dfy ===
/**
 * DOM-style listener registries and the `delegate` helper: registering
 * returns a destroyer that removes exactly the registration it made.
 */
module Events {

  /** Something listeners can be attached to. */
  datatype Target = Window | Element(id: nat) | PointerControls(id: nat)

  type ListenerId = nat

  datatype Registration = Registration(target: Target, event: string, listener: ListenerId)

  /**
   * `addEventListener` ignores a second identical (target, type, listener)
   * registration, so the live registrations form a set.
   */
  type Registry = set<Registration>

  /** The `{ destory }` handle returned by `delegate`. */
  datatype Destroyer = Destroyer(registration: Registration)

  /** `delegate(el, eventName, listener)`: register, and hand back the matching remover. */
  function Delegate(reg: Registry, target: Target, event: string, listener: ListenerId): (r: (Registry, Destroyer))
    ensures r.0 == reg + {Registration(target, event, listener)}
    ensures r.1.registration.target == target && r.1.registration.event == event
    ensures r.1.registration.listener == listener
  {
    var registration := Registration(target, event, listener);
    (reg + {registration}, Destroyer(registration))
  }

  /** Running a destroyer: `removeEventListener` with the very same triple. */
  function Destroy(reg: Registry, d: Destroyer): (r: Registry)
    ensures d.registration !in r
    ensures forall g :: g in reg && g != d.registration ==> g in r
    ensures r <= reg
  {
    reg - {d.registration}
  }

  /** Running every destroyer of a list, first to last. */
  function DestroyAll(reg: Registry, ds: seq<Destroyer>): (r: Registry)
    ensures forall i :: 0 <= i < |ds| ==> ds[i].registration !in r
    ensures forall g :: g in reg && (forall i :: 0 <= i < |ds| ==> ds[i].registration != g) ==> g in r
    ensures r <= reg
  {
    if |ds| == 0 then reg else DestroyAll(Destroy(reg, ds[0]), ds[1..])
  }

  /** The registrations a list of destroyers removes. */
  function Regs(ds: seq<Destroyer>): set<Registration> {
    set i | 0 <= i < |ds| :: ds[i].registration
  }

  /** Splitting off the first destroyer. */
  lemma RegsCons(ds: seq<Destroyer>)
    requires |ds| > 0
    ensures Regs(ds) == {ds[0].registration} + Regs(ds[1..])
  {
    forall g | g in Regs(ds) ensures g in {ds[0].registration} + Regs(ds[1..]) {
      var i :| 0 <= i < |ds| && ds[i].registration == g;
      if i > 0 {
        assert ds[1..][i - 1] == ds[i];
      }
    }
    forall g | g in Regs(ds[1..]) ensures g in Regs(ds) {
      var i :| 0 <= i < |ds[1..]| && ds[1..][i].registration == g;
      assert ds[i + 1] == ds[1..][i];
    }
  }

  /** Running a list of destroyers removes exactly their registrations. */
  lemma {:induction false} DestroyAllRemoves(reg: Registry, ds: seq<Destroyer>)
    ensures DestroyAll(reg, ds) == reg - Regs(ds)
    decreases |ds|
  {
    if |ds| > 0 {
      RegsCons(ds);
      DestroyAllRemoves(Destroy(reg, ds[0]), ds[1..]);
    }
  }

  /** A delegate destroyer undoes its own registration and touches nothing else. */
  lemma DelegateDestroyRoundTrip(reg: Registry, target: Target, event: string, listener: ListenerId)
    requires Registration(target, event, listener) !in reg
    ensures var (reg', d) := Delegate(reg, target, event, listener); Destroy(reg', d) == reg
  {
  }
}

=== FILE: guide.dfy ===
/**
 * The on-screen key guide (src/app/3d/Guide.ts): a fixed table of key hints
 * per scene, shown with a trailing `esc` hint, and a guide element that a
 * registered disposer unmounts.
 */
module Guide {
  import opened Wrappers
  import D = Disposable

  datatype Op = Op(key: string, desc: string)

  /** The hints every walking scene starts with. */
  const Common: seq<Op> := [
    Op("wasd", "移动"), Op("点击", "锁定鼠标"), Op("q", "切换视角"),
    Op("c", "打开/关闭聊天界面"), Op("点击玩家", "选择聊天对象")]

  const SceneOps: map<string, seq<Op>> := map[
    "profile" := [Op("a/←", "上一个"), Op("d/→", "下一个"), Op("enter", "保存")],
    "town" := Common + [Op("p", "选择模型"), Op("l", "去教室")],
    "study" := Common + [Op("p", "选择模型"), Op("t", "去城镇"), Op("i", "概率分布")],
    "distribution" := Common + [Op("p", "选择模型"), Op("l", "去教室"), Op("g", "打开/关闭生成界面")]]

  /** The `esc` hint: cancel on the profile picker, unlock or leave elsewhere. */
  function EscOp(scene: string): (op: Op)
    ensures op.key == "esc"
    ensures scene == "profile" <==> op.desc == "取消"
    ensures scene != "profile" <==> op.desc == "取消锁定/退出游戏"
  {
    if scene == "profile" then Op("esc", "取消") else Op("esc", "取消锁定/退出游戏")
  }

  /** The identity of the disposer the constructor registers. */
  const UNMOUNT: D.Item := D.Plain(0)

  /** The guide: the hints it shows, whether its element is in the container, and its disposable store. */
  datatype Guide = Guide(shown: seq<Op>, mounted: bool, store: D.Store)

  /** The constructor registers a disposer that unmounts. */
  const New := Guide([], false, D.Add(D.EmptyStore, UNMOUNT).0)

  /**
   * `mount(scene)`: the element is emptied and refilled from a copy of the
   * scene's table plus the `esc` hint; an unknown scene fails reading the
   * table.
   */
  function Mount(g: Guide, scene: string): (r: Result<Guide>)
    ensures scene !in SceneOps ==> r.Err?
    ensures scene in SceneOps ==>
      r.Ok? && r.value.mounted && r.value.store == g.store &&
      |r.value.shown| == |SceneOps[scene]| + 1 &&
      r.value.shown[..|SceneOps[scene]|] == SceneOps[scene] &&
      r.value.shown[|SceneOps[scene]|] == EscOp(scene)
  {
    if scene !in SceneOps then Err("Cannot read properties of undefined (reading 'slice')")
    else Ok(g.(shown := SceneOps[scene] + [EscOp(scene)], mounted := true))
  }

  /** `unmount()`: remove the element if it is there; a failed removal is swallowed. */
  function Unmount(g: Guide): (r: Guide)
    ensures !r.mounted && r.shown == g.shown && r.store == g.store
  {
    g.(mounted := false)
  }

  /** `dispose()`: the store's disposal runs the registered disposer, which unmounts. */
  function Dispose(g: Guide, w: D.World): (r: (Guide, D.World))
    ensures r.0.store.isDisposed
    ensures UNMOUNT in g.store.toDispose && !g.store.isDisposed ==> !r.0.mounted
    ensures g.store.isDisposed ==> r == (g, w)
  {
    var (s, w1) := D.Dispose(g.store, w);
    var ran := UNMOUNT in w1.log[|w.log|..];
    ((if ran then Unmount(g) else g).(store := s), w1)
  }

  // ---------------------------------------------------------------- properties

  /** Mounting a scene twice shows the same list: the table itself never grows. */
  lemma MountTwiceSameList(g: Guide, scene: string)
    requires scene in SceneOps
    ensures Mount(Mount(g, scene).value, scene).value.shown == Mount(g, scene).value.shown
  {
  }

  /** The walking scenes list the five common hints first, in order. */
  lemma WalkingScenesStartWithCommon(scene: string)
    requires scene in {"town", "study", "distribution"}
    ensures SceneOps[scene][..5] == Common
  {
  }

  /** A guide that was mounted is unmounted by its disposal, and a second disposal changes nothing. */
  lemma {:induction false} DisposeUnmounts(scene: string, w: D.World)
    requires scene in SceneOps
    ensures var g := Mount(New, scene).value;
            var (g1, w1) := Dispose(g, w);
            !g1.mounted && Dispose(g1, w1) == (g1, w1)
  {
    var g := Mount(New, scene).value;
    assert g.store.toDispose == [UNMOUNT];
  }
}

=== FILE: legacy_asset_manager.dfy ===
/**
 * The older asset loader front (src/app/3d/utils/AssetManager.ts): an
 * if-chain picks the loader class (images go to the cube-texture loader),
 * URL lists need an explicit loader, a single URL is loaded as a one-element
 * list, and the asset map is consulted but never filled.
 */
module LegacyAssetManager {
  import opened Wrappers
  import opened Basics
  import AM = AssetManager

  /** There is no write to `assetMap` anywhere, so the map only ever holds what it started with. */
  datatype Manager = Manager(assetMap: map<string, AM.Asset>, assetsPath: string, instances: seq<AM.LoaderClass>)

  const MultiRejection := "todo 多资源加载暂时需要指定加载器"

  /** The suffixes the chain sends to the cube-texture loader. */
  predicate IsImage(url: string) {
    EndsWith(url, "jpg") || EndsWith(url, "png") || EndsWith(url, "jpeg")
  }

  /** The loader chain of `loadAsset`: images, then obj, then fbx, and the file loader for everything else. */
  function Chain(url: string): (cls: AM.LoaderClass)
    ensures cls == AM.CubeTextureLoader <==> IsImage(url)
    ensures cls == AM.OBJLoader <==> !IsImage(url) && EndsWith(url, "obj")
    ensures cls == AM.FBXLoader <==> !IsImage(url) && !EndsWith(url, "obj") && EndsWith(url, "fbx")
    ensures cls == AM.FileLoader <==> !IsImage(url) && !EndsWith(url, "obj") && !EndsWith(url, "fbx")
  {
    if IsImage(url) then AM.CubeTextureLoader
    else if EndsWith(url, "obj") then AM.OBJLoader
    else if EndsWith(url, "fbx") then AM.FBXLoader
    else AM.FileLoader
  }

  /**
   * `get(url, loader)`: a list loads with the given loader or rejects; a
   * single URL found in the map resolves, otherwise it loads as `[url]`
   * with the given loader or the chain's class.  Nothing is ever cached.
   */
  function Get(m: Manager, url: AM.Url, loader: Option<nat>): (r: (Manager, AM.Outcome))
    ensures r.0.assetMap == m.assetMap && r.0.assetsPath == m.assetsPath
    ensures AM.NoDup(m.instances) ==> AM.NoDup(r.0.instances)
    ensures r.1.Load? ==> r.1.cacheKey.None? && r.1.path == m.assetsPath
    ensures url.Many? && loader.Some? ==> r == (m, AM.Load(AM.Given(loader.value), url.urls, m.assetsPath, None))
    ensures url.Many? && loader.None? ==> r == (m, AM.Rejected(MultiRejection))
    ensures url.Single? && url.url in m.assetMap ==> r == (m, AM.Resolved(m.assetMap[url.url]))
    ensures url.Single? && url.url !in m.assetMap ==>
      r.1.Load? && r.1.urls == [url.url] &&
      r.1.loader == (if loader.Some? then AM.Given(loader.value) else AM.Cached(Chain(url.url))) &&
      r.0.instances == (if loader.Some? then m.instances else AM.CachedLoader(m.instances, Chain(url.url)))
  {
    match url
    case Many(urls) =>
      if loader.Some? then (m, AM.Load(AM.Given(loader.value), urls, m.assetsPath, None))
      else (m, AM.Rejected(MultiRejection))
    case Single(u) =>
      if u in m.assetMap then (m, AM.Resolved(m.assetMap[u]))
      else if loader.Some? then (m, AM.Load(AM.Given(loader.value), [u], m.assetsPath, None))
      else
        var cls := Chain(u);
        (m.(instances := AM.CachedLoader(m.instances, cls)), AM.Load(AM.Cached(cls), [u], m.assetsPath, None))
  }

  /** The result of a finished load: nothing is stored. */
  function Loaded(m: Manager, o: AM.Outcome, asset: AM.Asset): (r: Manager)
    requires o.Load?
    ensures r == m
  {
    m
  }

  // ---------------------------------------------------------------- properties

  /** Starting from an empty map, every single-URL `get` loads again, however many loads finished before. */
  lemma {:induction false} EverySingleGetLoads(m: Manager, u: string, asset: AM.Asset)
    requires m.assetMap == map[]
    ensures var (m1, o) := Get(m, AM.Single(u), None);
            o.Load? && Get(Loaded(m1, o, asset), AM.Single(u), None).1.Load?
  {
    var (m1, o) := Get(m, AM.Single(u), None);
    assert o.Load?;
  }

  /** Images go to the cube-texture loader here, where the newer manager picks the texture loader. */
  lemma ImagesDiffer(m: Manager, n: AM.Manager)
    requires "a.png" !in m.assetMap && "a.png" !in n.assetMap
    ensures Get(m, AM.Single("a.png"), None).1.loader == AM.Cached(AM.CubeTextureLoader)
    ensures AM.Get(n, AM.Single("a.png"), None).1.loader == AM.Cached(AM.TextureLoader)
  {
    assert EndsWith("a.png", "png");
    assert !EndsWith("a.png", AM.Rules[0].0) && EndsWith("a.png", AM.Rules[1].0);
    assert AM.FirstMatch("a.png", 1);
  }
}

=== FILE: legacy_control_manager.dfy ===
/**
 * The older input controller (src/app/3d/utils/ControlManager.ts): w/a/s/d
 * and space only, `on(camera)` binds five handlers every time it is called,
 * and `off` runs the destroyers without ever forgetting them.  The option
 * defaults are one module-level object that every constructor merges into.
 */
module LegacyControlManager {
  import opened Wrappers
  import opened Basics
  import opened Events
  import CM = ControlManager

  type Callback = nat

  /** The module-level `defaultControlManagerOptions`, shared by every instance. */
  datatype Defaults = Defaults(container: Target, onMove: Callback)

  /** The no-op `onMove` the defaults start with. */
  const NoOp: Callback := 0
  const InitialDefaults := Defaults(CM.Body, NoOp)

  datatype OptionsPatch = OptionsPatch(container: Option<Target>, onMove: Option<Callback>)

  datatype Manager = Manager(
    container: Target,
    camera: Option<ObjId>,
    onMove: Callback,
    keys: CM.Keys,
    joyStickMounted: bool,
    pointer: Option<nat>,          // the current pointer-lock controls, by identity
    pointerDestroy: Option<Destroyer>, // the `destory` property `delegate` left on that object
    b: CM.Bindings,
    emitted: seq<MoveState>)

  /**
   * The constructor: `Object.assign(defaultControlManagerOptions, options)`
   * writes the options into the shared defaults, and the instance reads them
   * back.  Returns the updated shared defaults and the instance.
   */
  function New(shared: Defaults, p: OptionsPatch, reg: Registry, nextId: nat): (r: (Defaults, Manager))
    ensures r.0 == Defaults(p.container.GetOr(shared.container), p.onMove.GetOr(shared.onMove))
    ensures r.1.container == r.0.container && r.1.onMove == r.0.onMove
    ensures r.1.camera.None? && r.1.pointer.None? && r.1.b == CM.Bindings(reg, [], nextId)
  {
    var d := Defaults(p.container.GetOr(shared.container), p.onMove.GetOr(shared.onMove));
    (d, Manager(d.container, None, d.onMove, CM.Released, false, None, None, CM.Bindings(reg, [], nextId), []))
  }

  /** Only w, s, a, d and space are mapped; arrows are not. */
  function FieldOf(key: string): Option<CM.Dir> {
    if key == "w" then Some(CM.Forward)
    else if key == "s" then Some(CM.Back)
    else if key == "a" then Some(CM.Left)
    else if key == "d" then Some(CM.Right)
    else if key == " " then Some(CM.Up)
    else None
  }

  function Press(k: CM.Keys, key: string, v: int): CM.Keys {
    match FieldOf(key)
    case None => k
    case Some(d) => CM.Set(k, d, v)
  }

  /** `onKeyDown`, then `_onMove`: the callback always exists, so every key reports. */
  function KeyDown(m: Manager, key: string): (r: Manager)
    ensures FieldOf(key).Some? ==> (CM.Get(r.keys, FieldOf(key).value) == 1 &&
              forall e :: e != FieldOf(key).value ==> CM.Get(r.keys, e) == CM.Get(m.keys, e))
    ensures FieldOf(key).None? ==> r.keys == m.keys
    ensures r.emitted == m.emitted + [CM.Folded(r.keys)]
    ensures r.b == m.b
  {
    var k := Press(m.keys, key, 1);
    m.(keys := k, emitted := m.emitted + [CM.Folded(k)])
  }

  /** `onKeyUp`, then `_onMove`. */
  function KeyUp(m: Manager, key: string): (r: Manager)
    ensures FieldOf(key).Some? ==> (CM.Get(r.keys, FieldOf(key).value) == 0 &&
              forall e :: e != FieldOf(key).value ==> CM.Get(r.keys, e) == CM.Get(m.keys, e))
    ensures FieldOf(key).None? ==> r.keys == m.keys
    ensures r.emitted == m.emitted + [CM.Folded(r.keys)]
    ensures r.b == m.b
  {
    var k := Press(m.keys, key, 0);
    m.(keys := k, emitted := m.emitted + [CM.Folded(k)])
  }

  /**
   * The registrations of one `bindEvents` after controls `p` were created:
   * handlers p+1 to p+5, keys on the window, mouse-down on the container and
   * the lock events on the controls.
   */
  function Handlers(container: Target, p: nat): seq<Registration> {
    [Registration(Window, "keydown", p + 1), Registration(Window, "keyup", p + 2),
     Registration(container, "mousedown", p + 3),
     Registration(PointerControls(p), "lock", p + 4), Registration(PointerControls(p), "unlock", p + 5)]
  }

  function AsSet(gs: seq<Registration>): set<Registration> {
    set g | g in gs
  }

  /** `bindEvents`: five `delegate` calls, each pushing its destroyer. */
  function BindEvents(b: CM.Bindings, container: Target, p: nat): (r: CM.Bindings)
    ensures r.reg == b.reg + AsSet(Handlers(container, p))
    ensures |r.destroyers| == |b.destroyers| + 5 && r.destroyers[..|b.destroyers|] == b.destroyers
    ensures forall i :: 0 <= i < 5 ==> r.destroyers[|b.destroyers| + i] == Destroyer(Handlers(container, p)[i])
    ensures r.nextId == p + 6
  {
    var h := Handlers(container, p);
    var r := CM.Bindings(b.reg + AsSet(h),
                         b.destroyers + [Destroyer(h[0]), Destroyer(h[1]), Destroyer(h[2]), Destroyer(h[3]),
                                         Destroyer(h[4])],
                         p + 6);
    assert forall i :: 0 <= i < 5 ==> r.destroyers[|b.destroyers| + i] == Destroyer(h[i]) by {
      forall i | 0 <= i < 5 ensures r.destroyers[|b.destroyers| + i] == Destroyer(h[i]) {
        if i == 0 {} else if i == 1 {} else if i == 2 {} else if i == 3 {} else {}
      }
    }
    r
  }

  /**
   * `on(camera)`: ignored for a null camera.  Otherwise mount the joystick,
   * call the old pointer controls' `destory` (which removes only the last
   * listener delegated on them), create new controls and bind five more
   * handlers, keeping every earlier destroyer.
   */
  function On(m: Manager, camera: Option<ObjId>): (r: Manager)
    ensures camera.None? ==> r == m
    ensures camera.Some? ==>
      var h := Handlers(m.container, m.b.nextId);
      r.camera == camera && r.joyStickMounted && r.pointer == Some(m.b.nextId) &&
      r.b.nextId == m.b.nextId + 6 &&
      |r.b.destroyers| == |m.b.destroyers| + 5 && r.b.destroyers[..|m.b.destroyers|] == m.b.destroyers &&
      r.pointerDestroy == Some(Destroyer(h[4])) &&
      r.b.reg == (if m.pointerDestroy.Some? then m.b.reg - {m.pointerDestroy.value.registration} else m.b.reg)
                 + AsSet(h)
  {
    if camera.None? then m
    else
      var reg := if m.pointerDestroy.Some? then Destroy(m.b.reg, m.pointerDestroy.value) else m.b.reg;
      var p := m.b.nextId;
      var b := BindEvents(m.b.(reg := reg), m.container, p);
      m.(camera := camera, joyStickMounted := true, pointer := Some(p),
         pointerDestroy := Some(Destroyer(Handlers(m.container, p)[4])), b := b)
  }

  /** `off()`: unmount the joystick and run every destroyer; the list is kept. */
  function Off(m: Manager): (r: Manager)
    ensures r.b.reg == DestroyAll(m.b.reg, m.b.destroyers)
    ensures r.b.destroyers == m.b.destroyers && !r.joyStickMounted
    ensures r.camera == m.camera && r.pointer == m.pointer
  {
    m.(joyStickMounted := false, b := m.b.(reg := DestroyAll(m.b.reg, m.b.destroyers)))
  }

  // ---------------------------------------------------------------- properties

  /** A second constructor that passes no `onMove` inherits the first one's callback. */
  lemma SharedDefaultsLeak(f: Callback, c: Target, reg: Registry, n: nat)
    ensures var (d1, m1) := New(InitialDefaults, OptionsPatch(None, Some(f)), reg, n);
            var (d2, m2) := New(d1, OptionsPatch(Some(c), None), reg, n);
            m2.onMove == f && d2 == Defaults(c, f)
  {
  }

  /** Every `on` with a camera grows the destroyer list by five, and `off` never shrinks it. */
  lemma OnOffAccumulates(m: Manager, camera: ObjId)
    ensures |Off(On(Off(On(m, Some(camera))), Some(camera))).b.destroyers| == |m.b.destroyers| + 10
  {
  }

  /** Running `off` twice removes nothing more than running it once. */
  lemma {:induction false} OffIdempotent(m: Manager)
    ensures Off(Off(m)).b.reg == Off(m).b.reg
  {
    DestroyAllRemoves(m.b.reg, m.b.destroyers);
    DestroyAllRemoves(Off(m).b.reg, m.b.destroyers);
  }

  /** After `on` then `off`, none of the handlers that `on` bound is still registered. */
  lemma {:induction false} OffRemovesBound(m: Manager, camera: ObjId)
    ensures var m1 := On(m, Some(camera));
            forall i :: 0 <= i < |m1.b.destroyers| ==> m1.b.destroyers[i].registration !in Off(m1).b.reg
  {
  }

  /** What one `on` with a camera leaves registered, in terms of the registry before it. */
  lemma OnRegistry(m: Manager, c: ObjId)
    ensures On(m, Some(c)).b.reg ==
            (if m.pointerDestroy.Some? then m.b.reg - {m.pointerDestroy.value.registration} else m.b.reg)
            + AsSet(Handlers(m.container, m.b.nextId))
    ensures On(m, Some(c)).pointerDestroy == Some(Destroyer(Handlers(m.container, m.b.nextId)[4]))
    ensures On(m, Some(c)).b.nextId == m.b.nextId + 6 && On(m, Some(c)).container == m.container
  {
  }

  /**
   * A second `on` leaves the first `on`'s lock handler registered on the old
   * controls: their `destory` only reaches the `unlock` handler.
   */
  lemma {:induction false} StaleLockHandlerSurvives(m: Manager, c1: ObjId, c2: ObjId)
    ensures var m1 := On(m, Some(c1));
            var m2 := On(m1, Some(c2));
            var n := m.b.nextId;
            Registration(PointerControls(n), "lock", n + 4) in m2.b.reg &&
            Registration(PointerControls(n), "unlock", n + 5) !in m2.b.reg
  {
    var n := m.b.nextId;
    var m1 := On(m, Some(c1));
    LockHandlerBound(m.container, n);
    StaleStep(m1, c2, n);
  }

  /** The lock and unlock handlers of one `on` are its fourth and fifth registrations. */
  lemma LockHandlerBound(c: Target, p: nat)
    ensures Registration(PointerControls(p), "lock", p + 4) in AsSet(Handlers(c, p))
    ensures Handlers(c, p)[4] == Registration(PointerControls(p), "unlock", p + 5)
  {
    assert Handlers(c, p)[3] == Registration(PointerControls(p), "lock", p + 4);
  }

  /**
   * One more `on` after the one that made pointer controls `n`: their
   * unlock handler is destroyed, their lock handler stays.
   */
  lemma StaleStep(m1: Manager, c: ObjId, n: nat)
    requires Registration(PointerControls(n), "lock", n + 4) in m1.b.reg
    requires m1.pointerDestroy == Some(Destroyer(Registration(PointerControls(n), "unlock", n + 5)))
    requires m1.b.nextId == n + 6
    ensures Registration(PointerControls(n), "lock", n + 4) in On(m1, Some(c)).b.reg
    ensures Registration(PointerControls(n), "unlock", n + 5) !in On(m1, Some(c)).b.reg
  {
    HandlersAbove(m1.container, n + 6, Registration(PointerControls(n), "unlock", n + 5));
    HandlersAbove(m1.container, n + 6, Registration(PointerControls(n), "lock", n + 4));
  }

  /** An `on` registers only listeners numbered after its pointer controls. */
  lemma HandlersAbove(c: Target, p: nat, g: Registration)
    requires g.listener <= p
    ensures g !in AsSet(Handlers(c, p))
  {
  }
}

=== FILE: legacy_object_manager.dfy ===
/**
 * The older named-object registry (src/app/3d/utils/ObjectManager.ts): a
 * stored name is always returned as is, a new renderable asks the older
 * asset manager for its whole `url` in one request, and the result is
 * normalised to a list before it is delivered.
 */
module LegacyObjectManager {
  import opened Wrappers
  import AM = AssetManager
  import LAM = LegacyAssetManager
  import OM = ObjectManager

  /** What a settled asset request yields: one value, or an array of them. */
  datatype Resource = Value(v: AM.Asset) | Values(vs: seq<AM.Asset>)

  /** A request that will settle later: the renderable it feeds and the caller's `onLoad`. */
  datatype Pending = Pending(obj: nat, request: AM.Outcome, onLoad: Option<OM.Callback>)

  datatype Manager = Manager(
    objects: map<string, OM.Obj>,
    nextId: nat,
    assets: LAM.Manager,
    pending: seq<Pending>,
    delivered: seq<OM.Delivery>)

  /** The asset manager's argument: the `url` parameter as given. */
  function UrlOf(u: OM.UrlParam): AM.Url
    requires OM.Truthy(u)
  {
    if u.One? then AM.Single(u.url) else AM.Many(u.urls)
  }

  /**
   * `get(name, params)`: a stored name is returned whatever the parameters;
   * otherwise a new renderable is stored and, for a truthy `url`, the asset
   * request is made.  A rejected request never calls back, so it leaves
   * nothing pending.
   */
  function Get(m: Manager, name: string, params: Option<OM.ObjParams>): (r: Result<(Manager, OM.Obj)>)
    ensures name in m.objects ==> r == Ok((m, m.objects[name]))
    ensures name !in m.objects && params.None? ==> r.Err?
    ensures name !in m.objects && params.Some? ==>
      r.Ok? &&
      var (m1, o) := r.value;
      o == OM.Obj(m.nextId, params.value.(name := Some(name))) && m1.objects == m.objects[name := o] &&
      m1.nextId == m.nextId + 1 && m1.delivered == m.delivered &&
      (!OM.Truthy(params.value.url) ==> m1.pending == m.pending) &&
      (OM.Truthy(params.value.url) ==>
         var req := LAM.Get(m.assets, UrlOf(params.value.url), None).1;
         (req.Rejected? ==> m1.pending == m.pending) &&
         (!req.Rejected? ==> m1.pending == m.pending + [Pending(m.nextId, req, params.value.onLoad)]))
  {
    if name in m.objects then Ok((m, m.objects[name]))
    else if params.None? then Err("Cannot convert undefined or null to object")
    else
      var p := params.value.(name := Some(name));
      var o := OM.Obj(m.nextId, p);
      var m1 := m.(objects := m.objects[name := o], nextId := m.nextId + 1);
      if !OM.Truthy(p.url) then Ok((m1, o))
      else
        var (assets, req) := LAM.Get(m.assets, UrlOf(p.url), None);
        Ok((m1.(assets := assets, pending := if req.Rejected? then m.pending else m.pending + [Pending(m.nextId, req, p.onLoad)]), o))
  }

  /** The resource list handed on: an array is spread, a single value becomes a one-element list. */
  function Normalize(res: Resource): (r: seq<AM.Asset>)
    ensures res.Values? ==> r == res.vs
    ensures res.Value? ==> |r| == 1 && r[0] == res.v
  {
    match res
    case Value(v) => [v]
    case Values(vs) => vs
  }

  /** Request `k` settled with `res`: the renderable, then the caller's `onLoad`, get the normalised list. */
  function Complete(m: Manager, k: nat, res: Resource): (r: Manager)
    requires k < |m.pending|
    ensures r.pending == m.pending[..k] + m.pending[k + 1..] && r.objects == m.objects
    ensures var b := m.pending[k];
            r.delivered == m.delivered + [OM.Delivery(OM.ToObject(b.obj), Normalize(res))] +
                           (if b.onLoad.Some? then [OM.Delivery(OM.ToCallback(b.onLoad.value), Normalize(res))] else [])
  {
    var b := m.pending[k];
    var rs := Normalize(res);
    var calls := [OM.Delivery(OM.ToObject(b.obj), rs)] +
                 (if b.onLoad.Some? then [OM.Delivery(OM.ToCallback(b.onLoad.value), rs)] else []);
    m.(pending := m.pending[..k] + m.pending[k + 1..], delivered := m.delivered + calls)
  }

  /**
   * `getAsync` as written: `const { get } = this` detaches `get`, so inside
   * the promise executor `this` is undefined, reading `objectMap` throws,
   * and the promise is rejected before anything is stored or requested.
   */
  function GetAsyncAsWritten(m: Manager, name: string, params: Option<OM.ObjParams>, promise: nat): (r: (Manager, Result<OM.Obj>))
    ensures r.0 == m && r.1.Err?
  {
    (m, Err("Cannot destructure property 'objectMap' of 'this' as it is undefined"))
  }

  /** `getAsync` as evidently intended: `get` called on this manager with the promise's resolver as `onLoad`. */
  function GetAsync(m: Manager, name: string, params: Option<OM.ObjParams>, promise: nat): (r: (Manager, Result<OM.Obj>))
    ensures r.1.Ok?
    ensures name in m.objects ==> r == (m, Ok(m.objects[name]))
    ensures name !in m.objects ==> r.1.value.params.onLoad == Some(OM.Resolve(promise)) && name in r.0.objects
  {
    var p := params.GetOr(OM.ObjParams(None, OM.NoUrl, None)).(onLoad := Some(OM.Resolve(promise)));
    var (m1, o) := Get(m, name, Some(p)).value;
    (m1, Ok(o))
  }

  predicate Resolved(m: Manager, promise: nat) {
    exists i :: 0 <= i < |m.delivered| && m.delivered[i].to == OM.ToCallback(OM.Resolve(promise))
  }

  // ---------------------------------------------------------------- properties

  /** Counterexample: as written, no `getAsync` ever resolves, whatever follows it. */
  lemma GetAsyncNeverResolves(m: Manager, name: string, p: Option<OM.ObjParams>, promise: nat)
    requires !Resolved(m, promise)
    ensures var (m1, o) := GetAsyncAsWritten(m, name, p, promise);
            o.Err? && m1.pending == m.pending && !Resolved(m1, promise)
  {
  }

  /** With the intended `getAsync`, a new name with one URL resolves its promise once the request settles. */
  lemma {:induction false} IntendedGetAsyncResolves(m: Manager, name: string, u: string, promise: nat, res: Resource)
    requires name !in m.objects
    ensures var (m1, _) := GetAsync(m, name, Some(OM.ObjParams(None, OM.One(u), None)), promise);
            |m1.pending| == |m.pending| + 1 && Resolved(Complete(m1, |m.pending|, res), promise)
  {
    var (m1, _) := GetAsync(m, name, Some(OM.ObjParams(None, OM.One(u), None)), promise);
    assert m1.pending[|m.pending|].onLoad == Some(OM.Resolve(promise));
    var m2 := Complete(m1, |m.pending|, res);
    assert m2.delivered[|m2.delivered| - 1].to == OM.ToCallback(OM.Resolve(promise));
  }

  /** A list of URLs is rejected by the older asset manager, so its renderable and `onLoad` are never called. */
  lemma UrlListNeverLoads(m: Manager, name: string, urls: seq<string>, cb: OM.Callback)
    requires name !in m.objects
    ensures Get(m, name, Some(OM.ObjParams(None, OM.Many(urls), Some(cb)))).value.0.pending == m.pending
  {
  }

  /** A stored name comes back unchanged, even when new parameters or a URL are passed. */
  lemma StoredNameWins(m: Manager, name: string, p: Option<OM.ObjParams>)
    requires name in m.objects
    ensures Get(m, name, p) == Ok((m, m.objects[name]))
  {
  }
}

=== FILE: legacy_perspective_manager.dfy ===
/**
 * The older camera registry (src/app/3d/utils/PerspectiveManager.ts), keyed
 * by `PerspectiveType`.  Its option and placement defaults are module-level
 * objects: every new camera stores the one shared placement object as its
 * state, so all cameras read and write the same placement, and `get`
 * positions the active camera rather than the one fetched.
 */
module LegacyPerspectiveManager {
  import opened Wrappers
  import opened Basics
  import PM = PerspectiveManager

  datatype PerspectiveType = Back | Fixed

  /** The module-level `defaultOption`, including an `aspect` key once some caller supplied one. */
  datatype SharedOptions = SharedOptions(fov: real, near: real, far: real, aspect: Option<real>)

  const InitialOptions := SharedOptions(45.0, 0.1, 200000.0, None)

  datatype OptionsPatch = OptionsPatch(fov: Option<real>, near: Option<real>, far: Option<real>, aspect: Option<real>)

  /** The aspect a `PerspectiveCamera` takes when given `undefined`. */
  const THREE_DEFAULT_ASPECT := 1.0

  /** A camera: its aspect, the absolute position last set, the local translations since, and its look-at point. */
  datatype Camera = Camera(aspect: real, position: Vec3, translated: seq<(PM.Axis, real)>, lookAt: Vec3)

  /**
   * `placement` is the module-level `defaultParams` object.  Every camera's
   * entry in `cameraStateMap` is that same object, so one placement serves
   * all cameras.
   */
  datatype Manager = Manager(
    options: SharedOptions,
    active: Option<PerspectiveType>,
    cameras: map<PerspectiveType, Camera>,
    placement: PM.Placement)

  predicate Valid(m: Manager) {
    m.active.Some? ==> m.active.value in m.cameras
  }

  function MergeOptions(shared: SharedOptions, p: OptionsPatch): (r: SharedOptions)
    ensures r.fov == p.fov.GetOr(shared.fov) && r.near == p.near.GetOr(shared.near)
    ensures r.far == p.far.GetOr(shared.far)
    ensures r.aspect == (if p.aspect.Some? then p.aspect else shared.aspect)
  {
    SharedOptions(p.fov.GetOr(shared.fov), p.near.GetOr(shared.near), p.far.GetOr(shared.far),
                  if p.aspect.Some? then p.aspect else shared.aspect)
  }

  /**
   * The constructor as written: the options are merged into the shared
   * object, and when they carry no aspect the container's `ratio` is written
   * onto the caller's options object, which the manager does not read.
   */
  function New(shared: SharedOptions, p: OptionsPatch, ratio: real, placement: PM.Placement): (r: Manager)
    ensures r.options == MergeOptions(shared, p) && r.active.None? && r.cameras == map[]
    ensures r.options.aspect == (if p.aspect.Some? then p.aspect else shared.aspect)
    ensures Valid(r)
  {
    Manager(MergeOptions(shared, p), None, map[], placement)
  }

  /** The constructor as evidently intended: a missing aspect is measured from the container. */
  function NewIntended(shared: SharedOptions, p: OptionsPatch, ratio: real, placement: PM.Placement): (r: Manager)
    ensures r.options.aspect == Some(p.aspect.GetOr(ratio)) && r.active.None? && r.cameras == map[]
    ensures Valid(r)
  {
    var o := MergeOptions(shared, p);
    Manager(o.(aspect := Some(p.aspect.GetOr(ratio))), None, map[], placement)
  }

  /** The camera stands and looks where the placement says, with no translation since. */
  predicate Placed(c: Camera, s: PM.Placement) {
    c.position == Vec3(s.x, s.y, s.z) && c.translated == [] && c.lookAt == Vec3(s.targetX, s.targetY, s.targetZ)
  }

  /** `cameraStateMap.get(t)`: for every camera, the one shared placement object. */
  function StateOf(m: Manager, t: PerspectiveType): PM.Placement
    requires t in m.cameras
  {
    m.placement
  }

  function PlaceAt(c: Camera, s: PM.Placement): Camera {
    c.(position := Vec3(s.x, s.y, s.z), translated := [], lookAt := Vec3(s.targetX, s.targetY, s.targetZ))
  }

  /** `update(params)`: merge into the shared placement and put the active camera there; ignored without one. */
  function Update(m: Manager, p: PM.CameraParams): (r: Manager)
    requires Valid(m)
    ensures Valid(r) && r.active == m.active && r.options == m.options && r.cameras.Keys == m.cameras.Keys
    ensures m.active.None? ==> r == m
    ensures m.active.Some? ==>
      r.placement == PM.Apply(m.placement, p) &&
      Placed(r.cameras[m.active.value], r.placement) &&
      forall t :: t in m.cameras && t != m.active.value ==> r.cameras[t] == m.cameras[t]
  {
    match m.active
    case None => m
    case Some(a) =>
      var s := PM.Apply(m.placement, p);
      m.(placement := s, cameras := m.cameras[a := PlaceAt(m.cameras[a], s)])
  }

  /**
   * `get(type, params)`: a new type gets a camera with the shared options
   * (an absent aspect falls to the camera's default) and merges `params`
   * into the shared placement; then `update` runs on whichever camera is
   * active.
   */
  function Get(m: Manager, t: PerspectiveType, p: Option<PM.CameraParams>): (r: Manager)
    requires m.active.Some? ==> m.active.value in m.cameras || m.active == Some(t)
    ensures Valid(r) && t in r.cameras && r.cameras.Keys == m.cameras.Keys + {t} && r.active == m.active
    ensures t !in m.cameras ==> r.cameras[t].aspect == m.options.aspect.GetOr(THREE_DEFAULT_ASPECT)
    ensures t !in m.cameras || m.active.Some? ==> r.placement == PM.Apply(m.placement, p.GetOr(PM.NoParams))
    ensures t in m.cameras && m.active.None? ==> r == m
    ensures m.active.None? && t !in m.cameras ==> r.cameras[t].position == Zero
  {
    var q := p.GetOr(PM.NoParams);
    if t in m.cameras then Update(m, q)
    else
      var c := Camera(m.options.aspect.GetOr(THREE_DEFAULT_ASPECT), Zero, [], Zero);
      var m1 := m.(cameras := m.cameras[t := c], placement := PM.Apply(m.placement, q));
      PM.ApplyDefaultsOnce(m.placement, q);
      Update(m1, q)
  }

  /** `switch(type, params)`: the type becomes active first, so the fetched camera is the one placed. */
  function Switch(m: Manager, t: PerspectiveType, p: Option<PM.CameraParams>): (r: Manager)
    requires Valid(m)
    ensures Valid(r) && r.active == Some(t)
    ensures r.placement == PM.Apply(m.placement, p.GetOr(PM.NoParams))
    ensures r.cameras[t].position == Vec3(r.placement.x, r.placement.y, r.placement.z)
    ensures r.cameras[t].translated == []
  {
    Get(m.(active := Some(t)), t, p)
  }

  /** `move({x, y, z})`: local translations of the active camera; zero or missing components are skipped. */
  function Move(m: Manager, x: Option<real>, y: Option<real>, z: Option<real>): (r: Manager)
    requires Valid(m)
    ensures Valid(r) && r.placement == m.placement && r.active == m.active
    ensures m.active.None? ==> r == m
    ensures m.active.Some? ==>
      r.cameras == m.cameras[m.active.value := m.cameras[m.active.value].(translated := m.cameras[m.active.value].translated + PM.Steps(x, y, z))]
  {
    match m.active
    case None => m
    case Some(a) => m.(cameras := m.cameras[a := m.cameras[a].(translated := m.cameras[a].translated + PM.Steps(x, y, z))])
  }

  // ---------------------------------------------------------------- properties

  /** Counterexample: a manager built without an aspect gives its cameras aspect 1, whatever the container's ratio. */
  lemma MeasuredAspectLost(ratio: real, t: PerspectiveType)
    requires ratio != 1.0
    ensures var m := New(InitialOptions, OptionsPatch(None, None, None, None), ratio, PM.DefaultPlacement);
            Switch(m, t, None).cameras[t].aspect == 1.0 != ratio
  {
  }

  /** With the intended constructor, the camera's aspect is the container's ratio. */
  lemma IntendedAspectMeasured(ratio: real, t: PerspectiveType)
    ensures var m := NewIntended(InitialOptions, OptionsPatch(None, None, None, None), ratio, PM.DefaultPlacement);
            Switch(m, t, None).cameras[t].aspect == ratio
  {
  }

  /** Placing the active camera also rewrites the stored state of every other camera: they share one object. */
  lemma PlacementShared(m: Manager, p: PM.CameraParams, t: PerspectiveType)
    requires Valid(m) && m.active.Some? && t in m.cameras
    ensures StateOf(Update(m, p), t) == PM.Apply(StateOf(m, t), p)
  {
  }

  /** Fetching a new camera while another is active re-places the active one, and leaves the new one at the origin. */
  lemma GetPlacesActiveCamera(m: Manager, t: PerspectiveType, p: PM.CameraParams)
    requires Valid(m) && m.active.Some? && t !in m.cameras
    ensures var r := Get(m, t, Some(p));
            r.cameras[t].position == Zero &&
            r.cameras[m.active.value].position == Vec3(r.placement.x, r.placement.y, r.placement.z)
  {
  }

  /** A moved camera returns to the shared placement on any `update`, and the move never touched that placement. */
  lemma MoveThenUpdateSnapsBack(m: Manager, x: Option<real>, y: Option<real>, z: Option<real>)
    requires Valid(m) && m.active.Some?
    ensures var r := Update(Move(m, x, y, z), PM.NoParams);
            Placed(r.cameras[m.active.value], m.placement) && r.placement == m.placement
  {
  }

  /** A nonzero move takes a placed active camera off the shared placement. */
  lemma MoveLeavesPlacement(m: Manager, x: real)
    requires Valid(m) && m.active.Some? && x != 0.0 && Placed(m.cameras[m.active.value], m.placement)
    ensures !Placed(Move(m, Some(x), None, None).cameras[m.active.value], m.placement)
  {
  }
}

=== FILE: legacy_scene_manager.dfy ===
/**
 * The older scene registry (src/app/3d/utils/SceneManager.ts).  Its
 * parameter defaults are one module-level object that every `get` merges
 * into, every `get` adds another ambient light, and one sun object is moved
 * into whichever scene was switched to last.
 */
module LegacySceneManager {
  import opened Wrappers
  import opened Basics

  /** The module-level `defaultParams` object, as it stands after the merges so far. */
  datatype SharedParams = SharedParams(background: int, ambient: int, light: int, axes: bool)

  const InitialParams := SharedParams(0xa0a0a0, 0xaaaaaa, 0xaaaaaa, false)

  /** `ISceneParams`: any subset of background, ambient and axes. */
  datatype ParamsPatch = ParamsPatch(background: Option<int>, ambient: Option<int>, axes: Option<bool>)

  const NoPatch := ParamsPatch(None, None, None)

  /** The sun's fixed colour. */
  const SUN_COLOR := 0xaaaaaa

  /** A scene: its background, the colours of the ambient lights added in order, and how many axes helpers. */
  datatype Scene = Scene(background: Option<int>, ambients: seq<int>, axesHelpers: nat)

  const EmptyScene := Scene(None, [], 0)

  datatype Manager = Manager(
    shared: SharedParams,
    scenes: map<string, Scene>,
    active: Option<string>,
    sunIn: Option<string>,           // the scene the single sun object currently belongs to
    parentOf: map<ObjId, string>)    // the scene each added object currently belongs to

  predicate Valid(m: Manager) {
    (m.active.Some? ==> m.active.value in m.scenes) &&
    (m.sunIn.Some? ==> m.sunIn.value in m.scenes) &&
    forall o :: o in m.parentOf ==> m.parentOf[o] in m.scenes
  }

  const Initial := Manager(InitialParams, map[], None, None, map[])

  /** `Object.assign(defaultParams, params)`: the shared object itself is overwritten. */
  function MergeShared(d: SharedParams, p: ParamsPatch): (r: SharedParams)
    ensures r.background == p.background.GetOr(d.background) && r.ambient == p.ambient.GetOr(d.ambient)
    ensures r.axes == p.axes.GetOr(d.axes) && r.light == d.light
  {
    SharedParams(p.background.GetOr(d.background), p.ambient.GetOr(d.ambient), d.light, p.axes.GetOr(d.axes))
  }

  /**
   * `get(name, params)`: create the scene if new, then, whether new or not,
   * apply the merged parameters: a nonzero background is set, a nonzero
   * ambient adds one more light, a true `axes` adds one more helper.
   */
  function Get(m: Manager, name: string, p: ParamsPatch): (r: Manager)
    requires Valid(m)
    ensures Valid(r) && name in r.scenes && r.scenes.Keys == m.scenes.Keys + {name}
    ensures r.shared == MergeShared(m.shared, p)
    ensures var s := if name in m.scenes then m.scenes[name] else EmptyScene;
            var d := r.shared;
            r.scenes[name].background == (if d.background != 0 then Some(d.background) else s.background) &&
            r.scenes[name].ambients == s.ambients + (if d.ambient != 0 then [d.ambient] else []) &&
            r.scenes[name].axesHelpers == s.axesHelpers + (if d.axes then 1 else 0)
    ensures forall n :: n in m.scenes && n != name ==> r.scenes[n] == m.scenes[n]
    ensures r.active == m.active && r.sunIn == m.sunIn && r.parentOf == m.parentOf
  {
    var d := MergeShared(m.shared, p);
    var s := if name in m.scenes then m.scenes[name] else EmptyScene;
    var s1 := Scene(if d.background != 0 then Some(d.background) else s.background,
                    s.ambients + (if d.ambient != 0 then [d.ambient] else []),
                    s.axesHelpers + (if d.axes then 1 else 0));
    m.(shared := d, scenes := m.scenes[name := s1])
  }

  /** `switch(name, params)`: get, make active, and move the sun into it. */
  function Switch(m: Manager, name: string, p: ParamsPatch): (r: Manager)
    requires Valid(m)
    ensures Valid(r) && r.active == Some(name) && r.sunIn == Some(name)
    ensures r.scenes == Get(m, name, p).scenes && r.shared == Get(m, name, p).shared
    ensures r.parentOf == m.parentOf
  {
    Get(m, name, p).(active := Some(name), sunIn := Some(name))
  }

  /** `add(renderable)`: ignored without an active scene or when the object is already in it; otherwise moved into it. */
  function Add(m: Manager, obj: ObjId): (r: Manager)
    requires Valid(m)
    ensures Valid(r) && r.scenes == m.scenes && r.active == m.active && r.sunIn == m.sunIn
    ensures m.active.None? ==> r == m
    ensures m.active.Some? ==> r.parentOf == m.parentOf[obj := m.active.value]
  {
    match m.active
    case None => m
    case Some(a) => if obj in m.parentOf && m.parentOf[obj] == a then m else m.(parentOf := m.parentOf[obj := a])
  }

  /**
   * One `renderer.render(activeScene, camera)` call: the scene drawn, the
   * objects parented to it, and whether the sun is among its children.
   */
  datatype Frame = Frame(name: string, scene: Scene, objects: set<ObjId>, lit: bool, camera: ObjId)

  /**
   * `render(camera)`: the active scene is drawn through the camera with
   * exactly the objects currently parented to it; nothing is drawn when
   * either is missing.
   */
  function Render(m: Manager, camera: Option<ObjId>): (r: Option<Frame>)
    requires Valid(m)
    ensures r.Some? <==> m.active.Some? && camera.Some?
    ensures r.Some? ==>
      var a := m.active.value;
      r.value.name == a && r.value.scene == m.scenes[a] && r.value.camera == camera.value &&
      (forall o :: o in r.value.objects <==> o in m.parentOf && m.parentOf[o] == a) &&
      (r.value.lit <==> m.sunIn == Some(a))
  {
    match (m.active, camera)
    case (Some(a), Some(c)) =>
      var objects := set o | o in m.parentOf && m.parentOf[o] == a;
      Some(Frame(a, m.scenes[a], objects, m.sunIn == Some(a), c))
    case _ => None
  }

  // ---------------------------------------------------------------- properties

  /** Parameters given for one scene become the defaults of every later `get`. */
  lemma SharedParamsLeak(m: Manager, a: string, b: string, c: int)
    requires Valid(m) && c != 0 && b !in m.scenes && a != b
    ensures var r := Get(Get(m, a, NoPatch.(ambient := Some(c))), b, NoPatch);
            r.scenes[b].ambients == [c]
  {
  }

  /** Fetching an existing scene again adds another ambient light while the shared ambient is nonzero. */
  lemma GetAccumulatesAmbients(m: Manager, name: string)
    requires Valid(m) && m.shared.ambient != 0
    ensures var r := Get(Get(m, name, NoPatch), name, NoPatch);
            var before := if name in m.scenes then |m.scenes[name].ambients| else 0;
            |r.scenes[name].ambients| == before + 2
  {
  }

  /** The sun belongs to the last scene switched to and has left the one before it. */
  lemma SunFollowsSwitch(m: Manager, a: string, b: string)
    requires Valid(m) && a != b
    ensures var r := Switch(Switch(m, a, NoPatch), b, NoPatch);
            r.sunIn == Some(b) && r.sunIn != Some(a)
  {
  }

  /**
   * After a switch the next render, once a camera exists, draws the scene
   * switched to with the sun in it; an object added there is drawn with it,
   * and is no longer drawn once the manager switches to another scene.
   */
  lemma RenderAfterSwitch(m: Manager, a: string, b: string, obj: ObjId, camera: ObjId)
    requires Valid(m) && a != b
    ensures var f := Render(Switch(m, a, NoPatch), Some(camera));
            f.Some? && f.value.name == a && f.value.lit
    ensures obj in Render(Add(Switch(m, a, NoPatch), obj), Some(camera)).value.objects
    ensures var f := Render(Switch(Add(Switch(m, a, NoPatch), obj), b, NoPatch), Some(camera));
            f.value.name == b && f.value.lit && obj !in f.value.objects
  {
  }

  /** Adding twice is adding once; adding after a switch moves the object to the new scene. */
  lemma AddMovesObject(m: Manager, a: string, b: string, obj: ObjId)
    requires Valid(m)
    ensures var m1 := Add(Switch(m, a, NoPatch), obj);
            Add(m1, obj) == m1 && Add(Switch(m1, b, NoPatch), obj).parentOf[obj] == b
  {
  }
}

=== FILE: local_player.dfy ===
/**
 * The local player (src/app/3d/characters/LocalPlayer.ts): a character whose
 * `move` additionally aims a focus probe from eye height and hands the focus
 * outline from the previously focused object to the newly hit one.
 */
module LocalPlayer {
  import opened Wrappers
  import opened Basics
  import M = Moveable
  import C = Character

  /** The colour the constructor forces onto the name label. */
  const NAME_COLOR: int := 0x00ff00
  /** Range of the focus probe. */
  const FOCUS_RANGE: real := 1000.0
  /** Smallest turn, in radians, the direction setter applies. */
  const TURN_THRESHOLD: real := 0.001

  /** Outline calls issued on other objects, oldest first. */
  datatype FocusCall = Focused(obj: ObjId) | Blurred(obj: ObjId)

  datatype Player = Player(
    ch: C.Character,
    nameColor: int,
    stored: Option<Vec3>,      // `_direction`, null until first set
    turns: seq<real>,          // the `rotateY` transforms applied, oldest first
    focused: Option<ObjId>,    // `focusedObject`
    calls: seq<FocusCall>)

  /** The constructor: whatever name colour was asked for, the label is green. */
  function New(ch: C.Character, requestedColor: Option<int>): (p: Player)
    ensures p.nameColor == NAME_COLOR && p.ch == ch
    ensures p.stored.None? && p.focused.None? && p.turns == [] && p.calls == []
  {
    Player(ch, NAME_COLOR, None, [], None, [])
  }

  /** The `direction` getter: the stored direction, else the character's own. */
  function Direction(p: Player): (r: Vec3)
    ensures p.stored.None? ==> r == p.ch.worldDir
    ensures p.stored.Some? ==> r == p.stored.value
  {
    p.stored.GetOr(p.ch.worldDir)
  }

  /**
   * The `direction` setter.  `rad` is the signed angle between the current
   * and the requested horizontal direction, computed by the scene library.
   */
  function SetDirection(p: Player, v: Vec3, rad: real): (r: Player)
    ensures Direction(r) == v
    ensures (rad > TURN_THRESHOLD || rad < -TURN_THRESHOLD) <==> r.turns == p.turns + [rad]
    ensures !(rad > TURN_THRESHOLD || rad < -TURN_THRESHOLD) <==> r.turns == p.turns
    ensures r.ch == p.ch && r.focused == p.focused && r.calls == p.calls
  {
    var turned := if rad > TURN_THRESHOLD || rad < -TURN_THRESHOLD then p.turns + [rad] else p.turns;
    p.(stored := Some(v), turns := turned)
  }

  /** The query `checkFocus` casts from the node position `pos`. */
  function FocusQuery(p: Player, pos: Vec3, colliders: seq<M.Collider>): (q: M.RayQuery)
    ensures q.origin == Vec3(pos.x, pos.y + C.EYE_HEIGHT, pos.z)
    ensures q.dir == Direction(p) && q.limit == M.Finite(FOCUS_RANGE)
    ensures forall k :: k in q.colliders <==> k in colliders && k.uuid != p.ch.uuid
  {
    M.RayQuery(Vec3(pos.x, C.EYE_HEIGHT + pos.y, pos.z), Direction(p),
               UuidFilter(p.ch.uuid, colliders), M.Finite(FOCUS_RANGE))
  }

  function UuidFilter(uuid: string, cs: seq<M.Collider>): (r: seq<M.Collider>)
    ensures forall k :: k in r <==> k in cs && k.uuid != uuid
  {
    if |cs| == 0 then []
    else (if cs[0].uuid != uuid then [cs[0]] else []) + UuidFilter(uuid, cs[1..])
  }

  /** `checkFocus`: the object the probe hits within range, if any. */
  function CheckFocus(p: Player, pos: Vec3, colliders: seq<M.Collider>, cast: M.RayOracle): (r: Option<ObjId>)
    ensures var q := FocusQuery(p, pos, colliders);
            r.Some? <==> |cast(q)| > 0 && cast(q)[0].distance < FOCUS_RANGE
    ensures r.Some? ==> r.value == cast(FocusQuery(p, pos, colliders))[0].target
  {
    var q := FocusQuery(p, pos, colliders);
    match M.StaticCollide(cast(q), q.limit)
    case None => None
    case Some(h) => Some(h.target)
  }

  /** The outline calls of the hand-off from `prev` to `next`. */
  function HandOff(prev: Option<ObjId>, next: Option<ObjId>): (r: seq<FocusCall>)
    ensures (exists o: ObjId :: Blurred(o) in r) <==> prev.Some? && prev != next
    ensures forall o: ObjId :: Blurred(o) in r ==> prev == Some(o)
    ensures (exists o: ObjId :: Focused(o) in r) <==> next.Some?
    ensures forall o: ObjId :: Focused(o) in r ==> next == Some(o)
    ensures |r| <= 2
  {
    (if prev.Some? && prev != next then [Blurred(prev.value)] else []) +
    (if next.Some? then [Focused(next.value)] else [])
  }

  /**
   * `move(dt, colliders)`: the character move, then the focus probe from the
   * node position `pos` after it, then the hand-off.
   */
  function Move(p: Player, dt: real, colliders: seq<M.Collider>, o: M.Orientation, cast: M.RayOracle,
                worldAfter: Vec3, now: int, pos: Vec3): (r: (Player, Vec3))
    ensures var (c', d) := C.Move(p.ch, dt, colliders, o, cast, worldAfter, now);
            r.1 == d && r.0.ch == c'
    ensures var p1 := p.(ch := C.Move(p.ch, dt, colliders, o, cast, worldAfter, now).0);
            r.0.focused == CheckFocus(p1, pos, colliders, cast) &&
            r.0.calls == p.calls + HandOff(p.focused, r.0.focused)
    ensures r.0.stored == p.stored && r.0.turns == p.turns && r.0.nameColor == p.nameColor
  {
    var (c', d) := C.Move(p.ch, dt, colliders, o, cast, worldAfter, now);
    var p1 := p.(ch := c');
    var next := CheckFocus(p1, pos, colliders, cast);
    (p1.(focused := next, calls := p.calls + HandOff(p.focused, next)), d)
  }

  // ---------------------------------------------------------------- properties

  /** Staying on the same object re-focuses it and never blurs it. */
  lemma SteadyFocusRefocuses(o: ObjId)
    ensures HandOff(Some(o), Some(o)) == [Focused(o)]
  {
  }

  /** Moving the aim from one object to another blurs the old one before focusing the new one. */
  lemma SwitchBlursThenFocuses(a: ObjId, b: ObjId)
    requires a != b
    ensures HandOff(Some(a), Some(b)) == [Blurred(a), Focused(b)]
  {
  }

  /** Reading the direction back after setting it yields what was set, turned or not. */
  lemma DirectionRoundTrip(p: Player, v: Vec3, rad: real)
    ensures Direction(SetDirection(p, v, rad)) == v
    ensures |SetDirection(p, v, rad).turns| <= |p.turns| + 1
  {
  }
}

=== FILE: moveable.dfy ===
/**
 * Movement resolution (src/app/3d/utils/Moveable.ts).
 *
 * The ray cast itself (`Raycaster.intersectObjects`) is an oracle: given the
 * query the code would issue it returns the intersections, nearest first.
 * The rotated direction and the two dot products of `moveTowards` are given
 * as an `Orientation`, because they come from quaternion arithmetic.
 */
module Moveable {
  import opened Wrappers
  import opened Basics
  import R = Renderable

  const DISTANCE: real := 50.0
  const WALKING_VELOCITY: real := 200.0
  const RUNNING_VELOCITY: real := 500.0

  /** The `distance` argument of `collide`: absent, a number, or `Infinity`. */
  datatype Limit = Unset | Finite(d: real) | Unbounded

  /** One intersection the ray cast reports. */
  datatype Hit = Hit(target: ObjId, distance: real)

  /** A scene object offered as an obstacle. */
  datatype Collider = Collider(obj: ObjId, name: string, uuid: string)

  /** The ray query a mover would issue. */
  datatype RayQuery = RayQuery(origin: Vec3, dir: Vec3, colliders: seq<Collider>, limit: Limit)

  /** The ray caster: the intersections of a query's ray with its colliders. */
  type RayOracle = RayQuery -> seq<Hit>

  /** `distance || DISTANCE`: an absent or zero limit means 50. */
  function EffectiveLimit(l: Limit): (r: Limit)
    ensures r.Unset? == false
    ensures (l.Unset? || l == Finite(0.0)) ==> r == Finite(DISTANCE)
    ensures (l.Finite? && l.d != 0.0) || l.Unbounded? ==> r == l
  {
    match l
    case Unset => Finite(DISTANCE)
    case Finite(d) => if d == 0.0 then Finite(DISTANCE) else l
    case Unbounded => Unbounded
  }

  /** A distance strictly below a limit; nothing reaches an unbounded limit. */
  predicate Below(d: real, l: Limit) {
    match l
    case Unset => d < DISTANCE
    case Finite(m) => d < m
    case Unbounded => true
  }

  /** The static `collide`: the first intersection counts only when it is strictly below the limit. */
  function StaticCollide(hits: seq<Hit>, limit: Limit): (r: Option<Hit>)
    ensures r.Some? <==> |hits| > 0 && Below(hits[0].distance, EffectiveLimit(limit))
    ensures r.Some? ==> r.value == hits[0]
  {
    if |hits| > 0 && Below(hits[0].distance, EffectiveLimit(limit)) then Some(hits[0]) else None
  }

  /** The ray cast's ordering: nearest intersection first. */
  ghost predicate NearestFirst(hits: seq<Hit>) {
    forall k :: 0 <= k < |hits| ==> hits[0].distance <= hits[k].distance
  }

  /** With the caster's ordering, a reported hit is the nearest one and lies within the limit. */
  lemma CollideReportsNearest(hits: seq<Hit>, limit: Limit)
    requires NearestFirst(hits)
    ensures var r := StaticCollide(hits, limit);
            r.Some? ==> (forall k :: 0 <= k < |hits| ==> r.value.distance <= hits[k].distance)
    ensures var r := StaticCollide(hits, limit);
            r.None? ==> forall k :: 0 <= k < |hits| ==> !Below(hits[k].distance, EffectiveLimit(limit))
  {
    var r := StaticCollide(hits, limit);
    if r.None? {
      forall k | 0 <= k < |hits|
        ensures !Below(hits[k].distance, EffectiveLimit(limit))
      {
        assert hits[0].distance <= hits[k].distance;
      }
    }
  }

  /** How a mover excludes itself and where its probe starts. */
  datatype SelfRule =
    | ByName      // Moveable.collide: drop colliders with the mover's name, probe at the origin
    | ByUuidRaised // Character.collide: drop colliders with the mover's uuid, probe STEP_OVER_HEIGHT higher

  const STEP_OVER_HEIGHT: real := 50.0

  /** The parts of a moving node the movement code reads. */
  datatype Mover = Mover(name: string, uuid: string, worldPos: Vec3, worldDir: Vec3, rule: SelfRule)

  predicate IsSelf(m: Mover, c: Collider) {
    match m.rule
    case ByName => c.name == m.name
    case ByUuidRaised => c.uuid == m.uuid
  }

  /** `Array.from(colliders).filter(...)`: order-preserving removal of the mover itself. */
  function Exclude(m: Mover, cs: seq<Collider>): (r: seq<Collider>)
    ensures forall c :: c in r <==> c in cs && !IsSelf(m, c)
    ensures |r| <= |cs|
  {
    if |cs| == 0 then []
    else if IsSelf(m, cs[0]) then Exclude(m, cs[1..])
    else [cs[0]] + Exclude(m, cs[1..])
  }

  /** The origin the instance `collide` probes from. */
  function ProbeOrigin(m: Mover): Vec3 {
    match m.rule
    case ByName => m.worldPos
    case ByUuidRaised => m.worldPos.Plus(Vec3(0.0, STEP_OVER_HEIGHT, 0.0))
  }

  /** The query the instance `collide` issues: self excluded, direction defaulting to the node's facing. */
  function CollideQuery(m: Mover, colliders: seq<Collider>, dir: Option<Vec3>, distance: Limit): (q: RayQuery)
    ensures forall c :: c in q.colliders <==> c in colliders && !IsSelf(m, c)
    ensures q.dir == dir.GetOr(m.worldDir) && q.limit == distance
    ensures m.rule.ByName? ==> q.origin == m.worldPos
    ensures m.rule.ByUuidRaised? ==> q.origin == Vec3(m.worldPos.x, m.worldPos.y + 50.0, m.worldPos.z)
  {
    RayQuery(ProbeOrigin(m), dir.GetOr(m.worldDir), Exclude(m, colliders), distance)
  }

  /**
   * The ray caster is asked with `recursive = false`, so every intersection
   * it reports lies on one of the objects it was offered.
   */
  predicate ReportsOffered(q: RayQuery, hits: seq<Hit>) {
    forall k :: 0 <= k < |hits| ==> exists c :: c in q.colliders && c.obj == hits[k].target
  }

  /**
   * The instance `collide`: issue the query, ask the caster, apply the limit.
   * A hit is reported exactly when the caster's first intersection lies
   * strictly below the limit (50 when absent or 0), and it is that intersection.
   */
  function Collide(m: Mover, colliders: seq<Collider>, dir: Option<Vec3>, distance: Limit, cast: RayOracle): (r: Option<Hit>)
    ensures var hits := cast(CollideQuery(m, colliders, dir, distance));
            r.Some? <==> |hits| > 0 && Below(hits[0].distance, EffectiveLimit(distance))
    ensures r.Some? ==> r.value == cast(CollideQuery(m, colliders, dir, distance))[0]
  {
    var q := CollideQuery(m, colliders, dir, distance);
    StaticCollide(cast(q), q.limit)
  }

  /** The values `moveTowards` obtains from quaternion arithmetic for one move. */
  datatype Orientation = Orientation(
    dir: Vec3,     // the normalised, rotated combined direction
    dotZ: real,    // rotated z-part of the move, dotted with `dir`
    dotX: real)    // rotated x-part of the move, dotted with `dir`

  /** `sgn` from the project's utility module: the sign as -1, 0 or 1. */
  function Sgn(v: real): real {
    if v > 0.0 then 1.0 else if v < 0.0 then -1.0 else 0.0
  }

  /** The outcome of one `moveTowards`: the returned delta and the ray query issued, if any. */
  datatype MoveResult = MoveResult(delta: Vec3, query: Option<RayQuery>)

  /** The translation `moveTowards` applies through `transform`. */
  function TranslationOf(d: Vec3): R.Transform {
    [R.TransformEntry("translateX", R.Scalar(d.x)),
     R.TransformEntry("translateY", R.Scalar(d.y)),
     R.TransformEntry("translateZ", R.Scalar(d.z))]
  }

  /** The raw, unobstructed displacement for an intent. */
  function RawDelta(forward: Option<real>, right: Option<real>, velocity: real, dt: real): Vec3 {
    Vec3(-right.GetOr(0.0) * velocity * dt, 0.0, forward.GetOr(0.0) * velocity * dt)
  }

  /** `moveTowards`: raw displacement, one ray along the combined direction, clamp on a hit. */
  function MoveTowards(m: Mover, velocity: real, dt: real, forward: Option<real>, right: Option<real>,
                       colliders: seq<Collider>, o: Orientation, cast: RayOracle): (r: MoveResult)
    ensures r.delta.y == 0.0
    ensures var raw := RawDelta(forward, right, velocity, dt);
            raw.x == 0.0 && raw.z == 0.0 ==> r.query.None? && r.delta == Zero
    ensures var raw := RawDelta(forward, right, velocity, dt);
            (raw.x != 0.0 || raw.z != 0.0) ==>
              r.query == Some(CollideQuery(m, colliders, Some(o.dir), Finite(DISTANCE)))
    ensures r.query.Some? ==>
      match StaticCollide(cast(r.query.value), Finite(DISTANCE))
      case None => r.delta == RawDelta(forward, right, velocity, dt)
      case Some(h) =>
        var raw := RawDelta(forward, right, velocity, dt);
        r.delta.z == -Sgn(raw.z) * (DISTANCE - h.distance) * o.dotZ &&
        r.delta.x == -Sgn(raw.x) * (DISTANCE - h.distance) * o.dotX
  {
    var raw := RawDelta(forward, right, velocity, dt);
    if raw.x == 0.0 && raw.z == 0.0 then
      MoveResult(raw, None)
    else
      var q := CollideQuery(m, colliders, Some(o.dir), Finite(DISTANCE));
      match StaticCollide(cast(q), q.limit)
      case None => MoveResult(raw, Some(q))
      case Some(h) =>
        var z := -Sgn(raw.z) * (DISTANCE - h.distance) * o.dotZ;
        var x := -Sgn(raw.x) * (DISTANCE - h.distance) * o.dotX;
        MoveResult(Vec3(x, 0.0, z), Some(q))
  }

  /**
   * `moveTowards` on a node of the renderable world: resolve the displacement,
   * then apply it as a `transform` of three translations.
   */
  function MoveNode(w: R.World, i: R.InstId, m: Mover, velocity: real, dt: real,
                    forward: Option<real>, right: Option<real>,
                    colliders: seq<Collider>, o: Orientation, cast: RayOracle): (r: (R.World, MoveResult))
    requires R.Valid(w) && i in w.instances
    ensures R.Valid(r.0) && r.0.instances.Keys == w.instances.Keys
    ensures r.1 == MoveTowards(m, velocity, dt, forward, right, colliders, o, cast)
    ensures var s := R.StateOf(r.0, i);
            r.0.instances[i].node.ops == w.instances[i].node.ops +
              [R.PositionSet(Vec3(s.x, s.y, s.z)), R.MethodCall("translateX", r.1.delta.x),
               R.MethodCall("translateY", r.1.delta.y), R.MethodCall("translateZ", r.1.delta.z)]
  {
    var res := MoveTowards(m, velocity, dt, forward, right, colliders, o, cast);
    (R.TransformNode(w, i, TranslationOf(res.delta)), res)
  }

  /**
   * `move(dt)`: only forward and right of the stored move state reach
   * `moveTowards`.  The result never climbs, a state without forward or right
   * intent stays put without casting a ray, and a cast ray never considers
   * the mover itself.
   */
  function Move(m: Mover, ms: MoveState, velocity: real, dt: real, colliders: seq<Collider>,
                o: Orientation, cast: RayOracle): (r: MoveResult)
    ensures r.delta.y == 0.0
    ensures ms.forward == 0.0 && ms.right == 0.0 ==> r == MoveResult(Zero, None)
    ensures r.query.Some? ==> forall c :: c in r.query.value.colliders ==> c in colliders && !IsSelf(m, c)
  {
    MoveTowards(m, velocity, dt, Some(ms.forward), Some(ms.right), colliders, o, cast)
  }

  /** `onMove`: the whole move state is replaced. */
  function OnMove(current: MoveState, next: MoveState): (r: MoveState)
    ensures r == next
  {
    next
  }

  /** A run of `onMove` calls, oldest first, starting from `current`. */
  function OnMoveAll(current: MoveState, states: seq<MoveState>): MoveState
    decreases |states|
  {
    if |states| == 0 then current else OnMoveAll(OnMove(current, states[0]), states[1..])
  }

  // ---------------------------------------------------------------- properties

  /**
   * `move` reads the state most recently handed to `onMove`: after any run of
   * calls it moves as the last one asks, and after a halt it stays put and
   * casts no ray.
   */
  lemma {:induction false} MoveFollowsLastOnMove(m: Mover, current: MoveState, states: seq<MoveState>,
                                                 velocity: real, dt: real, colliders: seq<Collider>,
                                                 o: Orientation, cast: RayOracle)
    requires |states| > 0
    ensures Move(m, OnMoveAll(current, states), velocity, dt, colliders, o, cast) ==
            Move(m, states[|states| - 1], velocity, dt, colliders, o, cast)
    ensures states[|states| - 1] == Still ==>
            Move(m, OnMoveAll(current, states), velocity, dt, colliders, o, cast) == MoveResult(Zero, None)
  {
    LastOnMoveWins(current, states);
  }

  /** The state a run of `onMove` calls leaves behind is the last one given. */
  lemma {:induction false} LastOnMoveWins(current: MoveState, states: seq<MoveState>)
    requires |states| > 0
    ensures OnMoveAll(current, states) == states[|states| - 1]
    decreases |states|
  {
    if |states| > 1 {
      LastOnMoveWins(OnMove(current, states[0]), states[1..]);
    }
  }

  /**
   * The instance `collide` never reports the mover itself: with a caster that
   * only reports offered objects, a reported hit lies on a collider that was
   * offered and is not the mover.
   */
  lemma CollideNeverSelf(m: Mover, colliders: seq<Collider>, dir: Option<Vec3>, distance: Limit, cast: RayOracle)
    requires var q := CollideQuery(m, colliders, dir, distance); ReportsOffered(q, cast(q))
    ensures var r := Collide(m, colliders, dir, distance, cast);
            r.Some? ==> exists c :: c in colliders && !IsSelf(m, c) && c.obj == r.value.target
  {
    var q := CollideQuery(m, colliders, dir, distance);
    var r := Collide(m, colliders, dir, distance, cast);
    if r.Some? {
      assert r.value == cast(q)[0];
      var c :| c in q.colliders && c.obj == cast(q)[0].target;
      assert c in colliders && !IsSelf(m, c);
    }
  }

  /** The raw displacement: x against `right`, z along `forward`, no vertical part. */
  lemma RawDeltaShape(forward: real, right: real, velocity: real, dt: real)
    ensures RawDelta(Some(forward), Some(right), velocity, dt) ==
            Vec3(-right * velocity * dt, 0.0, forward * velocity * dt)
    ensures RawDelta(None, None, velocity, dt) == Zero
  {
  }

  /** The vertical intent never influences `move`. */
  lemma MoveIgnoresUp(m: Mover, ms: MoveState, up: real, velocity: real, dt: real,
                      colliders: seq<Collider>, o: Orientation, cast: RayOracle)
    ensures Move(m, ms, velocity, dt, colliders, o, cast) == Move(m, ms.(up := up), velocity, dt, colliders, o, cast)
  {
  }

  /** On a hit, a component the intent left at 0 stays 0. */
  lemma ZeroComponentStaysZero(m: Mover, velocity: real, dt: real, forward: Option<real>, right: Option<real>,
                               colliders: seq<Collider>, o: Orientation, cast: RayOracle)
    ensures var raw := RawDelta(forward, right, velocity, dt);
            var r := MoveTowards(m, velocity, dt, forward, right, colliders, o, cast);
            (raw.x == 0.0 ==> r.delta.x == 0.0) && (raw.z == 0.0 ==> r.delta.z == 0.0)
  {
  }

  /** Without an obstacle within DISTANCE the realised displacement is the intended one. */
  lemma FreeMoveIsRaw(m: Mover, velocity: real, dt: real, forward: Option<real>, right: Option<real>,
                      colliders: seq<Collider>, o: Orientation, cast: RayOracle)
    requires var q := CollideQuery(m, colliders, Some(o.dir), Finite(DISTANCE));
             forall k :: 0 <= k < |cast(q)| ==> cast(q)[k].distance >= DISTANCE
    ensures MoveTowards(m, velocity, dt, forward, right, colliders, o, cast).delta ==
            RawDelta(forward, right, velocity, dt)
  {
    var q := CollideQuery(m, colliders, Some(o.dir), Finite(DISTANCE));
    if |cast(q)| > 0 {
      assert cast(q)[0].distance >= DISTANCE;
    }
  }

  /**
   * A blocked move along a component the rotated axis agrees with pushes back:
   * the realised component has the opposite sign of the intended one.
   */
  lemma BlockedComponentReverses(m: Mover, velocity: real, dt: real, forward: Option<real>, right: Option<real>,
                                 colliders: seq<Collider>, o: Orientation, cast: RayOracle)
    requires o.dotZ > 0.0
    requires var q := CollideQuery(m, colliders, Some(o.dir), Finite(DISTANCE));
             StaticCollide(cast(q), Finite(DISTANCE)).Some?
    ensures var raw := RawDelta(forward, right, velocity, dt);
            var r := MoveTowards(m, velocity, dt, forward, right, colliders, o, cast);
            raw.z != 0.0 ==> r.delta.z * raw.z < 0.0
  {
    var raw := RawDelta(forward, right, velocity, dt);
    if raw.z != 0.0 {
      var q := CollideQuery(m, colliders, Some(o.dir), Finite(DISTANCE));
      var h := StaticCollide(cast(q), Finite(DISTANCE)).value;
      var r := MoveTowards(m, velocity, dt, forward, right, colliders, o, cast);
      assert r.query == Some(q);
      assert r.delta.z == -Sgn(raw.z) * (DISTANCE - h.distance) * o.dotZ;
      OpposesSign(raw.z, DISTANCE - h.distance, o.dotZ);
    }
  }

  /** A push back of positive size has the sign opposite to the intended component. */
  lemma OpposesSign(z: real, a: real, b: real)
    requires z != 0.0 && a > 0.0 && b > 0.0
    ensures (-Sgn(z) * a * b) * z < 0.0
  {
    var k := a * b;
    assert k > 0.0;
    if z > 0.0 {
      assert -Sgn(z) * a * b == -k;
    } else {
      assert -Sgn(z) * a * b == k;
    }
  }
}

=== FILE: object_manager.dfy ===
/**
 * The named-object registry (src/app/3d/managers/ObjectManager.ts): `get`
 * returns the stored renderable or builds a new one from the caller's
 * parameters, starting one asset request per URL; when every request of a
 * batch has finished, the renderable and the caller's `onLoad` receive the
 * resources in URL order.  The asset manager is a collaborator: requests are
 * recorded, and their completion is an explicit event.
 */
module ObjectManager {
  import opened Wrappers
  import AM = AssetManager

  /** The `url` parameter: missing, the empty string (falsy), one URL, or a list. */
  datatype UrlParam = NoUrl | EmptyUrl | One(url: string) | Many(urls: seq<string>)

  /** A callback: one the caller supplied, or the resolver of a `getAsync` promise. */
  datatype Callback = User(id: nat) | Resolve(promise: nat)

  /** `IObjectParams`, by the keys this manager reads and writes. */
  datatype ObjParams = ObjParams(name: Option<string>, url: UrlParam, onLoad: Option<Callback>)

  /** A renderable, by creation serial, with the (name-extended) parameters it was built from. */
  datatype Obj = Obj(id: nat, params: ObjParams)

  /** One `get`'s outstanding asset requests, settled together by `Promise.all`. */
  datatype Pending = Pending(obj: nat, urls: seq<string>, onLoad: Option<Callback>)

  /** Who received a resource list: a renderable's `onLoad`, or a callback. */
  datatype Receiver = ToObject(obj: nat) | ToCallback(cb: Callback)

  datatype Delivery = Delivery(to: Receiver, resources: seq<AM.Asset>)

  datatype Manager = Manager(objects: map<string, Obj>, nextId: nat, pending: seq<Pending>, delivered: seq<Delivery>)

  const Initial := Manager(map[], 0, [], [])

  /** The URLs `get` requests: none for a falsy `url`, each entry of a list. */
  function Requests(u: UrlParam): (r: seq<string>)
    ensures u.NoUrl? || u.EmptyUrl? ==> r == []
    ensures u.One? ==> r == [u.url]
    ensures u.Many? ==> r == u.urls
  {
    match u
    case NoUrl => []
    case EmptyUrl => []
    case One(s) => [s]
    case Many(urls) => urls
  }

  /** Whether `params?.url` is truthy: an empty list is truthy, the empty string is not. */
  predicate Truthy(u: UrlParam) {
    u.One? || u.Many?
  }

  /**
   * `get(name, params, override)`: a stored renderable is returned unless
   * `override`; otherwise `Object.assign(params, {name})` (a type error when
   * `params` is undefined) builds a new renderable that replaces any stored
   * one, and a truthy `url` starts one batch of requests.
   */
  function Get(m: Manager, name: string, params: Option<ObjParams>, override: bool): (r: Result<(Manager, Obj)>)
    ensures name in m.objects && !override ==> r == Ok((m, m.objects[name]))
    ensures (name !in m.objects || override) && params.None? ==> r.Err?
    ensures (name !in m.objects || override) && params.Some? ==>
      r.Ok? &&
      var (m1, o) := r.value;
      o == Obj(m.nextId, params.value.(name := Some(name))) &&
      m1.objects == m.objects[name := o] && m1.nextId == m.nextId + 1 && m1.delivered == m.delivered &&
      (Truthy(params.value.url) ==>
         m1.pending == m.pending + [Pending(m.nextId, Requests(params.value.url), params.value.onLoad)]) &&
      (!Truthy(params.value.url) ==> m1.pending == m.pending)
  {
    if name in m.objects && !override then Ok((m, m.objects[name]))
    else if params.None? then Err("Cannot convert undefined or null to object")
    else
      var p := params.value.(name := Some(name));
      var o := Obj(m.nextId, p);
      var pending := if Truthy(p.url) then m.pending + [Pending(m.nextId, Requests(p.url), p.onLoad)] else m.pending;
      Ok((m.(objects := m.objects[name := o], nextId := m.nextId + 1, pending := pending), o))
  }

  /**
   * Every request of batch `k` succeeded with `resources`, in URL order: the
   * renderable gets them, then the batch's `onLoad` if any.
   */
  function Complete(m: Manager, k: nat, resources: seq<AM.Asset>): (r: Manager)
    requires k < |m.pending| && |resources| == |m.pending[k].urls|
    ensures r.pending == m.pending[..k] + m.pending[k + 1..]
    ensures r.objects == m.objects && r.nextId == m.nextId
    ensures var b := m.pending[k];
            r.delivered == m.delivered + [Delivery(ToObject(b.obj), resources)] +
                           (if b.onLoad.Some? then [Delivery(ToCallback(b.onLoad.value), resources)] else [])
  {
    var b := m.pending[k];
    var calls := [Delivery(ToObject(b.obj), resources)] +
                 (if b.onLoad.Some? then [Delivery(ToCallback(b.onLoad.value), resources)] else []);
    m.(pending := m.pending[..k] + m.pending[k + 1..], delivered := m.delivered + calls)
  }

  /** Some request of batch `k` failed: `Promise.all` rejects and nobody is called. */
  function Fail(m: Manager, k: nat): (r: Manager)
    requires k < |m.pending|
    ensures r.pending == m.pending[..k] + m.pending[k + 1..] && r.delivered == m.delivered && r.objects == m.objects
  {
    m.(pending := m.pending[..k] + m.pending[k + 1..])
  }

  /** `getAsync(name, params)`: `get` with `onLoad` replaced by the resolver of promise `promise`. */
  function GetAsync(m: Manager, name: string, params: Option<ObjParams>, promise: nat): (r: (Manager, Obj))
    ensures Get(m, name, Some(params.GetOr(ObjParams(None, NoUrl, None)).(onLoad := Some(Resolve(promise)))), false).Ok?
    ensures name in m.objects ==> r == (m, m.objects[name])
    ensures name !in m.objects ==> r.1.params.onLoad == Some(Resolve(promise)) && name in r.0.objects && r.0.objects[name] == r.1
  {
    var p := params.GetOr(ObjParams(None, NoUrl, None)).(onLoad := Some(Resolve(promise)));
    Get(m, name, Some(p), false).value
  }

  /** Whether promise `promise` has been resolved. */
  predicate Resolved(m: Manager, promise: nat) {
    exists i :: 0 <= i < |m.delivered| && m.delivered[i].to == ToCallback(Resolve(promise))
  }

  // ---------------------------------------------------------------- properties

  /** A second `get` without override hands back the first one's renderable and changes nothing. */
  lemma GetStable(m: Manager, name: string, p: Option<ObjParams>, q: Option<ObjParams>)
    requires Get(m, name, p, false).Ok?
    ensures var (m1, o) := Get(m, name, p, false).value;
            Get(m1, name, q, false) == Ok((m1, o))
  {
  }

  /** With override, a stored name gets a new renderable in its place. */
  lemma OverrideReplaces(m: Manager, name: string, p: ObjParams)
    requires name in m.objects && m.objects[name].id < m.nextId
    ensures var (m1, o) := Get(m, name, Some(p), true).value;
            m1.objects[name] == o && o != m.objects[name]
  {
  }

  /** A `getAsync` promise for a new name with a URL resolves once its batch completes, with the resources. */
  lemma {:induction false} GetAsyncResolves(m: Manager, name: string, p: ObjParams, promise: nat, resources: seq<AM.Asset>)
    requires name !in m.objects && Truthy(p.url) && |resources| == |Requests(p.url)|
    ensures var (m1, _) := GetAsync(m, name, Some(p), promise);
            var m2 := Complete(m1, |m.pending|, resources);
            Resolved(m2, promise) && m2.delivered[|m2.delivered| - 1] == Delivery(ToCallback(Resolve(promise)), resources)
  {
    var (m1, _) := GetAsync(m, name, Some(p), promise);
    assert m1.pending[|m.pending|].onLoad == Some(Resolve(promise));
    var m2 := Complete(m1, |m.pending|, resources);
    assert m2.delivered[|m2.delivered| - 1].to == ToCallback(Resolve(promise));
  }

  /** A `getAsync` promise for a name already stored never gets a batch: nothing is requested. */
  lemma GetAsyncExistingStarvesPromise(m: Manager, name: string, p: Option<ObjParams>, promise: nat)
    requires name in m.objects
    ensures GetAsync(m, name, p, promise).0.pending == m.pending
  {
  }

  /** An empty URL list is truthy: its batch has nothing to wait for and completes with no resources. */
  lemma {:induction false} EmptyListLoadsNothing(m: Manager, name: string, cb: Callback)
    requires name !in m.objects
    ensures var (m1, o) := Get(m, name, Some(ObjParams(None, Many([]), Some(cb))), false).value;
            m1.pending[|m.pending|].urls == [] &&
            Complete(m1, |m.pending|, []).delivered == m.delivered + [Delivery(ToObject(o.id), []), Delivery(ToCallback(cb), [])]
  {
  }
}

=== FILE: perspective_manager.dfy ===
/**
 * The camera registry (src/app/3d/managers/PerspectiveManager.ts): named
 * cameras created on first use, each with a stored placement merged from
 * partial parameters, one active camera, and relative moves and follows
 * that act on the active camera only.
 */
module PerspectiveManager {
  import opened Wrappers
  import opened Basics

  /** The creation options, after `Object.assign(defaultOption(), options)`. */
  datatype Options = Options(fov: real, near: real, far: real)
  datatype OptionsPatch = OptionsPatch(fov: Option<real>, near: Option<real>, far: Option<real>)

  const DefaultOptions := Options(45.0, 0.1, 200000.0)

  function MergeOptions(p: OptionsPatch): (o: Options)
    ensures o.fov == p.fov.GetOr(45.0) && o.near == p.near.GetOr(0.1) && o.far == p.far.GetOr(200000.0)
  {
    Options(p.fov.GetOr(DefaultOptions.fov), p.near.GetOr(DefaultOptions.near), p.far.GetOr(DefaultOptions.far))
  }

  /** `IState`: where a camera stands and what it looks at. */
  datatype Placement = Placement(x: real, y: real, z: real, targetX: real, targetY: real, targetZ: real)

  /** `ICameraParams`: any subset of the placement. */
  datatype CameraParams = CameraParams(
    x: Option<real>, y: Option<real>, z: Option<real>,
    targetX: Option<real>, targetY: Option<real>, targetZ: Option<real>)

  const NoParams := CameraParams(None, None, None, None, None, None)

  /** `defaultParams()`: ten units back along z, looking at the origin. */
  const DefaultPlacement := Placement(0.0, 0.0, 10.0, 0.0, 0.0, 0.0)

  /** `Object.assign(state, params)` on a full placement. */
  function Apply(s: Placement, p: CameraParams): (r: Placement)
    ensures r.x == p.x.GetOr(s.x) && r.y == p.y.GetOr(s.y) && r.z == p.z.GetOr(s.z)
    ensures r.targetX == p.targetX.GetOr(s.targetX) && r.targetY == p.targetY.GetOr(s.targetY)
    ensures r.targetZ == p.targetZ.GetOr(s.targetZ)
  {
    Placement(p.x.GetOr(s.x), p.y.GetOr(s.y), p.z.GetOr(s.z),
              p.targetX.GetOr(s.targetX), p.targetY.GetOr(s.targetY), p.targetZ.GetOr(s.targetZ))
  }

  datatype Axis = X | Y | Z

  /** What a camera hangs from: nothing, a scene, or another object (after `follow`). */
  datatype Parent = NoParent | SceneParent | ObjectParent(obj: ObjId)

  /**
   * A `PerspectiveCamera`: its projection, the absolute position last set,
   * the local translations made since then, the point it last looked at and
   * its parent.
   */
  datatype Camera = Camera(
    fov: real, aspect: real, near: real, far: real,
    position: Vec3, translated: seq<(Axis, real)>, lookAt: Vec3, parent: Parent)

  datatype Manager = Manager(
    options: Options,
    activeName: Option<string>,
    cameras: map<string, Camera>,
    states: map<string, Placement>,
    aspect: real,
    parentMoves: seq<(ObjId, Axis, real)>)   // translations applied to followed objects

  predicate Valid(m: Manager) {
    m.cameras.Keys == m.states.Keys && (m.activeName.Some? ==> m.activeName.value in m.cameras)
  }

  /** The camera stands and looks exactly where its stored placement says. */
  predicate Placed(c: Camera, s: Placement) {
    c.position == Vec3(s.x, s.y, s.z) && c.translated == [] && c.lookAt == Vec3(s.targetX, s.targetY, s.targetZ)
  }

  /** The constructor: merged options and the container's aspect ratio, no cameras yet. */
  function New(p: OptionsPatch, ratio: real): (m: Manager)
    ensures Valid(m) && m.activeName.None? && m.cameras == map[] && m.aspect == ratio
    ensures m.options == MergeOptions(p)
  {
    Manager(MergeOptions(p), None, map[], map[], ratio, [])
  }

  /** The `camera` getter. */
  function Active(m: Manager): (c: Option<Camera>)
    requires Valid(m)
    ensures c.Some? <==> m.activeName.Some?
    ensures c.Some? ==> c.value == m.cameras[m.activeName.value]
  {
    match m.activeName
    case None => None
    case Some(n) => Some(m.cameras[n])
  }

  /** `_update(name, params)`: merge into the stored placement and put the camera there. */
  function UpdateCamera(m: Manager, name: string, p: CameraParams): (r: Manager)
    requires Valid(m) && name in m.cameras
    ensures Valid(r) && r.cameras.Keys == m.cameras.Keys && r.activeName == m.activeName
    ensures r.states == m.states[name := Apply(m.states[name], p)]
    ensures Placed(r.cameras[name], r.states[name])
    ensures r.cameras[name].parent == m.cameras[name].parent && r.cameras[name].aspect == m.cameras[name].aspect
    ensures forall n :: n in m.cameras && n != name ==> r.cameras[n] == m.cameras[n]
    ensures r.aspect == m.aspect && r.parentMoves == m.parentMoves
  {
    var s := Apply(m.states[name], p);
    var c := m.cameras[name].(position := Vec3(s.x, s.y, s.z), translated := [],
                              lookAt := Vec3(s.targetX, s.targetY, s.targetZ));
    m.(cameras := m.cameras[name := c], states := m.states[name := s])
  }

  /**
   * `get(name, params)`: a new name gets a camera built from the options and
   * the current aspect, with the defaults merged with `params`; an existing
   * name has `params` (or nothing) merged into its stored placement.
   */
  function Get(m: Manager, name: string, p: Option<CameraParams>): (r: Manager)
    requires Valid(m)
    ensures Valid(r) && name in r.cameras && r.cameras.Keys == m.cameras.Keys + {name}
    ensures r.activeName == m.activeName
    ensures name !in m.cameras ==>
      (r.states[name] == Apply(DefaultPlacement, p.GetOr(NoParams)) &&
       r.cameras[name].fov == m.options.fov && r.cameras[name].near == m.options.near &&
       r.cameras[name].far == m.options.far && r.cameras[name].aspect == m.aspect)
    ensures name in m.cameras ==> r.states[name] == Apply(m.states[name], p.GetOr(NoParams))
    ensures Placed(r.cameras[name], r.states[name])
    ensures forall n :: n in m.cameras && n != name ==> r.cameras[n] == m.cameras[n] && r.states[n] == m.states[n]
  {
    if name in m.cameras then UpdateCamera(m, name, p.GetOr(NoParams))
    else
      var o := m.options;
      var c := Camera(o.fov, m.aspect, o.near, o.far, Zero, [], Zero, NoParent);
      var m1 := m.(cameras := m.cameras[name := c], states := m.states[name := Apply(DefaultPlacement, p.GetOr(NoParams))]);
      UpdateCamera(m1, name, p.GetOr(NoParams))
  }

  /** `update(params)`: `_update` on the active camera; ignored without one. */
  function Update(m: Manager, p: CameraParams): (r: Manager)
    requires Valid(m)
    ensures Valid(r)
    ensures m.activeName.None? ==> r == m
    ensures m.activeName.Some? ==>
      var a := m.activeName.value;
      r.states == m.states[a := Apply(m.states[a], p)] && Placed(r.cameras[a], r.states[a]) &&
      forall n :: n in m.cameras && n != a ==> r.cameras[n] == m.cameras[n]
  {
    match m.activeName
    case None => m
    case Some(a) => UpdateCamera(m, a, p)
  }

  /** The `aspect` setter: stored, and pushed to the active camera only. */
  function SetAspect(m: Manager, ratio: real): (r: Manager)
    requires Valid(m)
    ensures Valid(r) && r.aspect == ratio && r.states == m.states && r.activeName == m.activeName
    ensures m.activeName.Some? ==> r.cameras == m.cameras[m.activeName.value := m.cameras[m.activeName.value].(aspect := ratio)]
    ensures m.activeName.None? ==> r.cameras == m.cameras
  {
    match m.activeName
    case None => m.(aspect := ratio)
    case Some(a) => m.(aspect := ratio, cameras := m.cameras[a := m.cameras[a].(aspect := ratio)])
  }

  /**
   * `switch(name, params)`: the active name is set first; `null` leaves no
   * active camera, otherwise the camera is fetched and the container's
   * current ratio (`ratio`, from `onResize`) applied to it.
   */
  function Switch(m: Manager, name: Option<string>, p: Option<CameraParams>, ratio: real): (r: Manager)
    requires Valid(m)
    ensures Valid(r) && r.activeName == name
    ensures name.None? ==> Active(r).None? && r.cameras == m.cameras && r.states == m.states
    ensures name.Some? ==>
      var n := name.value;
      r.cameras.Keys == m.cameras.Keys + {n} && r.aspect == ratio && r.cameras[n].aspect == ratio &&
      Placed(r.cameras[n], r.states[n]) &&
      (n in m.cameras ==> r.states[n] == Apply(m.states[n], p.GetOr(NoParams))) &&
      (n !in m.cameras ==> r.states[n] == Apply(DefaultPlacement, p.GetOr(NoParams)))
  {
    match name
    case None => m.(activeName := None)
    case Some(n) =>
      var m1 := Get(m, n, p).(activeName := name);
      SetAspect(m1, ratio)
  }

  /** `follow(object, lookAt)`: reparent the active camera under the object, optionally looking at it. */
  function Follow(m: Manager, obj: ObjId, objPosition: Vec3, look: bool): (r: Manager)
    requires Valid(m)
    ensures Valid(r) && r.states == m.states && r.activeName == m.activeName
    ensures m.activeName.None? ==> r == m
    ensures m.activeName.Some? ==>
      var a := m.activeName.value;
      var c := m.cameras[a];
      r.cameras == m.cameras[a := c.(parent := ObjectParent(obj), lookAt := if look then objPosition else c.lookAt)]
  {
    match m.activeName
    case None => m
    case Some(a) =>
      var c := m.cameras[a];
      m.(cameras := m.cameras[a := c.(parent := ObjectParent(obj), lookAt := if look then objPosition else c.lookAt)])
  }

  /** The translations `move` makes: a component that is missing or zero is skipped (`x && …`). */
  function Steps(x: Option<real>, y: Option<real>, z: Option<real>): (r: seq<(Axis, real)>)
    ensures forall i :: 0 <= i < |r| ==> r[i].1 != 0.0
    ensures (X, x.GetOr(0.0)) in r <==> x.GetOr(0.0) != 0.0
    ensures (Y, y.GetOr(0.0)) in r <==> y.GetOr(0.0) != 0.0
    ensures (Z, z.GetOr(0.0)) in r <==> z.GetOr(0.0) != 0.0
    ensures |r| <= 3
  {
    (if x.GetOr(0.0) != 0.0 then [(X, x.GetOr(0.0))] else []) +
    (if y.GetOr(0.0) != 0.0 then [(Y, y.GetOr(0.0))] else []) +
    (if z.GetOr(0.0) != 0.0 then [(Z, z.GetOr(0.0))] else [])
  }

  /**
   * `move({x, y, z})`: translate the active camera along its own axes, or,
   * when it follows an object, translate that object instead.
   */
  function Move(m: Manager, x: Option<real>, y: Option<real>, z: Option<real>): (r: Manager)
    requires Valid(m)
    ensures Valid(r) && r.states == m.states && r.activeName == m.activeName
    ensures m.activeName.None? ==> r == m
    ensures m.activeName.Some? && m.cameras[m.activeName.value].parent.ObjectParent? ==>
      r.cameras == m.cameras &&
      |r.parentMoves| == |m.parentMoves| + |Steps(x, y, z)| &&
      forall i :: 0 <= i < |Steps(x, y, z)| ==>
        r.parentMoves[|m.parentMoves| + i] ==
        (m.cameras[m.activeName.value].parent.obj, Steps(x, y, z)[i].0, Steps(x, y, z)[i].1)
    ensures m.activeName.Some? && !m.cameras[m.activeName.value].parent.ObjectParent? ==>
      var a := m.activeName.value;
      r.parentMoves == m.parentMoves &&
      r.cameras == m.cameras[a := m.cameras[a].(translated := m.cameras[a].translated + Steps(x, y, z))]
  {
    match m.activeName
    case None => m
    case Some(a) =>
      var c := m.cameras[a];
      var steps := Steps(x, y, z);
      if c.parent.ObjectParent? then
        m.(parentMoves := m.parentMoves + seq(|steps|, i requires 0 <= i < |steps| => (c.parent.obj, steps[i].0, steps[i].1)))
      else
        m.(cameras := m.cameras[a := c.(translated := c.translated + steps)])
  }

  // ---------------------------------------------------------------- properties

  /** Merging the same parameters a second time changes nothing. */
  lemma ApplyDefaultsOnce(s: Placement, p: CameraParams)
    ensures Apply(Apply(s, p), p) == Apply(s, p)
  {
  }

  /** A camera that was moved returns to its stored placement on any `update`. */
  lemma {:induction false} UpdateSnapsBack(m: Manager, x: Option<real>, y: Option<real>, z: Option<real>)
    requires Valid(m) && m.activeName.Some?
    ensures var r := Update(Move(m, x, y, z), NoParams);
            Placed(r.cameras[m.activeName.value], m.states[m.activeName.value])
  {
    var a := m.activeName.value;
    var m1 := Move(m, x, y, z);
    assert m1.states[a] == m.states[a];
    assert Apply(m.states[a], NoParams) == m.states[a];
  }

  /** A nonzero move of an unparented active camera takes it off its stored placement. */
  lemma MoveLeavesPlacement(m: Manager, x: real)
    requires Valid(m) && m.activeName.Some? && x != 0.0
    requires m.cameras[m.activeName.value].parent == NoParent
    ensures !Placed(Move(m, Some(x), None, None).cameras[m.activeName.value], m.states[m.activeName.value])
  {
    assert Steps(Some(x), None, None) == [(X, x)];
  }

  /**
   * Once the active camera follows an object, a move translates that object
   * and leaves the camera as it stands: still under the object, looking at
   * it when asked to, with no translation of its own.  An `update` re-places
   * the camera without ending the follow.
   */
  lemma FollowRedirectsMove(m: Manager, obj: ObjId, objPosition: Vec3, look: bool, d: real, p: CameraParams)
    requires Valid(m) && m.activeName.Some? && d != 0.0
    ensures var a := m.activeName.value;
            var f := Follow(m, obj, objPosition, look);
            var r := Move(f, Some(d), None, None);
            r.cameras == f.cameras && r.parentMoves == m.parentMoves + [(obj, X, d)] &&
            r.cameras[a].translated == m.cameras[a].translated && r.cameras[a].parent == ObjectParent(obj) &&
            (look ==> r.cameras[a].lookAt == objPosition) && r.states == m.states
    ensures var a := m.activeName.value;
            Update(Follow(m, obj, objPosition, look), p).cameras[a].parent == ObjectParent(obj)
  {
  }

  /**
   * The stored aspect reaches the active camera at once and every camera
   * created later; the last ratio set wins, and setting it never moves a
   * placement, even through a later switch.
   */
  lemma SetAspectReachesNewCameras(m: Manager, ratio: real, earlier: real, n: string, p: Option<CameraParams>, measured: real)
    requires Valid(m)
    ensures m.activeName.Some? ==> Active(SetAspect(m, ratio)).value.aspect == ratio
    ensures n !in m.cameras ==> Get(SetAspect(m, ratio), n, p).cameras[n].aspect == ratio
    ensures SetAspect(SetAspect(m, earlier), ratio) == SetAspect(m, ratio)
    ensures Switch(SetAspect(m, ratio), Some(n), p, measured).states == Switch(m, Some(n), p, measured).states
  {
  }

  /** Switching to `null` and back to a name restores that camera as the active one. */
  lemma SwitchAwayAndBack(m: Manager, n: string, ratio: real)
    requires Valid(m) && n in m.cameras
    ensures var r := Switch(Switch(m, None, None, ratio), Some(n), None, ratio);
            Active(r).Some? && r.states[n] == m.states[n] && r.cameras.Keys == m.cameras.Keys
  {
    assert Apply(m.states[n], NoParams) == m.states[n];
  }

  /** Getting a camera twice with no parameters leaves the stored placement as the first get made it. */
  lemma GetTwiceKeepsPlacement(m: Manager, name: string, p: Option<CameraParams>)
    requires Valid(m)
    ensures Get(Get(m, name, p), name, None).states == Get(m, name, p).states
  {
    GetStoredKeepsStates(Get(m, name, p), name);
  }

  /** A `get` without parameters of a camera that exists leaves every stored placement as it was. */
  lemma GetStoredKeepsStates(m: Manager, name: string)
    requires Valid(m) && name in m.cameras
    ensures Get(m, name, None).states == m.states
  {
    var r := Get(m, name, None);
    assert r.states[name] == Apply(m.states[name], NoParams) == m.states[name];
    assert r.states.Keys == m.states.Keys;
    forall n | n in r.states ensures r.states[n] == m.states[n] {
    }
  }
}

=== FILE: preloader.dfy ===
/**
 * The asset preloader (src/app/3d/lib/Preloader.ts), its bookkeeping only:
 * one record per listed URL, progress reported from the byte counts of the
 * requests' progress events, and completion once every request answered
 * 200.  The requests themselves are events fed in by the caller; the
 * overlay is reduced to which element completion removes and whether it is
 * a child of the container.
 */
module Preloader {
  import opened Wrappers

  /** One asset record: bytes loaded, whether it answered 200, and the total once a progress event gave one. */
  datatype Asset = Asset(loaded: nat, complete: bool, total: Option<nat>)

  const Fresh := Asset(0, false, None)

  /**
   * What completion removes from the container: the overlay with the
   * progress bar built when no `onProgress` was given, or `document.body`,
   * the initial `domElement`, when one was.
   */
  datatype Overlay = Bar | Body

  /** A progress value, `loaded / total`, kept as the two sums (the division is not taken). */
  datatype Ratio = Ratio(loaded: nat, total: nat)

  datatype Preloader = Preloader(
    keys: seq<string>,            // the record keys, in insertion order
    assets: map<string, Asset>,
    requests: seq<string>,        // one request per listed URL, duplicates included
    overlay: Overlay,
    attached: bool,               // whether `overlay` is a child of the container
    reports: seq<Ratio>,          // every value handed to `onProgress`
    completions: nat)             // how often `onComplete` ran

  predicate NoDup(ks: seq<string>) {
    forall i, j :: 0 <= i < j < |ks| ==> ks[i] != ks[j]
  }

  predicate Valid(p: Preloader) {
    NoDup(p.keys) && (forall k :: k in p.keys ==> k in p.assets) && (forall k :: k in p.assets ==> k in p.keys)
  }

  /** The keys of `assets[url] = ...` over a list: first occurrences, in order. */
  function Keys(urls: seq<string>): (ks: seq<string>)
    ensures NoDup(ks) && (forall u :: u in ks <==> u in urls)
    decreases |urls|
  {
    if |urls| == 0 then []
    else
      var ks := Keys(urls[..|urls| - 1]);
      var u := urls[|urls| - 1];
      assert forall v :: v in urls <==> v in urls[..|urls| - 1] || v == u;
      if u in ks then ks else ks + [u]
  }

  /**
   * The constructor: a fresh record per URL and one request each; without
   * `onProgress` the bar overlay is appended to the container, with one
   * `document.body` is what completion will remove, and it is a child of the
   * container only if `bodyInContainer`.
   */
  function New(urls: seq<string>, customProgress: bool, bodyInContainer: bool): (r: Preloader)
    ensures Valid(r) && r.requests == urls && r.reports == [] && r.completions == 0
    ensures forall u :: u in urls <==> u in r.assets
    ensures forall u :: u in r.assets ==> r.assets[u] == Fresh
    ensures customProgress <==> r.overlay == Body
    ensures !customProgress ==> r.attached
  {
    var ks := Keys(urls);
    Preloader(ks, map u | u in ks :: Fresh, urls,
              if customProgress then Body else Bar,
              if customProgress then bodyInContainer else true, [], 0)
  }

  predicate AllComplete(p: Preloader)
    requires Valid(p)
  {
    forall i :: 0 <= i < |p.keys| ==> p.assets[p.keys[i]].complete
  }

  /** `checkCompleted()`: the first incomplete record answers false; with no records the answer is true. */
  method CheckCompleted(p: Preloader) returns (done: bool)
    requires Valid(p)
    ensures done <==> (forall u :: u in p.assets ==> p.assets[u].complete)
    ensures |p.keys| == 0 ==> done
  {
    var i := 0;
    while i < |p.keys|
      invariant 0 <= i <= |p.keys|
      invariant forall j :: 0 <= j < i ==> p.assets[p.keys[j]].complete
    {
      if !p.assets[p.keys[i]].complete {
        return false;
      }
      i := i + 1;
    }
    assert forall u :: u in p.assets ==> exists j :: 0 <= j < |p.keys| && p.keys[j] == u;
    return true;
  }

  // ---------------------------------------------------------------- progress

  predicate AllKnown(ks: seq<string>, assets: map<string, Asset>)
    requires forall k :: k in ks ==> k in assets
  {
    forall i :: 0 <= i < |ks| ==> assets[ks[i]].total.Some?
  }

  function SumLoaded(ks: seq<string>, assets: map<string, Asset>): nat
    requires forall k :: k in ks ==> k in assets
    decreases |ks|
  {
    if |ks| == 0 then 0 else assets[ks[0]].loaded + SumLoaded(ks[1..], assets)
  }

  function SumTotal(ks: seq<string>, assets: map<string, Asset>): nat
    requires forall k :: k in ks ==> k in assets
    decreases |ks|
  {
    if |ks| == 0 then 0 else assets[ks[0]].total.GetOr(0) + SumTotal(ks[1..], assets)
  }

  /** The position of the first record without a total. */
  function FirstUnknown(ks: seq<string>, assets: map<string, Asset>): (n: nat)
    requires forall k :: k in ks ==> k in assets
    requires !AllKnown(ks, assets)
    ensures n < |ks| && assets[ks[n]].total.None?
    ensures forall i :: 0 <= i < n ==> assets[ks[i]].total.Some?
    decreases |ks|
  {
    if assets[ks[0]].total.None? then 0
    else
      var n := FirstUnknown(ks[1..], assets);
      assert forall i :: 0 < i <= n ==> ks[i] == ks[1..][i - 1];
      n + 1
  }

  /**
   * The scan of `get progress()` from the given sums on: loaded and total are
   * summed over the records, and the first record without a total resets
   * loaded to zero and stops the scan.
   */
  function Scan(ks: seq<string>, assets: map<string, Asset>, loaded: nat, total: nat): (r: Ratio)
    requires forall k :: k in ks ==> k in assets
    ensures AllKnown(ks, assets) ==> r == Ratio(loaded + SumLoaded(ks, assets), total + SumTotal(ks, assets))
    ensures !AllKnown(ks, assets) ==>
      r == Ratio(0, total + SumTotal(ks[..FirstUnknown(ks, assets)], assets))
    decreases |ks|
  {
    if |ks| == 0 then Ratio(loaded, total)
    else
      var a := assets[ks[0]];
      if a.total.None? then
        assert ks[..0] == [];
        Ratio(0, total)
      else
        var r := Scan(ks[1..], assets, loaded + a.loaded, total + a.total.value);
        assert AllKnown(ks, assets) <==> AllKnown(ks[1..], assets) by {
          assert forall i :: 0 < i < |ks| ==> ks[i] == ks[1..][i - 1];
        }
        if !AllKnown(ks, assets) then
          PrefixTotal(ks, assets);
          r
        else r
  }

  lemma PrefixTotal(ks: seq<string>, assets: map<string, Asset>)
    requires forall k :: k in ks ==> k in assets
    requires !AllKnown(ks, assets) && assets[ks[0]].total.Some?
    ensures !AllKnown(ks[1..], assets)
    ensures FirstUnknown(ks, assets) == FirstUnknown(ks[1..], assets) + 1
    ensures SumTotal(ks[..FirstUnknown(ks, assets)], assets) ==
            assets[ks[0]].total.value + SumTotal(ks[1..][..FirstUnknown(ks[1..], assets)], assets)
  {
    var n := FirstUnknown(ks, assets);
    assert ks[..n][1..] == ks[1..][..n - 1];
  }

  /** `get progress()` over the records in key order. */
  function Progress(p: Preloader): (r: Ratio)
    requires Valid(p)
    ensures AllKnown(p.keys, p.assets) ==> r == Ratio(SumLoaded(p.keys, p.assets), SumTotal(p.keys, p.assets))
    ensures !AllKnown(p.keys, p.assets) ==> r.loaded == 0
  {
    Scan(p.keys, p.assets, 0, 0)
  }

  // ---------------------------------------------------------------- request events

  /** `xobj.onprogress`: the record takes the event's counts, then the progress is reported. */
  function OnProgress(p: Preloader, url: string, loaded: nat, total: nat): (r: Preloader)
    requires Valid(p) && url in p.assets
    ensures Valid(r) && r.keys == p.keys && r.overlay == p.overlay && r.attached == p.attached
    ensures r.assets == p.assets[url := p.assets[url].(loaded := loaded, total := Some(total))]
    ensures r.reports == p.reports + [Progress(r)] && r.completions == p.completions
  {
    var p1 := p.(assets := p.assets[url := p.assets[url].(loaded := loaded, total := Some(total))]);
    p1.(reports := p.reports + [Progress(p1)])
  }

  /**
   * `xobj.onreadystatechange` as written: a 200 answer marks the record
   * complete; once all are complete the overlay is removed from the
   * container and `onComplete` runs.  Removing an element that is not a
   * child throws, which skips `onComplete`; the record stays complete.
   */
  function OnReadyStateChange(p: Preloader, url: string, readyState: nat, status: nat): (r: (Preloader, Option<string>))
    requires Valid(p) && url in p.assets
    ensures Valid(r.0) && r.0.keys == p.keys && r.0.reports == p.reports
    ensures !(readyState == 4 && status == 200) ==> r == (p, None)
    ensures readyState == 4 && status == 200 ==> r.0.assets == p.assets[url := p.assets[url].(complete := true)]
    ensures r.0.completions == p.completions + 1 <==>
            readyState == 4 && status == 200 && AllComplete(r.0) && p.attached
    ensures r.1.Some? <==> readyState == 4 && status == 200 && AllComplete(r.0) && !p.attached
  {
    if !(readyState == 4 && status == 200) then (p, None)
    else
      var p1 := p.(assets := p.assets[url := p.assets[url].(complete := true)]);
      if !AllComplete(p1) then (p1, None)
      else if !p1.attached then (p1, Some("NotFoundError: The node to be removed is not a child of this node."))
      else (p1.(attached := false, completions := p.completions + 1), None)
  }

  /**
   * The completion step as evidently intended: with a custom `onProgress`
   * there is no overlay of the preloader's own, nothing is removed, and
   * `onComplete` runs once everything is complete.
   */
  function OnReadyStateChangeIntended(p: Preloader, url: string, readyState: nat, status: nat): (r: (Preloader, Option<string>))
    requires Valid(p) && url in p.assets
    ensures Valid(r.0) && r.0.keys == p.keys && r.0.reports == p.reports
    ensures p.overlay == Body ==> r.1.None?
    ensures p.overlay == Bar ==> r == OnReadyStateChange(p, url, readyState, status)
    ensures p.overlay == Body ==>
      (r.0.completions == p.completions + 1 <==> readyState == 4 && status == 200 && AllComplete(r.0))
  {
    if p.overlay == Bar then OnReadyStateChange(p, url, readyState, status)
    else if !(readyState == 4 && status == 200) then (p, None)
    else
      var p1 := p.(assets := p.assets[url := p.assets[url].(complete := true)]);
      if AllComplete(p1) then (p1.(completions := p.completions + 1), None) else (p1, None)
  }

  // ---------------------------------------------------------------- properties

  /** Once every record has its total and has loaded all of it, the progress is whole. */
  lemma {:induction false} FinishedIsWhole(ks: seq<string>, assets: map<string, Asset>)
    requires forall k :: k in ks ==> k in assets
    requires forall i :: 0 <= i < |ks| ==> assets[ks[i]].total == Some(assets[ks[i]].loaded)
    ensures SumLoaded(ks, assets) == SumTotal(ks, assets)
    decreases |ks|
  {
    if |ks| > 0 {
      assert forall i :: 0 <= i < |ks| - 1 ==> ks[1..][i] == ks[i + 1];
      FinishedIsWhole(ks[1..], assets);
    }
  }

  /** Counterexample: with a custom `onProgress` and an ordinary container, the one asset's 200 answer never reaches `onComplete`. */
  lemma CustomProgressNeverCompletes()
    ensures var p := New(["scene.json"], true, false);
            var (p1, err) := OnReadyStateChange(p, "scene.json", 4, 200);
            AllComplete(p1) && err.Some? && p1.completions == 0
  {
    var p := New(["scene.json"], true, false);
    assert p.keys == ["scene.json"];
  }

  /** With the intended completion step the same run calls `onComplete` once and raises nothing. */
  lemma CustomProgressCompletes()
    ensures var p := New(["scene.json"], true, false);
            var (p1, err) := OnReadyStateChangeIntended(p, "scene.json", 4, 200);
            err.None? && p1.completions == 1
  {
    var p := New(["scene.json"], true, false);
    assert p.keys == ["scene.json"];
  }

  /**
   * A URL listed twice is one record but two requests: the second 200
   * answer finds the bar overlay already removed and throws, so
   * `onComplete` still runs once.
   */
  lemma {:induction false} DuplicateUrlCompletesOnce(u: string)
    ensures var p := New([u, u], false, false);
            var (p1, e1) := OnReadyStateChange(p, u, 4, 200);
            var (p2, e2) := OnReadyStateChange(p1, u, 4, 200);
            p.requests == [u, u] && |p.keys| == 1 && e1.None? && e2.Some? && p2.completions == 1
  {
    var p := New([u, u], false, false);
    assert [u][..0] == [];
    assert Keys([u]) == [u];
    assert [u, u][..1] == [u];
    assert p.keys == [u];
  }

  /** A request that has not finished with 200 changes nothing, and `onComplete` waits while another record is incomplete. */
  lemma WaitsForEveryAsset(p: Preloader, url: string, other: string)
    requires Valid(p) && url in p.assets && other in p.assets && other != url && !p.assets[other].complete
    ensures OnReadyStateChange(p, url, 4, 200).0.completions == p.completions
    ensures OnReadyStateChange(p, url, 4, 200).1.None?
  {
    var i :| 0 <= i < |p.keys| && p.keys[i] == other;
    var p1 := p.(assets := p.assets[url := p.assets[url].(complete := true)]);
    assert !p1.assets[p1.keys[i]].complete;
    assert !AllComplete(p1);
  }
}

=== FILE: profile_view.dfy ===
/**
 * The profile picker (src/app/3d/views/ProfileView.ts): one model per
 * profile laid out along x, a wrap-around selection moved by the arrow
 * keys, and `save`/`exit` events for the page around it.
 */
module ProfileView {
  import V = View

  /** Spacing between profile models, and the camera step per selection step. */
  const DELTA: real := 50.0

  /** The profile table of src/app/3d/Player.ts (not the character one). */
  const ProfileMap: seq<string> := [
    "Doctor", "BeachBabe", "FireFighter", "Robber", "Policeman", "Prostitute", "Punk", "Waitress"]

  /** The `Player` created for one table entry, by its construction parameters. */
  datatype Profile = Profile(name: string, profileId: int, x: real)

  datatype ProfileView = ProfileView(
    view: V.View,
    profiles: seq<Profile>,
    profileId: int,
    cameraMoves: seq<real>)   // the x offsets passed to the perspective manager's `move`, oldest first

  const Initial := ProfileView(V.Initial, [], 0, [])

  /** `mount`: append one profile per table entry k, named after it and placed at x = k·DELTA. */
  function Mount(pv: ProfileView): (r: ProfileView)
    ensures |r.profiles| == |pv.profiles| + |ProfileMap| && r.profiles[..|pv.profiles|] == pv.profiles
    ensures forall k :: 0 <= k < |ProfileMap| ==>
              r.profiles[|pv.profiles| + k] == Profile("model_" + ProfileMap[k], k, k as real * DELTA)
    ensures r.profileId == pv.profileId && r.view == pv.view && r.cameraMoves == pv.cameraMoves
  {
    var added := seq(|ProfileMap|, k requires 0 <= k < |ProfileMap| =>
                       Profile("model_" + ProfileMap[k], k, k as real * DELTA));
    pv.(profiles := pv.profiles + added)
  }

  /** The clamp of the `profileID` setter for a table of `n` profiles. */
  function Wrap(v: int, n: int): int {
    if v >= n then 0 else if v < 0 then n - 1 else v
  }

  /** The `profileID` setter: wrap, move the camera by the change times DELTA, store. */
  function SetProfile(pv: ProfileView, v: int): (r: ProfileView)
    ensures |pv.profiles| > 0 ==> 0 <= r.profileId < |pv.profiles|
    ensures 0 <= v < |pv.profiles| ==> r.profileId == v
    ensures v >= |pv.profiles| ==> r.profileId == 0
    ensures v < 0 && |pv.profiles| > 0 ==> r.profileId == |pv.profiles| - 1
    ensures r.cameraMoves == pv.cameraMoves + [(r.profileId - pv.profileId) as real * DELTA]
    ensures r.profiles == pv.profiles && r.view == pv.view
  {
    var val := Wrap(v, |pv.profiles|);
    pv.(cameraMoves := pv.cameraMoves + [(val - pv.profileId) as real * DELTA], profileId := val)
  }

  /** The key-up handler. */
  function KeyUp(pv: ProfileView, key: string): (r: ProfileView)
    ensures key == "a" || key == "ArrowLeft" ==> r == SetProfile(pv, pv.profileId - 1)
    ensures key == "d" || key == "ArrowRight" ==> r == SetProfile(pv, pv.profileId + 1)
    ensures key == "Enter" || key == " " ==> r == pv.(view := V.Emit(pv.view, "save", [pv.profileId]))
    ensures key == "Escape" ==> r == pv.(view := V.Emit(pv.view, "exit", []))
    ensures key !in {"a", "ArrowLeft", "d", "ArrowRight", "Enter", " ", "Escape"} ==> r == pv
  {
    if key == "a" || key == "ArrowLeft" then SetProfile(pv, pv.profileId - 1)
    else if key == "d" || key == "ArrowRight" then SetProfile(pv, pv.profileId + 1)
    else if key == "Enter" || key == " " then pv.(view := V.Emit(pv.view, "save", [pv.profileId]))
    else if key == "Escape" then pv.(view := V.Emit(pv.view, "exit", []))
    else pv
  }

  // ---------------------------------------------------------------- properties

  function Sum(s: seq<real>): real {
    if |s| == 0 then 0.0 else Sum(s[..|s| - 1]) + s[|s| - 1]
  }

  /** The camera has travelled exactly to the selected profile's model. */
  predicate CameraInSync(pv: ProfileView) {
    Sum(pv.cameraMoves) == pv.profileId as real * DELTA
  }

  /** Every key keeps the camera over the selected profile. */
  lemma {:induction false} KeyUpKeepsCameraInSync(pv: ProfileView, key: string)
    requires CameraInSync(pv)
    ensures CameraInSync(KeyUp(pv, key))
  {
    var r := KeyUp(pv, key);
    if r.cameraMoves != pv.cameraMoves {
      assert r.cameraMoves[..|r.cameraMoves| - 1] == pv.cameraMoves;
    }
  }

  /** Mounting keeps the camera over the selected profile. */
  lemma MountKeepsCameraInSync(pv: ProfileView)
    requires CameraInSync(pv)
    ensures CameraInSync(Mount(pv))
  {
  }

  /** Stepping right from the last profile lands on the first, and left from the first on the last. */
  lemma WrapsAround(pv: ProfileView)
    requires |pv.profiles| > 0
    ensures pv.profileId == |pv.profiles| - 1 ==> KeyUp(pv, "ArrowRight").profileId == 0
    ensures pv.profileId == 0 ==> KeyUp(pv, "a").profileId == |pv.profiles| - 1
  {
  }

  /** Inside the table, left undoes right. */
  lemma LeftUndoesRight(pv: ProfileView)
    requires 0 <= pv.profileId < |pv.profiles|
    ensures KeyUp(KeyUp(pv, "d"), "a").profileId == pv.profileId
  {
  }

  /** Enter reports the current selection to the `save` listener, and only that. */
  lemma SaveReportsSelection(pv: ProfileView, l: V.ListenerId)
    requires "save" in pv.view.eventMap && pv.view.eventMap["save"] == [l]
    ensures var r := KeyUp(pv, "Enter");
            r.view.delivered == pv.view.delivered + [V.Call(l, [pv.profileId])]
  {
    var r := KeyUp(pv, "Enter");
    assert |r.view.delivered| == |pv.view.delivered| + 1;
    assert r.view.delivered[..|pv.view.delivered|] == pv.view.delivered;
  }
}

=== FILE: renderable.dfy ===
/**
 * Scene-node wrapper (src/app/3d/utils/Renderable.ts).
 *
 * Every instance starts with its `state` pointing at the one module-level
 * `defaultParams` object, and `update` merges into that object in place, so
 * the state is shared by all instances.  The model makes the sharing visible
 * with a small heap of state records addressed by reference.
 */
module Renderable {
  import opened Wrappers
  import opened Basics

  /** A transform argument: an array (applied with `set`) or a single number (a method call). */
  datatype TransformArg = Triple(a: real, b: real, c: real) | Scalar(v: real)

  /** One key of an `ITransformType` record, in the key order `Object.keys` reports. */
  datatype TransformEntry = TransformEntry(key: string, arg: TransformArg)

  type Transform = seq<TransformEntry>

  /**
   * One call `update` makes on the three.js object: `position.set`, or the
   * replay of one transform entry (a vector `set` or a method call such as
   * `translateX`, which moves the object from wherever it stands).
   */
  datatype NodeOp =
    | PositionSet(p: Vec3)
    | VectorSet(property: string, a: real, b: real, c: real)
    | MethodCall(fn: string, arg: real)

  /** `IRenderableDefault` plus the optional transform. */
  datatype State = State(
    name: string, x: real, y: real, z: real,
    width: real, height: real, depth: real, color: string,
    transform: Option<Transform>)

  /** `IRenderable`: every key may be absent. */
  datatype Params = Params(
    name: Option<string>, x: Option<real>, y: Option<real>, z: Option<real>,
    width: Option<real>, height: Option<real>, depth: Option<real>, color: Option<string>,
    transform: Option<Transform>)

  const NoParams := Params(None, None, None, None, None, None, None, None, None)

  const DefaultState := State("", 0.0, 0.0, 0.0, 0.0, 0.0, 0.0, "#ffffff", None)

  /**
   * The observable part of the wrapped three.js group: its name and the
   * calls made on it, oldest first.  The log keeps the order, so a later
   * `position.set` is seen to come after the translations it overrides.
   */
  datatype Node = Node(name: string, ops: seq<NodeOp>)

  const FreshNode := Node("", [])

  /** One `Renderable` instance: a reference to its state record and its own group. */
  datatype Instance = Instance(stateRef: nat, group: ObjId, node: Node)

  type InstId = nat

  /**
   * All renderables of a program run: the state heap, the instances, and the
   * parent links `Object3D.add` maintains.
   */
  datatype World = World(
    heap: map<nat, State>,
    instances: map<InstId, Instance>,
    parentOf: map<ObjId, ObjId>,
    nextObject: ObjId)

  /** Address of the module-level `defaultParams` object. */
  const DefaultRef: nat := 0

  const InitialWorld := World(map[DefaultRef := DefaultState], map[], map[], 0)

  /** Every instance's state reference points into the heap. */
  ghost predicate Valid(w: World) {
    DefaultRef in w.heap &&
    forall i :: i in w.instances ==> w.instances[i].stateRef in w.heap
  }

  /** Every instance still points at the module-level default object. */
  ghost predicate AllShareDefaults(w: World) {
    forall i :: i in w.instances ==> w.instances[i].stateRef == DefaultRef
  }

  function StateOf(w: World, i: InstId): State
    requires Valid(w) && i in w.instances
  {
    w.heap[w.instances[i].stateRef]
  }

  /** `Object.assign(state, params)`: supplied keys override, absent keys keep their value. */
  function Merge(s: State, p: Params): (r: State)
    ensures p.name.Some? ==> r.name == p.name.value
    ensures p.name.None? ==> r.name == s.name
    ensures p.x.Some? ==> r.x == p.x.value
    ensures p.x.None? ==> r.x == s.x
    ensures p.y.Some? ==> r.y == p.y.value
    ensures p.y.None? ==> r.y == s.y
    ensures p.z.Some? ==> r.z == p.z.value
    ensures p.z.None? ==> r.z == s.z
    ensures p.width.Some? ==> r.width == p.width.value
    ensures p.width.None? ==> r.width == s.width
    ensures p.height.Some? ==> r.height == p.height.value
    ensures p.height.None? ==> r.height == s.height
    ensures p.depth.Some? ==> r.depth == p.depth.value
    ensures p.depth.None? ==> r.depth == s.depth
    ensures p.color.Some? ==> r.color == p.color.value
    ensures p.color.None? ==> r.color == s.color
    ensures p.transform.Some? ==> r.transform == p.transform
    ensures p.transform.None? ==> r.transform == s.transform
  {
    State(
      p.name.GetOr(s.name), p.x.GetOr(s.x), p.y.GetOr(s.y), p.z.GetOr(s.z),
      p.width.GetOr(s.width), p.height.GetOr(s.height), p.depth.GetOr(s.depth),
      p.color.GetOr(s.color),
      if p.transform.Some? then p.transform else s.transform)
  }

  /** The operation replaying one transform entry performs. */
  function OpOf(e: TransformEntry): NodeOp {
    match e.arg
    case Triple(a, b, c) => VectorSet(e.key, a, b, c)
    case Scalar(v) => MethodCall(e.key, v)
  }

  /** Replaying a transform: one operation per key, in key order. */
  function TransformOps(t: Transform): (ops: seq<NodeOp>)
    ensures |ops| == |t|
    ensures forall k :: 0 <= k < |t| && t[k].arg.Triple? ==>
      ops[k] == VectorSet(t[k].key, t[k].arg.a, t[k].arg.b, t[k].arg.c)
    ensures forall k :: 0 <= k < |t| && t[k].arg.Scalar? ==>
      ops[k] == MethodCall(t[k].key, t[k].arg.v)
  {
    if |t| == 0 then [] else [OpOf(t[0])] + TransformOps(t[1..])
  }

  /** The calls one `update` makes with the merged state `s`: set the position, then replay the transform. */
  function UpdateOps(s: State): seq<NodeOp> {
    [PositionSet(Vec3(s.x, s.y, s.z))] + (if s.transform.Some? then TransformOps(s.transform.value) else [])
  }

  /**
   * What `update` does to the group once the merged state is known: the
   * name, then `position.set` to the merged position, then one call per
   * merged transform entry, none of them a position set.
   */
  function Apply(n: Node, s: State): (r: Node)
    ensures r.name == s.name
    ensures |r.ops| == |n.ops| + 1 + (if s.transform.Some? then |s.transform.value| else 0)
    ensures r.ops[..|n.ops|] == n.ops
    ensures r.ops[|n.ops|] == PositionSet(Vec3(s.x, s.y, s.z))
    ensures forall k :: |n.ops| < k < |r.ops| ==> !r.ops[k].PositionSet?
    ensures s.transform.Some? ==> r.ops[|n.ops| + 1..] == TransformOps(s.transform.value)
  {
    var r := Node(s.name, n.ops + UpdateOps(s));
    assert r.ops[|n.ops| + 1..] == if s.transform.Some? then TransformOps(s.transform.value) else [];
    r
  }

  /**
   * `update(params)`: merge into the referenced state object (in place, so
   * every instance sharing it sees the change), then set position and name
   * and replay the merged transform.
   */
  function Update(w: World, i: InstId, p: Params): (r: World)
    requires Valid(w) && i in w.instances
    ensures Valid(r)
    ensures r.instances.Keys == w.instances.Keys
    ensures r.heap.Keys == w.heap.Keys && r.parentOf == w.parentOf
    ensures StateOf(r, i) == Merge(StateOf(w, i), p)
    ensures r.instances[i].node.ops == w.instances[i].node.ops + UpdateOps(StateOf(r, i))
    ensures r.instances[i].node.name == StateOf(r, i).name
    ensures forall j :: j in w.instances && j != i ==> r.instances[j] == w.instances[j]
    ensures forall j :: j in w.instances ==> r.instances[j].stateRef == w.instances[j].stateRef
  {
    var inst := w.instances[i];
    var merged := Merge(w.heap[inst.stateRef], p);
    w.(heap := w.heap[inst.stateRef := merged],
       instances := w.instances[i := inst.(node := Apply(inst.node, merged))])
  }

  /** `transform(t)` is `update({ transform: t })`. */
  function TransformNode(w: World, i: InstId, t: Transform): (r: World)
    requires Valid(w) && i in w.instances
    ensures Valid(r) && r.instances.Keys == w.instances.Keys
    ensures StateOf(r, i).transform == Some(t)
    ensures var s := StateOf(r, i);
            r.instances[i].node.ops == w.instances[i].node.ops + [PositionSet(Vec3(s.x, s.y, s.z))] + TransformOps(t)
  {
    Update(w, i, NoParams.(transform := Some(t)))
  }

  /** `new Renderable(params)`: a fresh group, the shared default state, then `update(params)`. */
  function Construct(w: World, i: InstId, p: Params): (r: World)
    requires Valid(w) && i !in w.instances
    ensures Valid(r) && r.instances.Keys == w.instances.Keys + {i}
    ensures r.instances[i].stateRef == DefaultRef
    ensures r.instances[i].group == w.nextObject && r.nextObject == w.nextObject + 1
    ensures StateOf(r, i) == Merge(w.heap[DefaultRef], p)
    ensures forall j :: j in w.instances ==> r.instances[j].stateRef == w.instances[j].stateRef
  {
    var w1 := w.(instances := w.instances[i := Instance(DefaultRef, w.nextObject, FreshNode)],
                 nextObject := w.nextObject + 1);
    Update(w1, i, p)
  }

  /** The argument of `add`: a `Renderable` or a raw three.js object. */
  datatype Child = OfRenderable(inst: InstId) | RawObject(obj: ObjId)

  function ObjectOfChild(w: World, c: Child): ObjId
    requires c.OfRenderable? ==> c.inst in w.instances
  {
    match c
    case OfRenderable(j) => w.instances[j].group
    case RawObject(o) => o
  }

  /** `add(child)`: the child's underlying object becomes a child of this group. */
  function Add(w: World, i: InstId, c: Child): (r: World)
    requires i in w.instances && (c.OfRenderable? ==> c.inst in w.instances)
    ensures r.parentOf.Keys == w.parentOf.Keys + {ObjectOfChild(w, c)}
    ensures r.parentOf[ObjectOfChild(w, c)] == w.instances[i].group
    ensures forall o :: o in w.parentOf && o != ObjectOfChild(w, c) ==> r.parentOf[o] == w.parentOf[o]
    ensures r.instances == w.instances && r.heap == w.heap
  {
    w.(parentOf := w.parentOf[ObjectOfChild(w, c) := w.instances[i].group])
  }

  // ---------------------------------------------------------------- properties

  /** Construction and update keep every instance on the shared default object. */
  lemma SharingPreserved(w: World, i: InstId, p: Params)
    requires Valid(w) && AllShareDefaults(w)
    ensures i !in w.instances ==> AllShareDefaults(Construct(w, i, p))
    ensures i in w.instances ==> AllShareDefaults(Update(w, i, p))
  {
  }

  /** An update through one instance is what every other instance records. */
  lemma UpdateVisibleToAll(w: World, i: InstId, j: InstId, p: Params)
    requires Valid(w) && AllShareDefaults(w)
    requires i in w.instances && j in w.instances
    ensures StateOf(Update(w, i, p), j) == Merge(StateOf(w, i), p)
  {
  }

  /** A concrete run: naming the second node renames the state the first one records. */
  lemma SecondInstanceRenamesFirst()
    ensures var w1 := Construct(InitialWorld, 1, NoParams.(name := Some("a")));
            var w2 := Construct(w1, 2, NoParams.(name := Some("b")));
            StateOf(w2, 1).name == "b"
  {
    var w1 := Construct(InitialWorld, 1, NoParams.(name := Some("a")));
    SharingPreserved(InitialWorld, 1, NoParams.(name := Some("a")));
    var w2 := Construct(w1, 2, NoParams.(name := Some("b")));
    assert w2.instances[1].stateRef == DefaultRef;
  }

  /**
   * A transform stays in the merged state: any later update without a
   * transform key sets the position again and replays the transform again.
   */
  lemma {:induction false} TransformReplayed(w: World, i: InstId, t: Transform, p: Params)
    requires Valid(w) && i in w.instances && p.transform.None?
    ensures var w1 := TransformNode(w, i, t);
            var w2 := Update(w1, i, p);
            var s1 := StateOf(w1, i);
            var s2 := StateOf(w2, i);
            w2.instances[i].node.ops ==
              w.instances[i].node.ops + [PositionSet(Vec3(s1.x, s1.y, s1.z))] + TransformOps(t) +
              [PositionSet(Vec3(s2.x, s2.y, s2.z))] + TransformOps(t)
  {
    var w1 := TransformNode(w, i, t);
    assert StateOf(Update(w1, i, p), i).transform == Some(t);
  }

  /**
   * Each update starts over from the merged position: in the calls it makes,
   * the position set comes first and every later call is a transform replay.
   */
  lemma {:induction false} UpdateResetsPosition(w: World, i: InstId, p: Params)
    requires Valid(w) && i in w.instances
    ensures var r := Update(w, i, p);
            var s := StateOf(r, i);
            var old_ := w.instances[i].node.ops;
            var ops := r.instances[i].node.ops;
            ops[|old_|] == PositionSet(Vec3(s.x, s.y, s.z)) &&
            forall k :: |old_| < k < |ops| ==> !ops[k].PositionSet?
  {
    var r := Update(w, i, p);
    var s := StateOf(r, i);
    var n := w.instances[i].node;
    assert r.instances[i].node == Apply(n, s);
  }

  /** Merging is idempotent: applying the same update twice equals applying it once. */
  lemma MergeIdempotent(s: State, p: Params)
    ensures Merge(Merge(s, p), p) == Merge(s, p)
  {
  }
}

=== FILE: scene_manager.dfy ===
/**
 * The scene registry (src/app/3d/managers/SceneManager.ts): named scenes
 * created on first use, one active scene, per-scene lights rebuilt from
 * merged parameters, and the renderables added to the active scene.
 */
module SceneManager {
  import opened Wrappers
  import opened Basics

  /** A parameter key of `ISceneParams`: absent, explicitly `null`, or a value. */
  datatype Slot = Absent | Null | Val(v: int)

  /** The scene parameters; `light` is a key only the defaults use. */
  datatype Params = Params(background: Slot, ambient: Slot, sun: Slot, light: Slot, axes: Option<bool>)

  const NoParams := Params(Absent, Absent, Absent, Absent, None)

  /** `defaultParams()`: note it sets `light`, not `sun`. */
  const DefaultParams := Params(Val(0xa0a0a0), Val(0xaaaaaa), Absent, Val(0xaaaaaa), Some(false))

  /** A light object, told apart from equal-coloured ones by a creation serial. */
  datatype Light = Ambient(color: int, serial: nat) | Sun(color: int, serial: nat)

  datatype Child = LightChild(light: Light) | ObjectChild(obj: ObjId)

  datatype Scene = Scene(background: Slot, children: set<Child>)

  /** `ISceneState`: the lights currently owned and the renderables added, in insertion order. */
  datatype SceneState = SceneState(ambient: Option<Light>, sun: Option<Light>, renderables: seq<ObjId>)

  datatype Manager = Manager(
    activeName: Option<string>,
    scenes: map<string, Scene>,
    states: map<string, SceneState>,
    params: map<string, Params>,
    nextSerial: nat)

  const Initial := Manager(None, map[], map[], map[], 0)

  /** The three maps describe the same scenes, and the active one exists. */
  predicate Valid(m: Manager) {
    m.scenes.Keys == m.states.Keys == m.params.Keys &&
    (m.activeName.Some? ==> m.activeName.value in m.scenes)
  }

  /** `Object.assign(old, params)`: present keys (null included) override. */
  function Merge(o: Params, p: Params): (r: Params)
    ensures p.background != Absent ==> r.background == p.background
    ensures p.background == Absent ==> r.background == o.background
    ensures p.ambient != Absent ==> r.ambient == p.ambient
    ensures p.ambient == Absent ==> r.ambient == o.ambient
    ensures p.sun != Absent ==> r.sun == p.sun
    ensures p.sun == Absent ==> r.sun == o.sun
    ensures p.light != Absent ==> r.light == p.light
    ensures p.light == Absent ==> r.light == o.light
    ensures r.axes == (if p.axes.Some? then p.axes else o.axes)
  {
    Params(if p.background == Absent then o.background else p.background,
           if p.ambient == Absent then o.ambient else p.ambient,
           if p.sun == Absent then o.sun else p.sun,
           if p.light == Absent then o.light else p.light,
           if p.axes.Some? then p.axes else o.axes)
  }

  function LightsOf(st: SceneState): set<Child> {
    (if st.ambient.Some? then {LightChild(st.ambient.value)} else {}) +
    (if st.sun.Some? then {LightChild(st.sun.value)} else {})
  }

  /**
   * `_update(name, params, oldParams)`: take the old lights out of the scene,
   * merge the parameters, then rebuild the ambient light (a `null` clears it)
   * and, only when a `sun` key is present, the sun.
   */
  function UpdateScene(m: Manager, name: string, p: Params, prev: Option<Params>): (r: Manager)
    requires name in m.scenes
    ensures r.params == m.params[name := Merge(prev.GetOr(NoParams), p)]
    ensures r.scenes.Keys == m.scenes.Keys && r.states.Keys == m.states.Keys + {name}
    ensures r.activeName == m.activeName
    ensures forall n :: n in m.scenes && n != name ==> r.scenes[n] == m.scenes[n]
    ensures forall n :: n in m.states && n != name ==> r.states[n] == m.states[n]
    ensures var np := Merge(prev.GetOr(NoParams), p);
            (np.ambient == Null ==> r.states[name].ambient.None?) &&
            (np.ambient.Val? ==> r.states[name].ambient.Some? &&
                                 r.states[name].ambient.value.color == np.ambient.v &&
                                 LightChild(r.states[name].ambient.value) in r.scenes[name].children) &&
            (np.sun == Absent && name !in m.states ==> r.states[name].sun.None?) &&
            (np.sun == Null ==> r.states[name].sun.None?) &&
            (np.sun.Val? ==> r.states[name].sun.Some? && r.states[name].sun.value.color == np.sun.v) &&
            r.scenes[name].background == np.background
    ensures name in m.states ==> r.states[name].renderables == m.states[name].renderables
    ensures name !in m.states ==> r.states[name].renderables == []
  {
    var scene := m.scenes[name];
    var st := if name in m.states then m.states[name] else SceneState(None, None, []);
    var children := if name in m.states then scene.children - LightsOf(st) else scene.children;
    var np := Merge(prev.GetOr(NoParams), p);
    var serial := m.nextSerial;
    var (amb, children1) :=
      match np.ambient
      case Absent => (st.ambient, children)
      case Null => (None, children)
      case Val(c) => (Some(Ambient(c, serial)), children + {LightChild(Ambient(c, serial))});
    var (sun, children2) :=
      match np.sun
      case Absent => (st.sun, children1)
      case Null => (None, children1)
      case Val(c) => (Some(Sun(c, serial + 1)), children1 + {LightChild(Sun(c, serial + 1))});
    m.(scenes := m.scenes[name := Scene(np.background, children2)],
       states := m.states[name := st.(ambient := amb, sun := sun)],
       params := m.params[name := np],
       nextSerial := serial + 2)
  }

  /** `get(name, params)`: create and configure the scene only when the name is new. */
  function Get(m: Manager, name: string, p: Option<Params>): (r: Manager)
    requires Valid(m)
    ensures Valid(r) && name in r.scenes
    ensures name in m.scenes ==> r == m
    ensures name !in m.scenes ==>
      r.scenes.Keys == m.scenes.Keys + {name} &&
      r.params[name] == Merge(DefaultParams, p.GetOr(NoParams)) &&
      r.states[name].renderables == [] && r.activeName == m.activeName &&
      forall n :: n in m.scenes ==>
        (r.scenes[n] == m.scenes[n] && r.states[n] == m.states[n] && r.params[n] == m.params[n])
  {
    if name in m.scenes then m
    else
      var m1 := m.(scenes := m.scenes[name := Scene(Absent, {})]);
      UpdateScene(m1, name, p.GetOr(NoParams), Some(DefaultParams))
  }

  /** `switch(name, params)`: get (creating if needed) and make active. */
  function Switch(m: Manager, name: string, p: Option<Params>): (r: Manager)
    requires Valid(m)
    ensures Valid(r) && r.activeName == Some(name)
    ensures r == Get(m, name, p).(activeName := Some(name))
  {
    Get(m, name, p).(activeName := Some(name))
  }

  /** `update(params)`: merge into the active scene's stored parameters; a no-op without one. */
  function Update(m: Manager, p: Params): (r: Manager)
    requires Valid(m)
    ensures Valid(r)
    ensures m.activeName.None? ==> r == m
    ensures m.activeName.Some? ==>
      var a := m.activeName.value;
      r.params == m.params[a := Merge(m.params[a], p)] &&
      r.states[a].renderables == m.states[a].renderables &&
      forall n :: n in m.scenes && n != a ==> r.scenes[n] == m.scenes[n] && r.states[n] == m.states[n]
  {
    match m.activeName
    case None => m
    case Some(a) => UpdateScene(m, a, p, Some(m.params[a]))
  }

  /** The `renderables` getter. */
  function Renderables(m: Manager): (r: seq<ObjId>)
    requires Valid(m)
    ensures m.activeName.None? ==> r == []
    ensures m.activeName.Some? ==> r == m.states[m.activeName.value].renderables
  {
    match m.activeName
    case None => []
    case Some(a) => m.states[a].renderables
  }

  /**
   * `add(renderable)`: into the active scene's renderable set and its graph;
   * nothing without an active scene.  Hanging the object in the active scene
   * is three.js `Object3D.add`, which first takes it out of the parent it
   * had, so it leaves the graph of every other scene, while the other
   * scenes' renderable sets keep it.
   */
  function Add(m: Manager, obj: ObjId): (r: Manager)
    requires Valid(m)
    ensures Valid(r)
    ensures m.activeName.None? ==> r == m
    ensures m.activeName.Some? ==>
      var a := m.activeName.value;
      Valid(r) && obj in Renderables(r) && a in r.scenes && ObjectChild(obj) in r.scenes[a].children &&
      r.scenes[a] == m.scenes[a].(children := m.scenes[a].children + {ObjectChild(obj)}) &&
      (obj in m.states[a].renderables ==> r.states[a].renderables == m.states[a].renderables) &&
      (obj !in m.states[a].renderables ==> r.states[a].renderables == m.states[a].renderables + [obj]) &&
      r.params == m.params && r.activeName == m.activeName && r.scenes.Keys == m.scenes.Keys &&
      forall n :: n in m.scenes && n != a ==>
        r.scenes[n] == m.scenes[n].(children := m.scenes[n].children - {ObjectChild(obj)}) &&
        r.states[n] == m.states[n]
  {
    match m.activeName
    case None => m
    case Some(a) =>
      var st := m.states[a];
      var rs := if obj in st.renderables then st.renderables else st.renderables + [obj];
      var scenes := map n | n in m.scenes ::
        if n == a then m.scenes[n].(children := m.scenes[n].children + {ObjectChild(obj)})
        else m.scenes[n].(children := m.scenes[n].children - {ObjectChild(obj)});
      m.(scenes := scenes, states := m.states[a := st.(renderables := rs)])
  }

  /** One `renderer.render(scene, camera)` call. */
  datatype Frame = Frame(scene: Scene, camera: ObjId)

  /**
   * `render(camera)`: the renderer draws the active scene through the camera,
   * and is not called when either is missing.
   */
  function Render(m: Manager, camera: Option<ObjId>): (r: Option<Frame>)
    requires Valid(m)
    ensures r.Some? <==> m.activeName.Some? && camera.Some?
    ensures r.Some? ==> r.value.scene == m.scenes[m.activeName.value] && r.value.camera == camera.value
  {
    if m.activeName.Some? && camera.Some? then Some(Frame(m.scenes[m.activeName.value], camera.value)) else None
  }

  // ---------------------------------------------------------------- properties

  /** A fresh scene gets an ambient light but no sun: the defaults name the key `light`, not `sun`. */
  lemma FreshSceneHasNoSun(m: Manager, name: string)
    requires Valid(m) && name !in m.scenes
    ensures var r := Get(m, name, None);
            r.states[name].sun.None? && r.states[name].ambient.Some? &&
            r.states[name].ambient.value.color == 0xaaaaaa
  {
  }

  /** An explicit `null` ambient removes the active scene's ambient light. */
  lemma NullAmbientClears(m: Manager)
    requires Valid(m) && m.activeName.Some?
    ensures Update(m, NoParams.(ambient := Null)).states[m.activeName.value].ambient.None?
  {
  }

  /**
   * Once a camera exists, a switch makes the next render draw the scene
   * switched to, which a fresh switch lights with the default ambient light.
   */
  lemma RenderAfterSwitch(m: Manager, name: string, p: Option<Params>, camera: ObjId)
    requires Valid(m)
    ensures var r := Switch(m, name, p);
            Render(r, Some(camera)) == Some(Frame(r.scenes[name], camera))
    ensures var r := Switch(m, name, None);
            name !in m.scenes ==>
              r.states[name].ambient.Some? &&
              LightChild(r.states[name].ambient.value) in Render(r, Some(camera)).value.scene.children
  {
  }

  /**
   * What is added to the active scene is drawn with it, and is not drawn
   * after switching to any other scene, whether or not that scene held it
   * before.
   */
  lemma AddedIsDrawn(m: Manager, obj: ObjId, camera: ObjId, other: string)
    requires Valid(m) && m.activeName.Some?
    ensures ObjectChild(obj) in Render(Add(m, obj), Some(camera)).value.scene.children
    ensures other != m.activeName.value ==>
            ObjectChild(obj) !in Render(Switch(Add(m, obj), other, None), Some(camera)).value.scene.children
  {
  }

  /**
   * An object hangs in at most one scene graph after an add.  Adding it in
   * one scene, then in another, and switching back draws the first scene
   * without it, although that scene's renderable set still lists it.
   */
  lemma AddMovesObject(m: Manager, obj: ObjId, first: string, second: string, camera: ObjId)
    requires Valid(m) && first != second
    ensures m.activeName.Some? ==>
      var r := Add(m, obj);
      forall n :: n in r.scenes && ObjectChild(obj) in r.scenes[n].children ==> n == m.activeName.value
    ensures var m1 := Add(Switch(m, first, None), obj);
            var r := Switch(Add(Switch(m1, second, None), obj), first, None);
            ObjectChild(obj) !in Render(r, Some(camera)).value.scene.children && obj in Renderables(r)
  {
  }

  /** Switching twice to the same name changes nothing the second time. */
  lemma SwitchIdempotent(m: Manager, name: string, p: Option<Params>, q: Option<Params>)
    requires Valid(m)
    ensures Switch(Switch(m, name, p), name, q) == Switch(m, name, p)
  {
  }

  /** Adding to one scene and switching away leaves the other scene's renderables untouched. */
  lemma AddIsolatedToActive(m: Manager, obj: ObjId, other: string)
    requires Valid(m) && m.activeName.Some? && other in m.scenes && other != m.activeName.value
    ensures var r := Switch(Add(m, obj), other, None);
            Renderables(r) == m.states[other].renderables
  {
  }

  /** Updating with the parameters already stored leaves them stored unchanged. */
  lemma UpdateParamsIdempotent(m: Manager, p: Params)
    requires Valid(m) && m.activeName.Some?
    ensures Update(Update(m, p), p).params == Update(m, p).params
  {
    var a := m.activeName.value;
    MergeIdempotent(m.params[a], p);
  }

  lemma MergeIdempotent(o: Params, p: Params)
    ensures Merge(Merge(o, p), p) == Merge(o, p)
  {
  }
}

=== FILE: stairs.dfy ===
/**
 * A flight of stairs (src/app/3d/utils/Stairs.ts): the requested step
 * height is rounded so that a whole number of equal steps reaches the given
 * height, and step `i` is a box raised by `i` steps and set back by `i` step
 * depths, twice as deep as the set-back so consecutive steps overlap.
 */
module Stairs {
  import opened Wrappers

  datatype StairsParams = StairsParams(width: real, height: real, stepHeight: real, depth: Option<real>, color: Option<int>)

  /** The box of one step. */
  datatype Step = Step(width: real, height: real, depth: real, y: real, z: real, color: Option<int>)

  /** The rounded step count and the step height and depth actually used. */
  datatype Layout = Layout(count: nat, stepHeight: real, stepDepth: real)

  /** The largest length a JavaScript array can have. */
  const MAX_ARRAY_LENGTH := 0xFFFF_FFFF

  const DEFAULT_STEP_DEPTH := 50.0

  /** `Math.ceil`. */
  function Ceil(x: real): (n: int)
    ensures n as real - 1.0 < x <= n as real
  {
    if x.Floor as real == x then x.Floor else x.Floor + 1
  }

  /**
   * `Math.ceil(height / stepHeight)` and the sizes derived from it.  A zero
   * step height gives an infinite or undefined count and `Array(count)`
   * throws; so does a negative count or one past the array limit.  With no
   * steps the derived sizes are never read (they are undefined numbers in
   * the source); they are 0 here.
   */
  function LayoutOf(p: StairsParams): (r: Result<Layout>)
    ensures p.stepHeight == 0.0 ==> r.Err?
    ensures p.stepHeight != 0.0 ==>
      var n := Ceil(p.height / p.stepHeight);
      (r.Ok? <==> 0 <= n <= MAX_ARRAY_LENGTH) &&
      (r.Ok? && n > 0 ==>
         r.value.count == n && r.value.stepHeight * n as real == p.height &&
         r.value.stepDepth == (if p.depth.Some? then p.depth.value / n as real else DEFAULT_STEP_DEPTH))
    ensures r.Ok? && p.height > 0.0 && p.stepHeight > 0.0 ==> r.value.count > 0 && r.value.stepHeight <= p.stepHeight
  {
    if p.stepHeight == 0.0 then Err("RangeError: Invalid array length")
    else
      var n := Ceil(p.height / p.stepHeight);
      if n < 0 || n > MAX_ARRAY_LENGTH then Err("RangeError: Invalid array length")
      else if n == 0 then Ok(Layout(0, 0.0, 0.0))
      else
        var c := n as real;
        var sh := p.height / c;
        if p.height > 0.0 && p.stepHeight > 0.0 then
          NotTaller(p.height, p.stepHeight, c);
          Ok(Layout(n, sh, if p.depth.Some? then p.depth.value / c else DEFAULT_STEP_DEPTH))
        else Ok(Layout(n, sh, if p.depth.Some? then p.depth.value / c else DEFAULT_STEP_DEPTH))
  }

  /** Rounding the count up makes each step at most as tall as asked. */
  lemma NotTaller(h: real, s: real, c: real)
    requires h > 0.0 && s > 0.0 && c >= h / s && c > 0.0
    ensures h / c <= s
  {
    assert c * s >= h by {
      assert (h / s) * s == h;
    }
  }

  /** Step `i`: raised by `i` step heights, set back by `i` step depths, two step depths deep. */
  function StepAt(p: StairsParams, l: Layout, i: nat): (s: Step)
    ensures s.y == i as real * l.stepHeight && s.z == i as real * l.stepDepth
    ensures s.depth == 2.0 * l.stepDepth && s.height == l.stepHeight && s.width == p.width && s.color == p.color
  {
    Step(p.width, l.stepHeight, 2.0 * l.stepDepth, i as real * l.stepHeight, i as real * l.stepDepth, p.color)
  }

  /**
   * The constructor as written: `Array<Box>(stepCount)` already has
   * `stepCount` empty slots and each step is pushed after them, so the
   * `steps` field ends twice as long as the flight.  The steps added to the
   * group are right.
   */
  method BuildAsWritten(p: StairsParams) returns (r: Result<(seq<Option<Step>>, seq<Step>)>)
    ensures LayoutOf(p).Err? <==> r.Err?
    ensures r.Ok? ==>
      var n := LayoutOf(p).value.count;
      var (steps, added) := r.value;
      |steps| == 2 * n && |added| == n &&
      (forall i :: 0 <= i < n ==> steps[i].None?) &&
      (forall i :: 0 <= i < n ==> added[i] == StepAt(p, LayoutOf(p).value, i) && steps[n + i] == Some(added[i]))
  {
    var lr := LayoutOf(p);
    if lr.Err? {
      return Err(lr.error);
    }
    var l := lr.value;
    var steps: seq<Option<Step>> := seq(l.count, _ => None);
    var added: seq<Step> := [];
    var i := 0;
    while i < l.count
      invariant 0 <= i <= l.count
      invariant |steps| == l.count + i && |added| == i
      invariant forall j :: 0 <= j < l.count ==> steps[j].None?
      invariant forall j :: 0 <= j < i ==> added[j] == StepAt(p, l, j) && steps[l.count + j] == Some(added[j])
    {
      var step := StepAt(p, l, i);
      added := added + [step];
      steps := steps + [Some(step)];
      i := i + 1;
    }
    return Ok((steps, added));
  }

  /** The constructor as evidently intended: `steps` holds the flight and nothing else. */
  function Build(p: StairsParams): (r: Result<seq<Step>>)
    ensures LayoutOf(p).Err? <==> r.Err?
    ensures r.Ok? ==> |r.value| == LayoutOf(p).value.count
    ensures r.Ok? ==> forall i :: 0 <= i < |r.value| ==> r.value[i] == StepAt(p, LayoutOf(p).value, i)
  {
    match LayoutOf(p)
    case Err(e) => Err(e)
    case Ok(l) => Ok(seq(l.count, i requires 0 <= i => StepAt(p, l, i)))
  }

  // ---------------------------------------------------------------- properties

  /** Counterexample: a flight of two steps leaves `steps` four long, its first slot empty. */
  method TwoStepsAsWritten() returns (r: Result<(seq<Option<Step>>, seq<Step>)>)
    ensures r.Ok? && |r.value.0| == 4 && r.value.0[0].None?
  {
    var p := StairsParams(100.0, 40.0, 20.0, None, None);
    assert Ceil(p.height / p.stepHeight) == 2;
    r := BuildAsWritten(p);
  }

  /** Each step sits exactly on top of the one below, and the last one ends at the full height. */
  lemma {:induction false} FlightIsContinuous(p: StairsParams, i: nat)
    requires Build(p).Ok? && i < |Build(p).value|
    ensures var s := Build(p).value;
            (i + 1 < |s| ==> s[i + 1].y == s[i].y + s[i].height) &&
            (i + 1 == |s| ==> s[i].y + s[i].height == p.height)
  {
    var s := Build(p).value;
    var l := LayoutOf(p).value;
    assert s[i] == StepAt(p, l, i);
    NextLevel(i as real, l.stepHeight);
    if i + 1 < |s| {
      assert s[i + 1] == StepAt(p, l, i + 1);
    } else {
      assert l.count == i + 1 && l.stepHeight * l.count as real == p.height;
    }
  }

  /** The top of step `i` is the bottom of step `i + 1`. */
  lemma NextLevel(i: real, h: real)
    ensures i * h + h == (i + 1.0) * h
  {
  }

  /** Consecutive steps overlap by one step depth, so the flight has no gaps underneath. */
  lemma StepsOverlap(p: StairsParams, i: nat)
    requires Build(p).Ok? && i + 1 < |Build(p).value|
    ensures var s := Build(p).value; s[i + 1].z == s[i].z + s[i].depth / 2.0
  {
  }
}

=== FILE: teaching_building.dfy ===
/**
 * The teaching building (src/app/3d/utils/TeachingBuilding.ts): a box of
 * `floors` storeys stacked one floor height apart, each floor a box holding
 * five classrooms side by side along its width.
 */
module TeachingBuilding {
  import opened Wrappers
  import opened Basics
  import B = Box
  import CR = Classroom
  import R = Renderable

  const DELTA := 5.0

  const FLOOR_HEIGHT := CR.CLASSROOM_HEIGHT + 2.0 * DELTA
  const CLASSROOM_COUNT_PER_FLOOR := 5
  const FLOOR_WIDTH := CLASSROOM_COUNT_PER_FLOOR as real * CR.CLASSROOM_WIDTH
  const FLOOR_DEPTH := 2.0 * CR.CLASSROOM_DEPTH

  const BUILDING_WIDTH := FLOOR_WIDTH
  const BUILDING_DEPTH := FLOOR_DEPTH

  /** The `if: false` configuration the building and its floors pass for their four walls. */
  const Unflagged := B.SideConfig(None, None, Some(false))

  /**
   * A floor: its height in the building, its box's sides, and the parameters
   * each of its classrooms is constructed with.
   */
  datatype Floor = Floor(y: real, sides: seq<B.SideSpec>, classrooms: seq<R.Params>)

  datatype Building = Building(sides: seq<B.SideSpec>, floors: seq<Floor>)

  /** The floor's box: the floor's size, a grey floor, walls flagged off. */
  const FloorBox := B.BoxParams(FLOOR_WIDTH, FLOOR_HEIGHT, FLOOR_DEPTH, None, map[
    B.Front := Unflagged, B.Back := Unflagged, B.Left := Unflagged, B.Right := Unflagged,
    B.Bottom := B.SideConfig(None, Some(B.SideParams(Some(0x808080), None, None, None, None, None, None)), None)])

  /** The parameters of classroom `i` of a floor: `{ x: i · CLASSROOM_WIDTH, y: DELTA }` and no other key. */
  function ClassroomParams(i: nat): R.Params {
    R.NoParams.(x := Some(i as real * CR.CLASSROOM_WIDTH), y := Some(DELTA))
  }

  /**
   * `new TeachingBuildingFloor({ y })`: the floor's box and five classrooms
   * constructed with `x = i · CLASSROOM_WIDTH` and `y = DELTA`; no `z` is
   * passed.
   */
  function NewFloor(y: real): (f: Floor)
    ensures f.y == y && |f.classrooms| == CLASSROOM_COUNT_PER_FLOOR
    ensures forall i :: 0 <= i < |f.classrooms| ==>
              f.classrooms[i].x == Some(i as real * CR.CLASSROOM_WIDTH) && f.classrooms[i].y == Some(DELTA) &&
              f.classrooms[i].z.None? && f.classrooms[i] == ClassroomParams(i)
    ensures f.sides == B.Build(FloorBox)
  {
    Floor(y, B.Build(FloorBox), seq(CLASSROOM_COUNT_PER_FLOOR, i requires 0 <= i => ClassroomParams(i)))
  }

  /**
   * The building's box: as wide and deep as a floor, `(FLOOR_HEIGHT + 2 · DELTA) · floors`
   * high, no colour of its own, and its four walls configured with only the
   * `if: false` flag.
   */
  function BuildingBox(floors: int): (p: B.BoxParams)
    ensures p.width == FLOOR_WIDTH && p.depth == FLOOR_DEPTH && p.color.None?
    ensures p.height == (FLOOR_HEIGHT + 2.0 * DELTA) * floors as real
    ensures p.sides.Keys == {B.Front, B.Back, B.Left, B.Right}
    ensures forall n :: n in p.sides ==> p.sides[n] == B.SideConfig(None, None, Some(false))
  {
    B.BoxParams(BUILDING_WIDTH, (FLOOR_HEIGHT + 2.0 * DELTA) * floors as real, BUILDING_DEPTH, None, map[
      B.Front := Unflagged, B.Back := Unflagged, B.Left := Unflagged, B.Right := Unflagged])
  }

  /** `new TeachingBuilding({ floors })`: one floor per `i < floors`, floor `i` at `i · FLOOR_HEIGHT + DELTA`. */
  function New(floors: int): (b: Building)
    ensures |b.floors| == if floors < 0 then 0 else floors
    ensures forall i :: 0 <= i < |b.floors| ==> b.floors[i] == NewFloor(i as real * FLOOR_HEIGHT + DELTA)
    ensures b.sides == B.Build(BuildingBox(floors))
  {
    var n := if floors < 0 then 0 else floors;
    Building(B.Build(BuildingBox(floors)), seq(n, i requires 0 <= i => NewFloor(i as real * FLOOR_HEIGHT + DELTA)))
  }

  // ---------------------------------------------------------------- properties

  /** The floor constants: a classroom's height plus two margins, five classrooms wide, two deep. */
  lemma FloorDimensions()
    ensures FLOOR_HEIGHT == CR.CLASSROOM_HEIGHT + 10.0
    ensures FLOOR_WIDTH == 5.0 * CR.CLASSROOM_WIDTH && FLOOR_DEPTH == 2.0 * CR.CLASSROOM_DEPTH
  {
  }

  /** Each floor's box starts where the one below ends. */
  lemma FloorsStack(floors: int, i: nat)
    requires i + 1 < |New(floors).floors|
    ensures New(floors).floors[i].y + FLOOR_HEIGHT == New(floors).floors[i + 1].y
  {
  }

  /** The building's box is tall enough for all its floors. */
  lemma {:induction false} FloorsFitInBuilding(floors: int)
    requires floors > 0
    ensures var b := New(floors);
            b.floors[floors - 1].y + FLOOR_HEIGHT <= b.sides[4].position.y
  {
    var b := New(floors);
    B.SideSpansFace(BUILDING_WIDTH, (FLOOR_HEIGHT + 2.0 * DELTA) * floors as real, BUILDING_DEPTH, None, B.Top);
    assert b.sides[4] == B.BuildSide(BuildingBox(floors), B.Top);
    assert b.sides[4].position.y == (FLOOR_HEIGHT + 2.0 * DELTA) * floors as real;
    assert b.floors[floors - 1].y + FLOOR_HEIGHT == floors as real * FLOOR_HEIGHT + DELTA;
  }

  /** The five classrooms of a floor sit edge to edge and fill its width exactly. */
  lemma ClassroomsTileFloor(y: real, i: nat)
    requires i < CLASSROOM_COUNT_PER_FLOOR
    ensures var f := NewFloor(y);
            (i + 1 < CLASSROOM_COUNT_PER_FLOOR ==>
               f.classrooms[i].x.value + CR.CLASSROOM_WIDTH == f.classrooms[i + 1].x.value) &&
            (i + 1 == CLASSROOM_COUNT_PER_FLOOR ==> f.classrooms[i].x.value + CR.CLASSROOM_WIDTH == FLOOR_WIDTH)
  {
  }

  /** The walls flagged `if: false` are built all the same: each floor's box has six sides. */
  lemma FloorWallsStillBuilt()
    ensures |NewFloor(0.0).sides| == 6 && NewFloor(0.0).sides[0].ctor == B.SideCtor
    ensures NewFloor(0.0).sides[5].color == 0x808080
  {
  }
}

=== FILE: text.dfy ===
/**
 * 3D text (src/app/3d/utils/Text.ts): a renderable whose text settings are
 * merged over fixed defaults, whose material colour follows colour updates,
 * and which requests its font again whenever a setting the geometry depends
 * on changes.  The font request is recorded with the settings captured when
 * it was made; building the mesh when it arrives is three.js work.
 *
 * `update` compares each supplied key with `this.state`, and the `state`
 * getter lays the renderable state over the text's own fields, so a key
 * the renderable state holds wins.  That state always holds `height` and
 * `color` (its defaults are a height of 0 and the colour string
 * `'#ffffff'`), and it takes over every other key an update or the
 * constructor passes on, because `super.update(params)` merges all of them.
 */
module Text {
  import opened Wrappers
  import R = Renderable

  /** `ITextParams`: the text keys, and the renderable keys (`height` is shared with the renderable's). */
  datatype TextParams = TextParams(
    content: Option<string>, size: Option<real>, color: Option<int>,
    font: Option<string>, fontStyle: Option<string>, base: R.Params)

  /** The text keys the renderable state has taken over; an absent colour leaves its default string. */
  datatype TextKeys = TextKeys(
    content: Option<string>, size: Option<real>, color: Option<int>,
    font: Option<string>, fontStyle: Option<string>)

  const NoKeys := TextKeys(None, None, None, None, None)

  /** One `loadFont()` call: the font file asked for and the settings the geometry will be built with. */
  datatype FontRequest = FontRequest(url: string, content: string, size: real, height: real)

  /**
   * The text's own fields, its material colour, the font requests made so
   * far, and its renderable state: the renderable keys in `base` and the
   * text keys merged into it in `held`.
   */
  datatype Text = Text(
    content: string, size: real, height: real, color: int, font: string, fontStyle: string,
    materialColor: int,
    requests: seq<FontRequest>,
    base: R.State,
    held: TextKeys)

  const DefaultContent := ""
  const DefaultSize := 20.0
  const DefaultHeight := 1.0
  const DefaultColor := 0x000000
  const DefaultFont := "helvetiker"
  const DefaultFontStyle := "regular"

  /** The font file `loadFont` asks the asset manager for. */
  function FontUrl(font: string, fontStyle: string): string {
    "fonts/" + font + "_" + fontStyle + ".typeface.json"
  }

  function Request(t: Text): FontRequest {
    FontRequest(FontUrl(t.font, t.fontStyle), t.content, t.size, t.height)
  }

  /** The renderable part of the parameters; the numeric text colour replaces the renderable's colour key. */
  function BaseParams(p: TextParams): R.Params {
    p.base.(color := None)
  }

  /** `Object.assign` of the supplied text keys into those already held. */
  function MergeKeys(k: TextKeys, p: TextParams): TextKeys {
    TextKeys(if p.content.Some? then p.content else k.content,
             if p.size.Some? then p.size else k.size,
             if p.color.Some? then p.color else k.color,
             if p.font.Some? then p.font else k.font,
             if p.fontStyle.Some? then p.fontStyle else k.fontStyle)
  }

  // The `state` getter, key by key: the renderable state's value when it holds one, else the own field.

  function StateContent(t: Text): string { t.held.content.GetOr(t.content) }
  function StateSize(t: Text): real { t.held.size.GetOr(t.size) }
  function StateFont(t: Text): string { t.held.font.GetOr(t.font) }
  function StateFontStyle(t: Text): string { t.held.fontStyle.GetOr(t.fontStyle) }
  function StateHeight(t: Text): real { t.base.height }

  /** `params.color !== this.state.color`; the default colour string equals no number. */
  predicate ColorDiffers(t: Text, p: TextParams) {
    p.color.Some? && t.held.color != p.color
  }

  /**
   * What every text reachable by the constructor and updates keeps: a text
   * key the renderable state holds agrees with the own field, and the
   * material shows the colour the renderable state holds.
   */
  predicate Valid(t: Text) {
    (t.held.content.Some? ==> t.held.content.value == t.content) &&
    (t.held.size.Some? ==> t.held.size.value == t.size) &&
    (t.held.font.Some? ==> t.held.font.value == t.font) &&
    (t.held.fontStyle.Some? ==> t.held.fontStyle.value == t.fontStyle) &&
    (t.held.color.Some? ==> t.held.color.value == t.materialColor)
  }

  /**
   * The constructor, with the renderable constructor merging the parameters
   * into the renderable state: the text keys over the defaults, the material
   * in the text's colour, one font request.
   */
  function New(p: TextParams): (r: Text)
    ensures r.content == p.content.GetOr(DefaultContent) && r.size == p.size.GetOr(DefaultSize)
    ensures r.height == p.base.height.GetOr(DefaultHeight) && r.color == p.color.GetOr(DefaultColor)
    ensures r.font == p.font.GetOr(DefaultFont) && r.fontStyle == p.fontStyle.GetOr(DefaultFontStyle)
    ensures r.materialColor == r.color
    ensures r.requests == [FontRequest(FontUrl(r.font, r.fontStyle), r.content, r.size, r.height)]
    ensures r.base == R.Merge(R.DefaultState, BaseParams(p))
    ensures StateHeight(r) == p.base.height.GetOr(R.DefaultState.height)
    ensures r.held == TextKeys(p.content, p.size, p.color, p.font, p.fontStyle)
    ensures Valid(r)
  {
    var t := Text(
      p.content.GetOr(DefaultContent), p.size.GetOr(DefaultSize), p.base.height.GetOr(DefaultHeight),
      p.color.GetOr(DefaultColor), p.font.GetOr(DefaultFont), p.fontStyle.GetOr(DefaultFontStyle),
      p.color.GetOr(DefaultColor), [], R.Merge(R.DefaultState, BaseParams(p)), MergeKeys(NoKeys, p));
    t.(requests := [Request(t)])
  }

  /** A supplied value that differs from the current one. */
  predicate Differs<T(==)>(given: Option<T>, current: T) {
    given.Some? && given.value != current
  }

  /** The own field after the loop: taken over when the supplied value differs from the state's. */
  function Take<T(==)>(given: Option<T>, seen: T, own: T): T {
    if Differs(given, seen) then given.value else own
  }

  /** Whether an update touches a geometry setting, judged against the `state` getter. */
  predicate Changed(t: Text, p: TextParams) {
    Differs(p.content, StateContent(t)) || Differs(p.font, StateFont(t)) ||
    Differs(p.fontStyle, StateFontStyle(t)) || Differs(p.base.height, StateHeight(t)) ||
    Differs(p.size, StateSize(t))
  }

  /**
   * `update(params)`: a colour that differs from the state's recolours the
   * material; each geometry setting that differs from the state's replaces
   * the own field, and any such change requests the font once with the new
   * settings; then every key is merged into the renderable state.  In a
   * valid text the four text settings end up as supplied; the height only
   * when it differs from the renderable state's height.
   */
  function Update(t: Text, p: TextParams): (r: Text)
    ensures Valid(t) ==> Valid(r)
    ensures ColorDiffers(t, p) ==> r.materialColor == p.color.value
    ensures !ColorDiffers(t, p) ==> r.materialColor == t.materialColor
    ensures Valid(t) && p.color.Some? ==> r.materialColor == p.color.value
    ensures r.color == t.color
    ensures Valid(t) ==>
      r.content == p.content.GetOr(t.content) && r.size == p.size.GetOr(t.size) &&
      r.font == p.font.GetOr(t.font) && r.fontStyle == p.fontStyle.GetOr(t.fontStyle)
    ensures Differs(p.base.height, StateHeight(t)) ==> r.height == p.base.height.value
    ensures !Differs(p.base.height, StateHeight(t)) ==> r.height == t.height
    ensures Changed(t, p) ==> r.requests == t.requests + [Request(r)]
    ensures !Changed(t, p) ==> r.requests == t.requests
    ensures r.base == R.Merge(t.base, BaseParams(p)) && r.held == MergeKeys(t.held, p)
  {
    var material := if ColorDiffers(t, p) then p.color.value else t.materialColor;
    var s := t.(content := Take(p.content, StateContent(t), t.content),
                font := Take(p.font, StateFont(t), t.font),
                fontStyle := Take(p.fontStyle, StateFontStyle(t), t.fontStyle),
                height := Take(p.base.height, StateHeight(t), t.height),
                size := Take(p.size, StateSize(t), t.size));
    var s1 := if Changed(t, p) then s.(requests := t.requests + [Request(s)]) else s;
    s1.(materialColor := material, base := R.Merge(t.base, BaseParams(p)), held := MergeKeys(t.held, p))
  }

  // ---------------------------------------------------------------- properties

  /**
   * With nothing supplied the text is empty, size 20, height 1, black, in the
   * regular helvetiker font, while its state reports the renderable height 0.
   */
  lemma DefaultsApplied()
    ensures var t := New(TextParams(None, None, None, None, None, R.NoParams));
            t.content == "" && t.size == 20.0 && t.height == 1.0 && t.color == 0 &&
            StateHeight(t) == 0.0 && t.held == NoKeys &&
            t.requests == [FontRequest(FontUrl("helvetiker", "regular"), "", 20.0, 1.0)]
  {
  }

  /** A colour-only update shows the colour and requests no font. */
  lemma ColorOnlyNoReload(t: Text, c: int)
    requires Valid(t)
    ensures var r := Update(t, TextParams(None, None, Some(c), None, None, R.NoParams));
            r.materialColor == c && r.requests == t.requests
  {
  }

  /** Repeating an update requests no further font: the state already holds every supplied setting. */
  lemma UpdateTwiceLoadsOnce(t: Text, p: TextParams)
    requires Valid(t)
    ensures !Changed(Update(t, p), p) && Update(Update(t, p), p).requests == Update(t, p).requests
  {
  }

  /** A change of colour and back again shows the original colour: the state held the changed one. */
  lemma ColorRevertRecolours(c: int, x: int)
    requires c != x
    ensures var t := New(TextParams(None, None, Some(c), None, None, R.NoParams));
            var t1 := Update(t, TextParams(None, None, Some(x), None, None, R.NoParams));
            t1.materialColor == x &&
            Update(t1, TextParams(None, None, Some(c), None, None, R.NoParams)).materialColor == c
  {
  }

  /**
   * The height is judged against the renderable state, not the text's own
   * height: a default text asked for height 0 keeps its own height 1 and
   * requests nothing, while one asked for its own height 1 requests the font
   * again.
   */
  lemma HeightComparedWithState()
    ensures var t := New(TextParams(None, None, None, None, None, R.NoParams));
            var r := Update(t, TextParams(None, None, None, None, None, R.NoParams.(height := Some(0.0))));
            r.height == 1.0 && r.requests == t.requests
    ensures var t := New(TextParams(None, None, None, None, None, R.NoParams));
            var r := Update(t, TextParams(None, None, None, None, None, R.NoParams.(height := Some(1.0))));
            r.height == 1.0 && |r.requests| == |t.requests| + 1
  {
  }

  /** The material always shows the last colour asked for, and keeps its colour through colourless updates. */
  lemma {:induction false} MaterialFollowsLastColor(t: Text, ps: seq<TextParams>)
    requires Valid(t)
    ensures Valid(UpdateAll(t, ps))
    ensures |ps| > 0 && ps[|ps| - 1].color.Some? ==> UpdateAll(t, ps).materialColor == ps[|ps| - 1].color.value
    ensures (forall k :: 0 <= k < |ps| ==> ps[k].color.None?) ==> UpdateAll(t, ps).materialColor == t.materialColor
    decreases |ps|
  {
    if |ps| > 0 {
      MaterialFollowsLastColor(t, ps[..|ps| - 1]);
    }
  }

  /** A run of updates, first to last. */
  function UpdateAll(t: Text, ps: seq<TextParams>): Text
    decreases |ps|
  {
    if |ps| == 0 then t else Update(UpdateAll(t, ps[..|ps| - 1]), ps[|ps| - 1])
  }
}

=== FILE: user_session.dfy ===
/**
 * The user session (src/app/user-session.service.ts): a token kept in memory
 * and in local storage under `JWT`, a ready flag that is set exactly while a
 * token is held, and the authorisation header built from it.  The HTTP
 * login call is an outcome fed in by the caller.
 */
module UserSession {
  import opened Wrappers

  datatype Status = NotReady | Ready

  const TOKEN_KEY := "JWT"

  /** The service and the local storage it writes to. */
  datatype Session = Session(token: Option<string>, status: Status, storage: map<string, string>)

  /** Ready exactly while a token is held. */
  predicate Valid(s: Session) {
    s.status == Ready <==> s.token.Some?
  }

  /** The constructor reads the stored token but never uses it: a new service is not ready. */
  function New(storage: map<string, string>): (s: Session)
    ensures Valid(s) && s.status == NotReady && s.token.None? && s.storage == storage
  {
    Session(None, NotReady, storage)
  }

  /** `checkToken`: every token passes. */
  predicate CheckToken(token: string) {
    true
  }

  /** `saveToken(token)`: held, stored under `JWT`, ready. */
  function SaveToken(s: Session, token: string): (r: Session)
    ensures Valid(r) && r.status == Ready && r.token == Some(token)
    ensures TOKEN_KEY in r.storage && r.storage[TOKEN_KEY] == token
    ensures forall k :: k != TOKEN_KEY ==> (k in r.storage <==> k in s.storage)
  {
    Session(Some(token), Ready, s.storage[TOKEN_KEY := token])
  }

  /** `logout()`: the token is dropped from memory and storage, and the service is no longer ready. */
  function Logout(s: Session): (r: Session)
    ensures Valid(r) && r.status == NotReady && r.token.None?
    ensures TOKEN_KEY !in r.storage
    ensures forall k :: k != TOKEN_KEY ==> (k in r.storage <==> k in s.storage)
  {
    Session(None, NotReady, s.storage - {TOKEN_KEY})
  }

  /** What the login request produced: a response carrying a token, or an HTTP error. */
  datatype LoginOutcome = Response(token: string) | Failure(status: nat)

  /**
   * `login(request)`: the response is passed to the service's own
   * subscriber, which saves any token `checkToken` accepts, and then to the
   * caller; an error reaches the caller only.
   */
  function Login(s: Session, outcome: LoginOutcome): (r: (Session, LoginOutcome))
    ensures r.1 == outcome
    ensures outcome.Response? ==> r.0 == SaveToken(s, outcome.token)
    ensures outcome.Failure? ==> r.0 == s
  {
    if outcome.Response? && CheckToken(outcome.token) then (SaveToken(s, outcome.token), outcome)
    else (s, outcome)
  }

  /** `getIsReady()`. */
  function IsReady(s: Session): (b: bool)
    ensures Valid(s) ==> (b <==> s.token.Some?)
  {
    s.status == Ready
  }

  /** A header: its field name and value. */
  datatype Header = Header(name: string, value: string)

  /**
   * `getAuthHeaders()` as written: throws while not ready, otherwise one
   * field whose name is `Authorization:`, colon included.
   */
  function AuthHeadersAsWritten(s: Session): (r: Result<Header>)
    requires Valid(s)
    ensures r.Err? <==> s.status == NotReady
    ensures r.Ok? ==> r.value == Header("Authorization:", s.token.value)
  {
    if s.status == NotReady then Err("Error") else Ok(Header("Authorization:", s.token.value))
  }

  /** `getAuthHeaders()` as evidently intended: the `Authorization` field. */
  function AuthHeaders(s: Session): (r: Result<Header>)
    requires Valid(s)
    ensures r.Err? <==> s.status == NotReady
    ensures r.Ok? ==> IsFieldName(r.value.name) && r.value.value == s.token.value
  {
    if s.status == NotReady then Err("Error")
    else
      assert forall i :: 0 <= i < |"Authorization"| ==> IsTchar("Authorization"[i]);
      Ok(Header("Authorization", s.token.value))
  }

  /** A `tchar` of section 5.6.2 of RFC 9110. */
  predicate IsTchar(c: char) {
    ('a' <= c <= 'z') || ('A' <= c <= 'Z') || ('0' <= c <= '9') ||
    c in {'!', '#', '$', '%', '&', '\'', '*', '+', '-', '.', '^', '_', '`', '|', '~'}
  }

  /** A field name is a token: one or more `tchar` (section 5.1 of RFC 9110). */
  predicate IsFieldName(name: string) {
    |name| > 0 && forall i :: 0 <= i < |name| ==> IsTchar(name[i])
  }

  // ---------------------------------------------------------------- properties

  /** Counterexample: the header name the service hands out is not a valid field name. */
  lemma AuthHeaderNameInvalid(s: Session)
    requires Valid(s) && s.status == Ready
    ensures !IsFieldName(AuthHeadersAsWritten(s).value.name)
  {
    assert "Authorization:"[13] == ':';
  }

  /** After a successful login the service is ready and the header carries the new token; logging out undoes it. */
  lemma LoginThenLogout(s: Session, token: string)
    requires Valid(s)
    ensures var (s1, _) := Login(s, Response(token));
            IsReady(s1) && AuthHeaders(s1) == Ok(Header("Authorization", token)) &&
            !IsReady(Logout(s1)) && AuthHeaders(Logout(s1)).Err? && TOKEN_KEY !in Logout(s1).storage
  {
  }

  /** A failed login leaves a logged-out service logged out. */
  lemma FailedLoginStaysOut(s: Session, status: nat)
    requires Valid(s) && s.status == NotReady
    ensures !IsReady(Login(s, Failure(status)).0)
  {
  }

  /** A stored token from an earlier run does not make a new service ready. */
  lemma StoredTokenIgnored(storage: map<string, string>)
    requires TOKEN_KEY in storage
    ensures !IsReady(New(storage)) && AuthHeaders(New(storage)).Err?
  {
  }
}

=== FILE: view.dfy ===
/**
 * The view base class (src/app/3d/views/View.ts): a per-event listener
 * registry with `on`, `off` and `emit`, and the stored move state.
 */
module View {
  import opened Basics

  type ListenerId = nat

  /** One listener invocation: `sub(args)`, the argument array passed whole. */
  datatype Call = Call(listener: ListenerId, args: seq<int>)

  /** The `{ destory }` handle returned by `on`. */
  datatype Handle = Handle(event: string, listener: ListenerId)

  /**
   * `eventMap` holds one JavaScript `Set` per event; a set iterates in
   * insertion order, so it is a duplicate-free sequence here.  `delivered`
   * records the listener invocations made so far.
   */
  datatype View = View(eventMap: map<string, seq<ListenerId>>, moveState: MoveState, delivered: seq<Call>)

  const Initial := View(map[], Still, [])

  predicate NoDup(s: seq<ListenerId>) {
    forall i, j :: 0 <= i < j < |s| ==> s[i] != s[j]
  }

  predicate Valid(v: View) {
    forall e :: e in v.eventMap ==> NoDup(v.eventMap[e])
  }

  /** `Set.add`: append unless already present. */
  function SetAdd(s: seq<ListenerId>, l: ListenerId): (r: seq<ListenerId>)
    ensures NoDup(s) ==> NoDup(r)
    ensures forall x :: x in r <==> x in s || x == l
    ensures l in s ==> r == s
  {
    if l in s then s else s + [l]
  }

  /** `Set.delete`: drop the element if present, keeping the order of the rest. */
  function SetDelete(s: seq<ListenerId>, l: ListenerId): (r: seq<ListenerId>)
    ensures NoDup(s) ==> NoDup(r)
    ensures forall x :: x in r <==> x in s && x != l
    ensures |r| <= |s|
  {
    if |s| == 0 then []
    else if s[0] == l then SetDelete(s[1..], l)
    else
      var rest := SetDelete(s[1..], l);
      assert NoDup(s) ==> s[0] !in s[1..];
      [s[0]] + rest
  }

  /** `on(eventName, listener)`: create the set if absent, add the listener, return its destroyer. */
  function On(v: View, name: string, l: ListenerId): (r: (View, Handle))
    ensures r.0.eventMap.Keys == v.eventMap.Keys + {name}
    ensures l in r.0.eventMap[name]
    ensures name in v.eventMap ==> r.0.eventMap[name] == SetAdd(v.eventMap[name], l)
    ensures name !in v.eventMap ==> r.0.eventMap[name] == [l]
    ensures forall e :: e in v.eventMap && e != name ==> r.0.eventMap[e] == v.eventMap[e]
    ensures Valid(v) ==> Valid(r.0)
    ensures r.1 == Handle(name, l) && r.0.delivered == v.delivered
  {
    var subs := if name in v.eventMap then v.eventMap[name] else [];
    (v.(eventMap := v.eventMap[name := SetAdd(subs, l)]), Handle(name, l))
  }

  /**
   * `off(eventName, listener)` as written: `subs.delete(v => v === listener)`
   * asks the set to delete a freshly made arrow function, which was never
   * added, so nothing is removed.
   */
  function OffAsWritten(v: View, name: string, l: ListenerId): (r: View)
    ensures r.eventMap == v.eventMap
  {
    v
  }

  /** What `off` evidently intends: `subs.delete(listener)`. */
  function Off(v: View, name: string, l: ListenerId): (r: View)
    ensures r.eventMap.Keys == v.eventMap.Keys
    ensures name in v.eventMap ==> r.eventMap[name] == SetDelete(v.eventMap[name], l) && l !in r.eventMap[name]
    ensures forall e :: e in v.eventMap && e != name ==> r.eventMap[e] == v.eventMap[e]
    ensures Valid(v) ==> Valid(r)
    ensures r.delivered == v.delivered
  {
    if name in v.eventMap then v.(eventMap := v.eventMap[name := SetDelete(v.eventMap[name], l)]) else v
  }

  /**
   * The handle's `destory`, as written: `off` with the registered pair, which
   * leaves every listener set, the move state and the delivered calls alone.
   */
  function DestroyAsWritten(v: View, h: Handle): (r: View)
    ensures r.eventMap == v.eventMap && r.moveState == v.moveState && r.delivered == v.delivered
  {
    OffAsWritten(v, h.event, h.listener)
  }

  /** `emit(eventName, ...args)`: every listener of the event, in insertion order, gets the argument array. */
  function Emit(v: View, name: string, args: seq<int>): (r: View)
    ensures r.eventMap == v.eventMap && r.moveState == v.moveState
    ensures name !in v.eventMap ==> r == v
    ensures name in v.eventMap ==>
      |r.delivered| == |v.delivered| + |v.eventMap[name]| &&
      r.delivered[..|v.delivered|] == v.delivered &&
      forall i :: 0 <= i < |v.eventMap[name]| ==>
        r.delivered[|v.delivered| + i] == Call(v.eventMap[name][i], args)
  {
    if name in v.eventMap then
      v.(delivered := v.delivered + Calls(v.eventMap[name], args))
    else v
  }

  function Calls(subs: seq<ListenerId>, args: seq<int>): (r: seq<Call>)
    ensures |r| == |subs| && forall i :: 0 <= i < |subs| ==> r[i] == Call(subs[i], args)
  {
    seq(|subs|, i requires 0 <= i < |subs| => Call(subs[i], args))
  }

  /** `onMove(state)`: the stored move state is replaced wholesale. */
  function OnMove(v: View, state: MoveState): (r: View)
    ensures r.moveState == state && r.eventMap == v.eventMap && r.delivered == v.delivered
  {
    v.(moveState := state)
  }

  // ---------------------------------------------------------------- properties

  /**
   * `onMove` only swaps the stored state: it commutes with `on` and `emit`,
   * so the registry and the calls delivered are the same whichever comes
   * first, and of two `onMove` calls the later one decides.
   */
  lemma OnMoveCommutes(v: View, state: MoveState, other: MoveState, name: string, l: ListenerId, args: seq<int>)
    ensures OnMove(On(v, name, l).0, state) == On(OnMove(v, state), name, l).0
    ensures OnMove(Emit(v, name, args), state) == Emit(OnMove(v, state), name, args)
    ensures OnMove(OnMove(v, other), state) == OnMove(v, state)
    ensures Emit(OnMove(v, state), name, args).moveState == state
  {
  }

  /** Registering the same listener twice stores it once. */
  lemma OnTwiceStoresOnce(v: View, name: string, l: ListenerId)
    ensures On(On(v, name, l).0, name, l).0 == On(v, name, l).0
  {
  }

  /** Counterexample: after `on` and the handle's `destory`, the listener is still registered. */
  lemma DestroyLeavesListener(v: View, name: string, l: ListenerId)
    ensures var (v1, h) := On(v, name, l);
            l in DestroyAsWritten(v1, h).eventMap[name]
  {
  }

  /** With the intended `off`, a listener added to an existing event and then removed leaves the registry as it was. */
  lemma {:induction false} OnOffRoundTrip(v: View, name: string, l: ListenerId)
    requires name in v.eventMap && l !in v.eventMap[name]
    ensures var (v1, h) := On(v, name, l); Off(v1, h.event, h.listener) == v
  {
    var s := v.eventMap[name];
    DeleteAppended(s, l);
    assert v.eventMap[name := s] == v.eventMap;
  }

  lemma {:induction false} DeleteAppended(s: seq<ListenerId>, l: ListenerId)
    requires l !in s
    ensures SetDelete(s + [l], l) == s
    decreases |s|
  {
    if |s| == 0 {
      assert SetDelete([l], l) == SetDelete([], l);
    } else {
      assert (s + [l])[1..] == s[1..] + [l];
      DeleteAppended(s[1..], l);
      assert [s[0]] + s[1..] == s;
    }
  }

  /** `emit` reaches every registered listener exactly once when the registry is valid. */
  lemma EmitCallsEachOnce(v: View, name: string, args: seq<int>, l: ListenerId)
    requires Valid(v) && name in v.eventMap && l in v.eventMap[name]
    ensures var added := Emit(v, name, args).delivered[|v.delivered|..];
            multiset(added)[Call(l, args)] == 1
  {
    var subs := v.eventMap[name];
    var added := Emit(v, name, args).delivered[|v.delivered|..];
    assert added == Calls(subs, args);
    CallsOnce(subs, args, l);
  }

  lemma {:induction false} CallsOnce(subs: seq<ListenerId>, args: seq<int>, l: ListenerId)
    requires NoDup(subs) && l in subs
    ensures multiset(Calls(subs, args))[Call(l, args)] == 1
    decreases |subs|
  {
    var c := Calls(subs, args);
    var t := Calls(subs[1..], args);
    assert c[1..] == t;
    assert c == [c[0]] + t;
    assert multiset(c) == multiset([c[0]]) + multiset(t);
    if subs[0] == l {
      assert l !in subs[1..];
      assert Call(l, args) !in t by {
        forall i | 0 <= i < |t| ensures t[i] != Call(l, args) {
          assert t[i] == Call(subs[1..][i], args);
        }
      }
    } else {
      assert NoDup(subs[1..]);
      CallsOnce(subs[1..], args, l);
    }
  }
}

=== FILE: wrappers.dfy ===
/** Failure-carrying wrappers shared by every module of the model. */
module Wrappers {

  /** A value that may be missing: JavaScript's `undefined`/`null` or an absent key. */
  datatype Option<+T> = None | Some(value: T) {
    function GetOr(default: T): T {
      match this
      case Some(v) => v
      case None => default
    }
  }

  /** The outcome of an operation that can throw or reject. */
  datatype Result<+T> = Ok(value: T) | Err(error: string)
}
